=== FILE: README.md ===
# Rust-Tcp HTTP core and data models, in Dafny

This project models the HTTP layer and the data models of the `tcp-server` crate, a small
HTTP/1.1 server over raw TCP that stores users, sessions, sensors and sensor data points.
The model covers five parts of the crate:

- **Requests**: how one buffer of request bytes becomes an `HttpRequest`. The method comes
  from the first token, the route from the path, the query parameters are
  form-urlencoded, and the headers are lower-cased `name: value` lines. The body is parsed
  as JSON by `parse_body`.
- **Responses**: how an `HttpResponse` is printed as a status line, an exact
  `content-length`, the header lines, an empty line and the body, and the canned error
  responses.
- **Headers**: the header map (`HttpHeader`) with its canned header sets and the session
  cookie.
- **Routes**: request paths sorted into routes (`HttpPath`) with their sub-paths and
  `/`-separated sections.
- **Data models**: the `BaseModel` trait (insert a model from a JSON body, answer with its
  public JSON) and the six models. Each model has validity, public JSON, `fill_from`, and
  its database interfaces addressed by path sections.

Module layout follows the source files:

| module | file | source |
|---|---|---|
| `Methods` | `http_method.dfy` | `http/http_method.rs` |
| `Paths` | `http_path.dfy` | `http/http_path.rs` |
| `Headers` | `http_header.dfy` | `http/http_header.rs` |
| `Responses` | `http_response.dfy` | `http/http_response.rs` |
| `Requests` | `http_request.dfy` | `http/http_request.rs` |
| `BaseModels` | `base_model.dfy` | `models/base_model.rs` |
| `Users` | `user_model.dfy` | `models/user_model.rs` |
| `Sessions` | `session_model.dfy` | `models/session_model.rs` |
| `SessionSensors` | `session_sensor_model.dfy` | `models/session_sensor_model.rs` |
| `SensorData` | `session_sensor_data_model.dfy` | `models/session_sensor_data_model.rs` |
| `Sensors` | `sensor_model.dfy` | `models/sensor_model.rs` |
| `LegacySensorData` | `session_sensor_data.dfy` | `models/session_sensor_data.rs` |

Five support modules model the library behaviour the core relies on:

- `Common`: `Option`/`Result`, `split_once`, `split`, `join`, `trim`, `trim_end_matches`
  and `to_lowercase` on ASCII.
- `Decimal`: integer `Display`, and `str::parse::<i64>` with its error kinds.
- `Utf8`: `into_bytes`, `str::from_utf8` and `String::from_utf8_lossy`.
- `Json`: `serde_json::Value`, `get`, `as_array`, and the string escaping of
  `Value::to_string`.
- `FormUrlEncoded`: `url::form_urlencoded::parse`.

Modelling choices:

- `HttpHeader` and `HttpRequest` are classes, because their methods update their fields in
  place: `insert`, `with`, `set_session`, `default` and `parse_body`. Request parsing is the
  static method `HttpRequest.FromRequestBytes`. It builds its header through the method
  `ParseHeaderLines`, a loop of `insert` calls proved against the function `HeaderMapOf`.
- `HttpResponse` and the models are datatypes. `fill_from` is a method on values, proved
  against a function `Filled`.
- Callers of the source supply some things. These become function parameters:
  - the `Database` trait methods each interface calls;
  - `serde_json::from_value` for each model (`fromValue`) and `serde_json::from_str`
    (`parseJson`);
  - Rust's `Debug` printing of a request body;
  - the iteration order of a `HashMap` (`order`);
  - the clock (`now`, seconds since the epoch).

## Model

| member | source | states |
|---|---|---|
| Methods.AllTypes | tcp-server/src/http/http_method.rs:21-28 | the classification table has six entries, in declaration order |
| Methods.HttpMethod.AsStr | tcp-server/src/http/http_method.rs:31-40 | every token is at least three upper-case ASCII letters |
| Methods.HttpMethod.ToBytes | tcp-server/src/http/http_method.rs:52-54 | the bytes are the token's characters, one byte each |
| Methods.FromBytes | tcp-server/src/http/http_method.rs:56-63 | a non-`Error` result's token is a prefix of the input |
| Methods.FromString | tcp-server/src/http/http_method.rs:43-50 | a non-`Error` result's token is a prefix of the text |
| Methods.FromBytesFirstMatch | tcp-server/src/http/http_method.rs:57-61 | the result is the first method in table order whose token starts the input |
| Methods.FromBytesNoMatch | tcp-server/src/http/http_method.rs:62 | input that starts with no token is `Error` |
| Methods.FromBytesEmpty | tcp-server/src/http/http_method.rs:56-63 | the empty input is `Error` |
| Methods.FromStringFromBytes | tcp-server/src/http/http_method.rs:43-63 | classifying a text equals classifying its UTF-8 bytes |
| Methods.FromBytesToBytes | tcp-server/src/http/http_method.rs:52-63 | `from_bytes(m.to_bytes()) == m` for every method |
| Methods.FromStringAsStr | tcp-server/src/http/http_method.rs:31-50 | `from_string(m.as_str()) == m` for every method |
| Methods.TokensPrefixFree | tcp-server/src/http/http_method.rs:31-40 | no token is a prefix of another, so table order never hides a method |
| Methods.AsStrInjective | tcp-server/src/http/http_method.rs:31-40 | different methods have different tokens |
| Methods.PrefixOnly | tcp-server/src/http/http_method.rs:58 | matching has no token boundary: `GETX /` is classified `GET` |
| Paths.HttpPath.ToString | tcp-server/src/http/http_path.rs:30-34 | the printed path is the endpoint followed by the sub-path |
| Paths.HttpPath.WithSubpath | tcp-server/src/http/http_path.rs:12-16 | same route, new sub-path |
| Paths.Variants | tcp-server/src/http/http_path.rs:18-22 | eight routes, each with an empty sub-path |
| Paths.FindVariant | tcp-server/src/http/http_path.rs:77-80 | a found route has the base as its endpoint and is in the list; none found means no endpoint equals the base |
| Paths.SplitBase | tcp-server/src/http/http_path.rs:73-76 | the base to match is never empty |
| Paths.SplitBaseShape | tcp-server/src/http/http_path.rs:73-76 | for a path starting with `/`: base and sub-path concatenate to the path, the base is `/` plus `/`-free text, and the sub-path is empty exactly when there is no second `/` |
| Paths.FromString | tcp-server/src/http/http_path.rs:72-85 | a `NotFound` result carries the whole path |
| Paths.FromStringRoute | tcp-server/src/http/http_path.rs:77-82 | a base equal to a route's endpoint gives that route carrying the sub-path |
| Paths.FindVariantOf | tcp-server/src/http/http_path.rs:77-80 | searching the routes for a route's endpoint finds that route |
| Paths.FromStringNoRoute | tcp-server/src/http/http_path.rs:83 | a base equal to no endpoint gives `NotFound(path)` |
| Paths.FromStringRoundTrip | tcp-server/src/http/http_path.rs:72-85 | printing a classified path gives back every path that starts with `/` |
| Paths.EndpointShape | tcp-server/src/http/http_path.rs:63-70 | every endpoint but the not-found one is `/` followed by `/`-free text |
| Paths.BasePathsDistinct | tcp-server/src/http/http_path.rs:63-70 | routes with the same endpoint are the same route |
| Paths.SplitBaseOfRoute | tcp-server/src/http/http_path.rs:73-76 | an endpoint followed by an empty or `/`-led sub-path splits back into the two |
| Paths.FromStringOfRoute | tcp-server/src/http/http_path.rs:72-85 | an endpoint followed by an empty or `/`-led sub-path is that route carrying that sub-path |
| Paths.FromStringIndex | tcp-server/src/http/http_path.rs:72-85 | `/` is `Index("")` |
| Paths.FromStringNotFoundExample | tcp-server/src/http/http_path.rs:83 | `/unknown/...` is `NotFound` carrying the whole path |
| Paths.FromStringFirstCharIgnored | tcp-server/src/http/http_path.rs:73 | the first character is skipped unread: when a later `/` follows, any ASCII character there acts as `/` |
| Paths.Subsection | tcp-server/src/http/http_path.rs:87-92 | a section never contains `/` |
| Paths.SubsectionJoin | tcp-server/src/http/http_path.rs:87-92 | for `/` and `/`-free segments joined by `/`: section i is segment i, and past the end is `None` |
| Paths.SubsectionPair | tcp-server/src/http/http_path.rs:87-92 | `/<a>/<b>` with `/`-free `a` and `b` has sections `a`, `b`, then `None` |
| Paths.SubsectionEmpty | tcp-server/src/http/http_path.rs:88-90 | the empty sub-path has no sections |
| Paths.SubsectionSingle | tcp-server/src/http/http_path.rs:91 | `/segment` has exactly one section |
| Headers.HttpStatus.AsStr | tcp-server/src/http/http_header.rs:16-26 | a status string is three digits, a space and a reason phrase |
| Headers.StatusStartsWithCode | tcp-server/src/http/http_header.rs:5-26 | the status string starts with the enum discriminant in decimal |
| Headers.StatusCodesDistinct | tcp-server/src/http/http_header.rs:5-26 | different statuses have different codes |
| Headers.HttpHeaderType.AsStr | tcp-server/src/http/http_header.rs:53-72 | every header name is at least four characters long |
| Headers.AsStrLowerCase | tcp-server/src/http/http_header.rs:53-72 | every header name is its own lower-cased form, the form request parsing stores names in (`http_request.rs:91`) |
| Headers.Get | tcp-server/src/http/http_header.rs:178-180 | `Some` exactly for a present key, with its value |
| Headers.InsertAll | tcp-server/src/http/http_header.rs:94-99 | the keys after inserting pairs are the old keys plus the inserted ones |
| Headers.InsertAllGet | tcp-server/src/http/http_header.rs:94-99 | for a repeated key the last inserted value wins; other keys keep their value |
| Headers.SessionCookie | tcp-server/src/http/http_header.rs:101-109 | the value is exactly `session_id=<id>` followed by the fixed attributes `; HttpOnly; SameSite=Strict; Max-Age=3600; Path=/`: its length, its prefix up to `;`, its attribute suffix and the id between them |
| Headers.DefaultPairsContents | tcp-server/src/http/http_header.rs:117-126 | the defaults are exactly credentials `true` and the time in seconds |
| Headers.DefaultJsonContents | tcp-server/src/http/http_header.rs:128-135 | the JSON defaults are exactly credentials, time and `application/json` |
| Headers.DefaultHtmlContents | tcp-server/src/http/http_header.rs:137-144 | the HTML defaults are exactly credentials, time and `application/html` |
| Headers.DefaultOptionsContents | tcp-server/src/http/http_header.rs:146-164 | the preflight headers are exactly the five listed, with no allowed origin |
| Headers.CookieTail | tcp-server/src/http/http_header.rs:184 | defined exactly when the key occurs, and then exactly the text after the key's first occurrence |
| Headers.CookieValue | tcp-server/src/http/http_header.rs:184-188 | `None` exactly when the key does not occur; otherwise the text after the key and one skipped character, up to the first `;` or the end, and holding no `;` |
| Headers.UpToSemicolon | tcp-server/src/http/http_header.rs:187 | a `;`-free prefix of the text that is all of it or stops at a `;` |
| Headers.UpToSemicolonOf | tcp-server/src/http/http_header.rs:187 | a `;`-free value followed by nothing or by `;...` is cut back to the value |
| Headers.CookieValueAt | tcp-server/src/http/http_header.rs:184-188 | wherever the key first occurs, followed by one ASCII character and a `;`-free value ending at `;` or the end, that value is found |
| Headers.GetCookie | tcp-server/src/http/http_header.rs:182-193 | `None` exactly when there is no cookie header or the key does not occur in it; with a cookie header, the value found in it |
| Headers.CookieValueFirst | tcp-server/src/http/http_header.rs:182-193 | `key=value` followed by nothing or `;...` gives `value` |
| Headers.SessionCookieRoundTrip | tcp-server/src/http/http_header.rs:182-193 | a `set-cookie` value sent back as the cookie header reads back as the session id |
| Headers.CookieLooseMatch | tcp-server/src/http/http_header.rs:184 | the key is searched as plain text: `id` is found inside `session_id` |
| Headers.HeaderLines | tcp-server/src/http/http_header.rs:166-170 | line i is `name: value` for the i-th key in iteration order |
| Headers.ToString | tcp-server/src/http/http_header.rs:166-172 | the printed headers are empty exactly when the map is; otherwise the `name: value` lines in order joined by CRLF, starting with the first line and ending with the last, with no CRLF after it |
| Headers.ToStringSingle | tcp-server/src/http/http_header.rs:166-172 | one header prints as one line with no CRLF |
| Headers.ToStringEmpty | tcp-server/src/http/http_header.rs:166-172 | no headers print as the empty text |
| Headers.HttpHeader.constructor | tcp-server/src/http/http_header.rs:84-88 | a new header map is empty |
| Headers.HttpHeader.Insert | tcp-server/src/http/http_header.rs:174-176 | sets the key and returns the value it replaced; the key then looks up to the new value |
| Headers.HttpHeader.Lookup | tcp-server/src/http/http_header.rs:178-180 | present exactly for the keys in the map, with the value stored under the key |
| Headers.HttpHeader.With | tcp-server/src/http/http_header.rs:94-99 | the new map is the old one with the pairs inserted left to right |
| Headers.HttpHeader.SetSession | tcp-server/src/http/http_header.rs:101-115 | adds the session cookie and exposes `session_id`; both then look up to those values |
| Headers.HttpHeader.Default | tcp-server/src/http/http_header.rs:117-126 | adds credentials and the time |
| Headers.HttpHeader.DefaultJson | tcp-server/src/http/http_header.rs:128-135 | a fresh map holding the JSON defaults |
| Headers.HttpHeader.DefaultHtml | tcp-server/src/http/http_header.rs:137-144 | a fresh map holding the HTML defaults |
| Headers.HttpHeader.DefaultOptions | tcp-server/src/http/http_header.rs:146-164 | a fresh map holding the preflight headers |
| Headers.InsertThenGet | tcp-server/src/http/http_header.rs:174-180 | after `insert` the key reads back as the new value and other keys are unchanged |
| Responses.New | tcp-server/src/http/http_response.rs:14-20 | keeps status and headers; the body loses exactly its trailing NULs |
| Responses.NewTrimsTrailingNuls | tcp-server/src/http/http_response.rs:18 | text plus NUL padding becomes the text, inner NULs kept |
| Responses.FromVec | tcp-server/src/http/http_response.rs:22-24 | 200 with the JSON defaults; the body is a prefix of the given one, only NULs were cut from its end, and it does not end in NUL; a body not ending in NUL is kept |
| Responses.ToString | tcp-server/src/http/http_response.rs:26-35 | exactly the status line and the `content-length` line, then the header lines, then an empty line and the body: the length, both ends, and the header lines between them |
| Responses.ToBytes | tcp-server/src/http/http_response.rs:37-39 | the bytes decode as UTF-8 to the printed response |
| Responses.ContentLengthDeclared | tcp-server/src/http/http_response.rs:26-35 | the second line declares a length that reads back as the body's byte count |
| Responses.ResponseEndsWithBody | tcp-server/src/http/http_response.rs:26-39 | the response bytes end with exactly the body bytes, as many as declared |
| Responses.Html404 | tcp-server/src/http/http_response.rs:52-58 | 404, HTML defaults, the fixed page |
| Responses.ErrorBodyUntrimmed | tcp-server/src/http/http_response.rs:18 | an error body is never shortened by NUL trimming |
| Responses.ErrorResponse | tcp-server/src/http/http_response.rs:76-82 | given status, JSON defaults, body `{"error":"<escaped message>"}` |
| Responses.ErrorMessageRoundTrip | tcp-server/src/http/http_response.rs:80 | a client reads any message back intact from an error response |
| Responses.Json404 | tcp-server/src/http/http_response.rs:60-66 | 404 whose error reads `<resource> not found` |
| Responses.OptionsResponse | tcp-server/src/http/http_response.rs:68-74 | 204 with the preflight headers and no body |
| Responses.BadRequest | tcp-server/src/http/http_response.rs:76-82 | 400 with JSON defaults whose error reads back as the message |
| Responses.MissingBody | tcp-server/src/http/http_response.rs:84-88 | 400 with the JSON defaults, whose error is `Missing request body.` and the hint, or nothing for no hint |
| Responses.InvalidBody | tcp-server/src/http/http_response.rs:90-94 | 400 with the JSON defaults, whose error is `Invalid request body.` and the hint, or nothing for no hint |
| Responses.MissingNotInvalid | tcp-server/src/http/http_response.rs:84-94 | a missing-body response never equals an invalid-body one |
| Responses.NotAuthorized | tcp-server/src/http/http_response.rs:96-102 | 401 with its fixed message |
| Responses.ForbiddenResponse | tcp-server/src/http/http_response.rs:104-110 | 403 with its fixed message |
| Responses.NoContentResponse | tcp-server/src/http/http_response.rs:112-118 | 204, JSON defaults, empty body |
| Requests.HeaderBlock | tcp-server/src/http/http_request.rs:64-71 | the prefix before the first CRLF CRLF, or the whole buffer when there is none |
| Requests.RequestLineParts | tcp-server/src/http/http_request.rs:74-78 | method and target hold no space |
| Requests.RequestLinePartsJoin | tcp-server/src/http/http_request.rs:74-78 | a head without a space is the method alone; otherwise the method and target around one space, or all three parts around two spaces, make up the head |
| Requests.RequestLinePartsOf | tcp-server/src/http/http_request.rs:74-81 | splitting stops after two spaces: the rest keeps its own spaces |
| Requests.SplitTarget | tcp-server/src/http/http_request.rs:96-113 | the path holds no `?`; the target is the path, or the path, `?` and the query |
| Requests.PathText | tcp-server/src/http/http_request.rs:103-107 | the trimmed text whose UTF-8 encoding the path bytes are, or the empty text when they encode no text |
| Requests.HeaderText | tcp-server/src/http/http_request.rs:79-87 | the text whose UTF-8 encoding the bytes after the ten skipped ones are, or the empty text when they encode no text |
| Requests.Lines | tcp-server/src/http/http_request.rs:88 | no line holds `\n`; the empty text has no lines |
| Requests.LinesJoin | tcp-server/src/http/http_request.rs:88 | `lines()` splits CRLF-joined lines back into the same lines |
| Requests.HeaderPair | tcp-server/src/http/http_request.rs:90-91 | a line without `:` gives an empty name and value; otherwise the line is the name, the first `:` and the value, the name holding no `:`, and the name is lower-cased |
| Requests.HeaderPairOfLine | tcp-server/src/http/http_request.rs:90-91 | `name:value` with a `:`-free name gives the lower-cased name and the value as it is |
| Requests.PrintedHeaderPair | tcp-server/src/http/http_request.rs:90-91 | a printed `name: value` line gives the lower-cased name and the value with its leading space |
| Requests.HeaderPairs | tcp-server/src/http/http_request.rs:89-92 | one pair per line, in order |
| Requests.HeaderMapLastWins | tcp-server/src/http/http_request.rs:89-92 | a header's value is the one on its last line |
| Requests.ParseHeaderLines | tcp-server/src/http/http_request.rs:83-92 | the loop of inserts builds `HeaderMapOf(lines)` in a fresh header |
| Requests.PrintedLines | tcp-server/src/http/http_request.rs:88 | `lines()` of printed headers without line breaks gives back exactly the printed `name: value` lines |
| Requests.HeadersReadBack | tcp-server/src/http/http_request.rs:83-92 | printed headers parse back to the same names, values led by one space |
| Requests.HttpRequest.FromRequestBytes | tcp-server/src/http/http_request.rs:63-127 | method from the first token, route from the trimmed path, parameters from the query, headers from the lines after the version, no body |
| Requests.NoHeaderLinesNotParsable | tcp-server/src/http/http_request.rs:79 | a head ending right after `HTTP/1.1` makes the ten-byte slice panic |
| Requests.BareRequestLineNotParsable | tcp-server/src/http/http_request.rs:79 | `GET / HTTP/1.1` followed by the empty line panics |
| Requests.RequestLineRoundTrip | tcp-server/src/http/http_request.rs:74-118 | a method token, a path and a query are read back as that method, path and query |
| Requests.MethodToken | tcp-server/src/http/http_request.rs:77 | a method token holds no space and classifies as its method |
| Requests.TargetOf | tcp-server/src/http/http_request.rs:96-107 | path and query split back apart; a path without white space at its ends is its own path text |
| Requests.ParametersToString | tcp-server/src/http/http_request.rs:41-56 | empty exactly for no or zero parameters; otherwise `?` and the `key=value` texts joined by `&`, starting with `?` and the first pair and ending with the last pair |
| Requests.PairTexts | tcp-server/src/http/http_request.rs:50 | each pair printed as `key=value` |
| Requests.PairTextParses | tcp-server/src/http/http_request.rs:50 | one printed plain pair is one `&`-free piece that parses to the pair |
| Requests.ParsePairTexts | tcp-server/src/http/http_request.rs:41-56 | parsing printed plain pairs joined by `&` gives them back |
| Requests.ParametersRoundTrip | tcp-server/src/http/http_request.rs:41-56 | printing parameters and parsing the query gives the same list, for names and values without `&`, `=`, `+`, `%` |
| Requests.BodyText | tcp-server/src/http/http_request.rs:131-134 | the lossily decoded buffer is the result, then whole copies of CRLF CRLF, then only NULs (the last character before them not a NUL); the result does not end with CRLF CRLF |
| Requests.ParseBodyResult | tcp-server/src/http/http_request.rs:129-148 | empty after trimming gives the utf8 error; otherwise the parser's value, or its error behind the json-value message |
| Requests.HttpRequest.ParseBody | tcp-server/src/http/http_request.rs:129-150 | stores the value on success, leaves the body on error, and changes nothing else |
| Requests.DecodeLossyZeros | tcp-server/src/http/http_request.rs:131 | zero bytes decode to NULs |
| Utf8.DecodeLossyAppendEncoded | tcp-server/src/http/http_request.rs:131 | lossy decoding of encoded text followed by anything starts with that text |
| Requests.TrimNulPadding | tcp-server/src/http/http_request.rs:132 | NUL trimming removes the padding and no more |
| Requests.BodyTextOfPadded | tcp-server/src/http/http_request.rs:131-134 | a body sent with the empty line and zero padding is recovered exactly |
| Requests.EmptyBodyRejected | tcp-server/src/http/http_request.rs:136-138 | a buffer of zeros gives the utf8 error |
| Requests.HttpRequest.Error | tcp-server/src/http/http_request.rs:153-161 | the placeholder: method `Error`, index route, no parameters, empty headers, no body |
| Requests.HttpRequest.New | tcp-server/src/http/http_request.rs:164-178 | the fields are the arguments |
| Requests.HttpRequest.Get | tcp-server/src/http/http_request.rs:181-194 | method `Get`, the other fields the arguments |
| Requests.HttpRequest.Post | tcp-server/src/http/http_request.rs:197-210 | method `Post`, the other fields the arguments |
| Requests.HttpRequest.Patch | tcp-server/src/http/http_request.rs:213-226 | method `Patch`, the other fields the arguments |
| Requests.HttpRequest.Delete | tcp-server/src/http/http_request.rs:229-242 | method `Delete`, the other fields the arguments |
| Requests.HttpRequest.ToString | tcp-server/src/http/http_request.rs:28-37 | exactly the request line (method, path, parameters, `HTTP/1.1`), the header lines, an empty line and the debug form of the body: the length, both ends, and the header lines between them |
| Requests.HttpRequest.ToBytes | tcp-server/src/http/http_request.rs:59-61 | the bytes decode as UTF-8 to the printed request |
| BaseModels.CreateErrorMsg | tcp-server/src/models/base_model.rs:21-23 | `Error creating `, the type name, `.` |
| BaseModels.ParseFailure | tcp-server/src/models/base_model.rs:67-71 | exactly `failed to parse to <type>.` followed by the creation error message: the length, both ends, and the type name between them |
| BaseModels.ToOkResponse | tcp-server/src/models/base_model.rs:25-31 | 200 with JSON defaults and the public JSON as body |
| BaseModels.ToCreatedResponse | tcp-server/src/models/base_model.rs:33-39 | 201 with JSON defaults and the public JSON as body |
| BaseModels.ResponseBodyIsPublicJson | tcp-server/src/models/base_model.rs:25-39 | public JSON ending in `}` is the body unchanged |
| BaseModels.FromJson | tcp-server/src/models/base_model.rs:61-73 | `Ok` exactly when deserializing succeeds, with its value; otherwise the parse failure message |
| BaseModels.InsertDecision | tcp-server/src/models/base_model.rs:45-53 | no body, unparsable body, or a model the body deserializes to |
| BaseModels.TryInsertModel | tcp-server/src/models/base_model.rs:41-55 | no body gives the missing-body response with the required values; an unparsable body the invalid-body response with the parse failure; a parsed model the database stores the created response for the stored model; one it refuses the bad request with the creation error |
| BaseModels.TryInsertNoDatabaseCall | tcp-server/src/models/base_model.rs:45-53 | without a parsed model the database is not consulted and the answer is 400 |
| BaseModels.TryInsertRejected | tcp-server/src/models/base_model.rs:49 | a refused insert answers 400 with `Error creating <type>.` |
| BaseModels.TryInsertCreated | tcp-server/src/models/base_model.rs:48 | a stored model answers 201 with the stored model's public JSON |
| BaseModels.MissingIdentifier | tcp-server/src/models/user_model.rs:81 | exactly `Missing identifier in path: ` and the sub-path: the length and both ends |
| BaseModels.ParseIdFailed | tcp-server/src/models/session_model.rs:81 | exactly `Failed to parse id to i64: ` and the parser's message: the length and both ends |
| BaseModels.IdFromSubpath | tcp-server/src/models/session_model.rs:78-83 | no section 0 is a missing identifier; success needs section 0 to parse to the id; a section 0 that does not parse is reported with the parser's error |
| BaseModels.IdFromSubpathSegment | tcp-server/src/models/session_model.rs:78-83 | with section 0 present: a well-formed number in `i64` range is the id, one out of range is the overflow of its sign, any other text is an error |
| BaseModels.IdFromSubpathOf | tcp-server/src/models/session_model.rs:78-80 | `/<id>` gives the id back |
| BaseModels.IdFromSubpathEmpty | tcp-server/src/models/session_model.rs:83 | the empty sub-path is a missing identifier |
| BaseModels.IdFromSubpathNotNumber | tcp-server/src/models/session_model.rs:81 | a section that starts with no digit or sign is an invalid digit |
| BaseModels.DecimalInjective | tcp-server/src/models/session_model.rs:48-53 | different ids print differently |
| BaseModels.DatapointKey | tcp-server/src/models/session_sensor_data_model.rs:129-142 | no section 1 is a missing identifier; success carries section 1 as the date-time and section 0 parsed as the id; with both present, a section 0 that does not parse is reported with the parser's error |
| BaseModels.DatapointKeySegments | tcp-server/src/models/session_sensor_data_model.rs:129-142 | with sections 0 and 1 present: a well-formed number in `i64` range gives the key (id, section 1), one out of range is the overflow of its sign, any other text is an error |
| BaseModels.DatapointKeyOf | tcp-server/src/models/session_sensor_data_model.rs:129-136 | `/<id>/<datetime>` gives both back |
| BaseModels.DatapointKeyNeedsTwo | tcp-server/src/models/session_sensor_data_model.rs:139 | one section alone is a missing identifier |
| BaseModels.ParseAll | tcp-server/src/models/session_sensor_data_model.rs:62-65 | succeeds exactly when every element deserializes, giving them in order |
| BaseModels.BatchData | tcp-server/src/models/session_sensor_data_model.rs:60-66 | needs an object with `datapoints` |
| BaseModels.TryBatch | tcp-server/src/models/session_sensor_data_model.rs:54-79 | missing body, invalid body, or the batch outcome: 204, or 400 with the hint |
| BaseModels.TryBatchElementFails | tcp-server/src/models/session_sensor_data_model.rs:71 | one bad element makes the whole batch invalid |
| BaseModels.TryBatchNotArray | tcp-server/src/models/session_sensor_data_model.rs:73 | `datapoints` that is not an array is invalid |
| BaseModels.TryBatchStoresAll | tcp-server/src/models/session_sensor_data_model.rs:67-70 | when every element parses, the database receives the parsed elements, in order, and its answer picks the response |
| Users.Empty | tcp-server/src/models/user_model.rs:32-34 | the empty user is not valid |
| Users.PublicJson | tcp-server/src/models/user_model.rs:54-56 | `{"username":"<name>"}`: the name sits between the fixed prefix and `"}` |
| Users.PublicJsonShowsNameOnly | tcp-server/src/models/user_model.rs:54-56 | two users print alike exactly when their names agree; the hash is never shown |
| Users.FillFrom | tcp-server/src/models/user_model.rs:58-65 | each empty field is taken from the other user |
| Users.FillProperties | tcp-server/src/models/user_model.rs:50-65 | filling the empty user gives the other; filling is idempotent; a valid user is unchanged; filling from a valid user gives a valid one |
| Users.InsertInterface | tcp-server/src/models/user_model.rs:67-72 | the database's insert receives the user unchanged and its result is returned unchanged |
| Users.InsertAnswers | tcp-server/src/models/base_model.rs:41-55 | with this model's kind and insert interface, a parsed body that the database stores answers 201 with the public JSON of the user as stored; a refused one answers 400 with `Error creating <type>.` |
| Users.UpdateInterface | tcp-server/src/models/user_model.rs:74-84 | section 0 names the user to update; without it, a missing identifier |
| Users.DeleteInterface | tcp-server/src/models/user_model.rs:86-96 | section 0 names the user to delete; without it, a missing identifier |
| Users.InterfacesAddressByName | tcp-server/src/models/user_model.rs:74-96 | `/<name>` reaches the database with that name; the empty sub-path does not |
| Sessions.Empty | tcp-server/src/models/session_model.rs:28-30 | id -1, no name, not valid |
| Sessions.PublicJson | tcp-server/src/models/session_model.rs:48-53 | exactly `{"session_id":"<id>", "username":"<name>"}`: the length, the prefix through the id field, the suffix, and the name between them |
| Sessions.PublicJsonInjective | tcp-server/src/models/session_model.rs:48-53 | different sessions print differently |
| Sessions.FillFrom | tcp-server/src/models/session_model.rs:55-62 | id -1 and empty name are taken from the other session |
| Sessions.FillProperties | tcp-server/src/models/session_model.rs:44-62 | filling the empty session gives the other; idempotent; valid unchanged; validity kept unless the id is another negative |
| Sessions.InsertInterface | tcp-server/src/models/session_model.rs:64-71 | the database's insert receives the session unchanged and its result is returned unchanged |
| Sessions.InsertAnswers | tcp-server/src/models/base_model.rs:41-55 | with this model's kind and insert interface, a parsed body that the database stores answers 201 with the public JSON of the session as stored; a refused one answers 400 with `Error creating <type>.` |
| Sessions.UpdateInterface | tcp-server/src/models/session_model.rs:73-86 | section 0 parsed as `i64` addresses the session; errors are passed on |
| Sessions.DeleteInterface | tcp-server/src/models/session_model.rs:88-101 | section 0 parsed as `i64` addresses the session; errors are passed on |
| Sessions.InterfacesAddressById | tcp-server/src/models/session_model.rs:73-101 | `/<id>` reaches the database with the id, for update and delete |
| Sessions.InterfacesRefuseBadId | tcp-server/src/models/session_model.rs:73-101 | `""` is a missing identifier, and `/<segment>` with a segment such as `me` is an invalid digit, for update and delete, without a database call |
| SessionSensors.Empty | tcp-server/src/models/session_sensor_model.rs:34-36 | all ids -1, not valid |
| SessionSensors.PublicJson | tcp-server/src/models/session_sensor_model.rs:60-65 | exactly `{"id":"<id>", "session_id":"<session id>", "sensor_id":"<sensor id>"}`: the length, the prefix through the id field, the suffix from the sensor id field, and the session id between them |
| SessionSensors.PublicJsonInjective | tcp-server/src/models/session_sensor_model.rs:60-65 | different session sensors print differently |
| SessionSensors.FillFrom | tcp-server/src/models/session_sensor_model.rs:67-77 | each id of -1 is taken from the other |
| SessionSensors.FillProperties | tcp-server/src/models/session_sensor_model.rs:56-77 | filling the empty one gives the other; idempotent; valid unchanged |
| SessionSensors.InsertInterface | tcp-server/src/models/session_sensor_model.rs:79-86 | the database's insert receives the model unchanged and its result is returned unchanged |
| SessionSensors.InsertAnswers | tcp-server/src/models/base_model.rs:41-55 | with this model's kind and insert interface, a parsed body that the database stores answers 201 with the public JSON of the session sensor as stored; a refused one answers 400 with `Error creating <type>.` |
| SessionSensors.UpdateInterface | tcp-server/src/models/session_sensor_model.rs:88-101 | section 0 parsed as `i64` addresses the model; errors are passed on |
| SessionSensors.DeleteInterface | tcp-server/src/models/session_sensor_model.rs:103-116 | section 0 parsed as `i64` addresses the model; errors are passed on |
| SessionSensors.InterfacesAddressById | tcp-server/src/models/session_sensor_model.rs:88-116 | `/<id>` reaches the database with the id; `""` is a missing identifier |
| SensorData.Empty | tcp-server/src/models/session_sensor_data_model.rs:38-40 | no id, no date-time, `null` blob, not valid |
| SensorData.ReadBack | tcp-server/src/models/session_sensor_data_model.rs:20-26 | a data point is read exactly from an object with a string `datetime`, a `data_blob`, and an `id` absent, `null` or an `i64` number other than `-0`; it holds that date-time, that blob, no id for an absent or `null` one, and the parsed number otherwise |
| SensorData.ReadBackNegativeZero | tcp-server/src/models/session_sensor_data_model.rs:20-23 | an id written `-0` is refused, although `-0` parses as an `i64` from text |
| SensorData.ReadBackPublicValue | tcp-server/src/models/session_sensor_data_model.rs:91-98 | the public JSON value reads back as the same data point |
| SensorData.FillFrom | tcp-server/src/models/session_sensor_data_model.rs:100-110 | absent id, empty date-time and `null` blob are taken from the other |
| SensorData.FillProperties | tcp-server/src/models/session_sensor_data_model.rs:87-110 | filling the empty one gives the other; idempotent; valid unchanged; validity kept exactly when the blob is `null` or an object |
| SensorData.InsertInterface | tcp-server/src/models/session_sensor_data_model.rs:112-119 | the database's insert receives the data point unchanged and its result is returned unchanged |
| SensorData.InsertAnswers | tcp-server/src/models/base_model.rs:41-55 | with this model's kind and insert interface, a parsed body that the database stores answers 201 with the public JSON of the data point (the body itself when the serialised object ends in `}`) as stored; a refused one answers 400 with `Error creating <type>.` |
| SensorData.UpdateInterface | tcp-server/src/models/session_sensor_data_model.rs:121-144 | sections 0 and 1 address the data point; errors are passed on |
| SensorData.DeleteInterface | tcp-server/src/models/session_sensor_data_model.rs:146-162 | sections 0 and 1 address the data point; errors are passed on |
| SensorData.InterfacesAddressByKey | tcp-server/src/models/session_sensor_data_model.rs:121-162 | `/<id>/<datetime>` reaches the database with both; one section is a missing identifier |
| SensorData.TryBatchModel | tcp-server/src/models/session_sensor_data_model.rs:54-79 | the batch ladder with the `i64` hint |
| Sensors.PublicJson | tcp-server/src/models/sensor_model.rs:36-41 | exactly `{"id":"<id>", "type":"<type>"}`: the length, the prefix through the id field, the suffix, and the type between them |
| Sensors.PublicJsonInjective | tcp-server/src/models/sensor_model.rs:36-41 | sensors whose ids hold no `"` print differently |
| Sensors.InsertInterface | tcp-server/src/models/sensor_model.rs:43-48 | the database's insert receives the sensor unchanged and its result is returned unchanged |
| Sensors.InsertAnswers | tcp-server/src/models/base_model.rs:41-55 | with this model's kind and insert interface, a parsed body that the database stores answers 201 with the public JSON of the sensor as stored; a refused one answers 400 with `Error creating <type>.` |
| LegacySensorData.PublicJson | tcp-server/src/models/session_sensor_data.rs:74-79 | exactly `{"id":"<id>", "datetime":"<datetime>", "data_blob":"<blob>"}`: the length, the prefix through the id field, the suffix from the blob field, and the date-time between them |
| LegacySensorData.PublicJsonInjective | tcp-server/src/models/session_sensor_data.rs:74-79 | data points whose id and date-time hold no `"` print differently |
| LegacySensorData.InsertInterface | tcp-server/src/models/session_sensor_data.rs:81-88 | the database's insert receives the data point unchanged and its result is returned unchanged |
| LegacySensorData.InsertAnswers | tcp-server/src/models/base_model.rs:41-55 | with this model's kind and insert interface, a parsed body that the database stores answers 201 with the public JSON of the data point as stored; a refused one answers 400 with `Error creating <type>.` |
| LegacySensorData.TryBatchModel | tcp-server/src/models/session_sensor_data.rs:37-62 | the batch ladder with the string-id hint |
| Common.IndexOf | tcp-server/src/http/http_request.rs:97-100 | the first occurrence, or `None` exactly when absent |
| Common.SplitOnce | tcp-server/src/http/http_path.rs:74 | `None` exactly when absent; otherwise the halves around the first occurrence |
| Common.Split | tcp-server/src/http/http_path.rs:91 | at least one piece, none containing the separator |
| Common.JoinSplit | tcp-server/src/http/http_path.rs:91 | joining the pieces gives the text back |
| Common.SplitJoin | tcp-server/src/http/http_path.rs:91 | splitting a join of separator-free parts gives the parts back |
| Common.IndexOfSeq | tcp-server/src/http/http_request.rs:66-70 | the first window equal to the pattern, or none |
| Common.TrimEndElem | tcp-server/src/http/http_response.rs:18 | a prefix; everything removed is the element; the rest does not end with it |
| Common.TrimEndSeq | tcp-server/src/http/http_request.rs:133 | a prefix that does not end with the pattern, and what was removed is whole copies of the pattern |
| Common.TrimEndBoth | tcp-server/src/http/http_request.rs:132-133 | trimming an element and then a pattern leaves a prefix, whole copies of the pattern, and only that element |
| Common.ToLower | tcp-server/src/http/http_request.rs:91 | same length, each character lower-cased |
| Common.Trim | tcp-server/src/http/http_request.rs:106 | a slice of the text with no white space at either end, and only white space removed before and after it |
| Decimal.IntToDecimal | tcp-server/src/models/session_model.rs:51 | sign exactly for negatives, then the digits |
| Decimal.ParseI64Ok | tcp-server/src/models/session_model.rs:79 | `parse::<i64>` succeeds exactly on a sign and digits whose value fits, with that value |
| Decimal.ParseI64Overflow | tcp-server/src/models/session_model.rs:79 | a well-formed number that does not fit overflows on its sign's side |
| Decimal.ParseI64RoundTrip | tcp-server/src/models/session_model.rs:79 | a printed `i64` parses back to itself |
| Utf8.EncodeAppend | tcp-server/src/http/http_response.rs:38 | the encoding of a concatenation is the concatenation of encodings |
| Utf8.DecodeEncode | tcp-server/src/http/http_request.rs:104 | strict decoding of encoded text gives the text |
| Utf8.DecodeExactly | tcp-server/src/http/http_request.rs:104 | strict decoding succeeds exactly on encodings, giving the encoded text |
| Utf8.DecodeSomeIsEncoding | tcp-server/src/http/http_request.rs:104 | strict decoding succeeds only on the encoding of its result |
| Utf8.DecodeLossyAgrees | tcp-server/src/http/http_request.rs:131 | on well-formed input lossy decoding equals strict decoding |
| Utf8.DecodeLossyEncode | tcp-server/src/http/http_request.rs:131 | lossy decoding of encoded text gives the text |
| Utf8.EncodeAsciiPrefix | tcp-server/src/http/http_method.rs:45 | for an ASCII prefix, byte prefix and text prefix agree |
| Utf8.EncodeAsciiIn | tcp-server/src/http/http_request.rs:99 | an ASCII byte occurs in an encoding exactly when its character occurs in the text |
| Json.Get | tcp-server/src/models/session_sensor_data_model.rs:60 | `Some` exactly for an object with the key, with the member |
| Json.AsArray | tcp-server/src/models/session_sensor_data_model.rs:61 | `Some` exactly for an array, with its elements |
| Json.Quote | tcp-server/src/http/http_response.rs:80 | quotes around the escaped text |
| Json.ErrorBody | tcp-server/src/http/http_response.rs:80 | `{"error":"`, the escaped message, `"}` |
| Json.UnescapeEscape | tcp-server/src/http/http_response.rs:80 | escaping loses nothing: it reads back as the original |
| Json.EscapePlain | tcp-server/src/http/http_response.rs:80 | text without quotes, backslashes or control characters is printed unchanged |
| FormUrlEncoded.ReplacePlus | tcp-server/src/http/http_request.rs:109-115 | `+` becomes a space; nothing else changes |
| FormUrlEncoded.ParsePair | tcp-server/src/http/http_request.rs:109-115 | a piece without `=` is a name with an empty value |
| FormUrlEncoded.ParseIsSpec | tcp-server/src/http/http_request.rs:109-115 | the parser is "split on `&`, drop empty pieces, parse each" |
| FormUrlEncoded.ParseEmpty | tcp-server/src/http/http_request.rs:109-110 | the empty query has no parameters |
| FormUrlEncoded.PercentDecodeEncode | tcp-server/src/http/http_request.rs:109-115 | percent-decoding inverts percent-encoding |
| FormUrlEncoded.DecodeComponentPlain | tcp-server/src/http/http_request.rs:109-115 | text without `+` and `%` decodes to itself |
| FormUrlEncoded.DecodeComponentPlus | tcp-server/src/http/http_request.rs:109-115 | a `+` between plain texts decodes to a space: `a+b` is `a b` |
| FormUrlEncoded.DecodeComponentPercentSpace | tcp-server/src/http/http_request.rs:109-115 | `%20` between plain texts decodes to a space: `a%20b` is `a b` |

## Left out

- Socket I/O is not part of this model: reading requests and `HttpResponse::send`
  (`http_response.rs:41-50`). `main.rs` dispatch and the databases are left out too.
  Database calls are function parameters.
- The debug-build write of an unparsable body to `failed_parse.txt`
  (`http_request.rs:144-145`) is a file-system side effect with no effect on the result,
  and is left out.
- `HTTP_HEADER_DELIMITER` is imported from the crate root (`http_request.rs:13`); its
  definition is not part of this model. It is taken to be CRLF CRLF, the delimiter that
  `from_request_bytes` also uses.
- Requests.HttpRequest.FromRequestBytes: requires `Parsable`, because the source panics
  when the rest of the head after the request target is shorter than ten bytes (the
  `[10..]` slice), and `HttpPath::from_string` panics on an empty path or one whose first
  character is not ASCII. A request with no header line at all
  (`NoHeaderLinesNotParsable`) is one such request. The model does not describe the panic
  beyond excluding it.
- Paths.FromString: requires a non-empty path with an ASCII first character, for the same
  `path[1..]` slice.
- Headers.GetCookie: requires the character after the key to exist and be ASCII, for the
  `split_cookie[1..]` slice. Headers.CookieValue requires the same.
- `Common.ToLower` lower-cases ASCII letters only. Rust's `to_lowercase` also maps
  non-ASCII letters.
- `Utc::now()` is the parameter `now`. `HashMap` iteration order is the parameter `order`.
  The `Debug` printing of a request body is the parameter `debugBody`.
- serde_json's number parser is not part of this model. `SensorData.ReadBack` takes from
  it only that the number `-0` is read as the float negative zero, which an `i64` field
  refuses.
- `serde_json::from_value` / `from_str` are the parameters `fromValue` / `parseJson`.
  Their results are not interpreted.
- SensorData.PublicJson: `Value::to_string` of the object is the parameter `serialize`.
  Key order and number printing are therefore not modelled. What the value holds is stated
  by `ReadBackPublicValue`.
- The `Mutex` around a response's headers guards nothing that can race in this model. The
  response holds the map itself.
- The getters and `new` of each model are the datatype's fields and constructor.
  `HttpHeader::build` returns its argument and needs no member.
- Users.FillFrom, Sessions.FillFrom, SessionSensors.FillFrom, SensorData.FillFrom:
  `fill_from` updates `self` in place. The model returns the updated record instead, so
  aliasing of `self` and `other` is not captured.
- The `is_valid` predicates and the `TYPE_NAME` / `REQUIRED_VALUES` constants are stated
  as predicates and constants. They are used in the contracts above and have no rows of
  their own.
- The `Database` trait (`data/database.rs`) and its implementations are not part of this
  model.

=== FILE: base_model.dfy ===
/** What every entity model shares (`tcp-server/src/models/base_model.rs`): the error
    message for a failed insert, the 200 and 201 responses carrying the public JSON, the
    mapping of a JSON body to a model, and the insert ladder that turns an optional body
    into exactly one response. The ladders that read identifiers from a sub-path and a
    batch of data points from a body, which several models repeat, are here too. */
module BaseModels {
  import opened Common
  import opened Decimal
  import opened Json
  import Headers
  import Paths
  import opened Responses

  /** The associated constants and functions of one model type: `TYPE_NAME`,
      `REQUIRED_VALUES`, `public_json`, and `serde_json::from_value` for it (an
      uninterpreted parser: `None` where serde reports an error). */
  datatype ModelKind<!T> = ModelKind(
    typeName: string,
    requiredValues: string,
    publicJson: T -> string,
    fromValue: Json -> Option<T>)

  const ERROR_CREATING: string := "Error creating "
  const MISSING_IDENTIFIER: string := "Missing identifier in path: "
  const ID_PARSE_FAILED: string := "Failed to parse id to i64: "

  /** `create_error_msg`. */
  function CreateErrorMsg(typeName: string): (r: string)
    ensures |r| == |ERROR_CREATING| + |typeName| + 1
    ensures IsPrefix(ERROR_CREATING, r) && IsSuffix(".", r)
    ensures r[|ERROR_CREATING|..|r| - 1] == typeName
  {
    var r := ERROR_CREATING + typeName + ".";
    assert r[..|ERROR_CREATING|] == ERROR_CREATING;
    assert r[|ERROR_CREATING|..|r| - 1] == typeName;
    r
  }

  /** The error `from_json` reports: the parse failure, then the creation error. */
  function ParseFailure(typeName: string): (r: string)
    ensures |r| == |"failed to parse to "| + |typeName| + 1 + |CreateErrorMsg(typeName)|
    ensures IsPrefix("failed to parse to ", r) && IsSuffix("." + CreateErrorMsg(typeName), r)
    ensures IsSuffix(CreateErrorMsg(typeName), r)
    ensures r[|"failed to parse to "|..|r| - 1 - |CreateErrorMsg(typeName)|] == typeName
  {
    var tail := "." + CreateErrorMsg(typeName);
    var r := "failed to parse to " + typeName + tail;
    Concat3("failed to parse to ", typeName, tail);
    assert r[|r| - |CreateErrorMsg(typeName)|..] == CreateErrorMsg(typeName);
    r
  }

  /** `to_ok_response`: 200 with the JSON headers and the public JSON as body. */
  function ToOkResponse<T>(kind: ModelKind<T>, model: T, now: i64): (r: HttpResponse)
    ensures r.status == Headers.OK && r.headers == Headers.DefaultJsonHeaders(now)
    ensures r == New(Headers.OK, Headers.DefaultJsonHeaders(now), kind.publicJson(model))
  {
    New(Headers.OK, Headers.DefaultJsonHeaders(now), kind.publicJson(model))
  }

  /** `to_created_response`: 201 with the JSON headers and the public JSON as body. */
  function ToCreatedResponse<T>(kind: ModelKind<T>, model: T, now: i64): (r: HttpResponse)
    ensures r.status == Headers.Created && r.headers == Headers.DefaultJsonHeaders(now)
    ensures r == New(Headers.Created, Headers.DefaultJsonHeaders(now), kind.publicJson(model))
  {
    New(Headers.Created, Headers.DefaultJsonHeaders(now), kind.publicJson(model))
  }

  /** A public JSON text ends in `}`, not in a NUL, so the response body is that text. */
  lemma ResponseBodyIsPublicJson<T>(kind: ModelKind<T>, model: T, now: i64)
    requires IsSuffix("}", kind.publicJson(model))
    ensures ToOkResponse(kind, model, now).body == kind.publicJson(model)
    ensures ToCreatedResponse(kind, model, now).body == kind.publicJson(model)
  {
    var text := kind.publicJson(model);
    assert text[|text| - 1] == '}';
    NewTrimsTrailingNuls(Headers.OK, Headers.DefaultJsonHeaders(now), text, 0);
    NewTrimsTrailingNuls(Headers.Created, Headers.DefaultJsonHeaders(now), text, 0);
    assert text + seq(0, _ => NUL) == text;
  }

  /** `from_json`: the model serde reads from the value, or the parse failure message. */
  function FromJson<T>(kind: ModelKind<T>, json: Json): (r: Result<T, string>)
    ensures r.Ok? <==> kind.fromValue(json).Some?
    ensures r.Ok? ==> r.value == kind.fromValue(json).value
    ensures r.Err? ==> r.error == ParseFailure(kind.typeName)
  {
    match kind.fromValue(json)
    case Some(model) => Ok(model)
    case None => Err(ParseFailure(kind.typeName))
  }

  /** The step of `try_insert_model` a body leads to: no body, a body that does not parse,
      or the model to insert. Only the last calls the database. */
  datatype InsertStep<T> = NoBody | Unparsable(msg: string) | Insert(model: T)

  function InsertDecision<T>(kind: ModelKind<T>, body: Option<Json>): (r: InsertStep<T>)
    ensures body.None? <==> r.NoBody?
    ensures r.Insert? ==> body.Some? && kind.fromValue(body.value) == Some(r.model)
    ensures r.Unparsable? ==> body.Some? && kind.fromValue(body.value).None?
                              && r.msg == ParseFailure(kind.typeName)
  {
    match body
    case None => NoBody
    case Some(json) =>
      match FromJson(kind, json)
      case Ok(model) => Insert(model)
      case Err(msg) => Unparsable(msg)
  }

  /** `try_insert_model`. `insert` is the model's `insert_interface` on the database. */
  function TryInsertModel<T>(kind: ModelKind<T>, insert: T -> Result<T, string>,
                             body: Option<Json>, now: i64): (r: HttpResponse)
    ensures body.None? ==> r == MissingBody(Some(kind.requiredValues), now)
    ensures body.Some? && kind.fromValue(body.value).None? ==>
      r == InvalidBody(Some(ParseFailure(kind.typeName)), now)
    ensures body.Some? && kind.fromValue(body.value).Some? &&
            insert(kind.fromValue(body.value).value).Ok? ==>
      r == ToCreatedResponse(kind, insert(kind.fromValue(body.value).value).value, now)
    ensures body.Some? && kind.fromValue(body.value).Some? &&
            insert(kind.fromValue(body.value).value).Err? ==>
      r == BadRequest(CreateErrorMsg(kind.typeName), now)
  {
    match InsertDecision(kind, body)
    case NoBody => MissingBody(Some(kind.requiredValues), now)
    case Unparsable(msg) => InvalidBody(Some(msg), now)
    case Insert(model) =>
      match insert(model)
      case Ok(stored) => ToCreatedResponse(kind, stored, now)
      case Err(_) => BadRequest(CreateErrorMsg(kind.typeName), now)
  }

  /** Without a model to insert the database is not consulted: any two databases give
      the same response. */
  lemma TryInsertNoDatabaseCall<T>(kind: ModelKind<T>, insert1: T -> Result<T, string>,
                                   insert2: T -> Result<T, string>, body: Option<Json>, now: i64)
    requires !InsertDecision(kind, body).Insert?
    ensures TryInsertModel(kind, insert1, body, now) == TryInsertModel(kind, insert2, body, now)
    ensures TryInsertModel(kind, insert1, body, now).status == Headers.HttpStatus.BadRequest
  {
  }

  /** A model the database rejects is reported as a creation error. */
  lemma TryInsertRejected<T>(kind: ModelKind<T>, insert: T -> Result<T, string>,
                             json: Json, model: T, now: i64)
    requires kind.fromValue(json) == Some(model) && insert(model).Err?
    ensures TryInsertModel(kind, insert, Some(json), now)
         == BadRequest(CreateErrorMsg(kind.typeName), now)
    ensures ErrorMessage(TryInsertModel(kind, insert, Some(json), now))
         == Some(CreateErrorMsg(kind.typeName))
  {
    ErrorMessageRoundTrip(Headers.HttpStatus.BadRequest, CreateErrorMsg(kind.typeName), now);
  }

  /** A model the database stores is answered with 201 and the public JSON of the model the
      database returned, not of the one submitted. */
  lemma TryInsertCreated<T>(kind: ModelKind<T>, insert: T -> Result<T, string>,
                            json: Json, model: T, stored: T, now: i64)
    requires kind.fromValue(json) == Some(model) && insert(model) == Ok(stored)
    requires IsSuffix("}", kind.publicJson(stored))
    ensures TryInsertModel(kind, insert, Some(json), now).status == Headers.Created
    ensures TryInsertModel(kind, insert, Some(json), now).body == kind.publicJson(stored)
  {
    ResponseBodyIsPublicJson(kind, stored, now);
  }

  // Identifiers in sub-paths.

  /** The error for a sub-path without the identifier segment. */
  function MissingIdentifier(subpath: string): (r: string)
    ensures |r| == |MISSING_IDENTIFIER| + |subpath|
    ensures IsPrefix(MISSING_IDENTIFIER, r) && IsSuffix(subpath, r)
  {
    var r := MISSING_IDENTIFIER + subpath;
    assert r[..|MISSING_IDENTIFIER|] == MISSING_IDENTIFIER;
    assert r[|r| - |subpath|..] == subpath;
    r
  }

  /** The error for an identifier segment that is not an `i64`, with the parser's text. */
  function ParseIdFailed(e: IntErrorKind): (r: string)
    ensures |r| == |ID_PARSE_FAILED| + |e.Message()|
    ensures IsPrefix(ID_PARSE_FAILED, r) && IsSuffix(e.Message(), r)
  {
    var r := ID_PARSE_FAILED + e.Message();
    assert r[..|ID_PARSE_FAILED|] == ID_PARSE_FAILED;
    assert r[|r| - |e.Message()|..] == e.Message();
    r
  }

  /** The identifier ladder of the `Session` and `SessionSensor` interfaces: section 0 of
      the sub-path, parsed as an `i64`. */
  function IdFromSubpath(subpath: string): (r: Result<i64, string>)
    ensures Paths.Subsection(subpath, 0).None? ==> r == Err(MissingIdentifier(subpath))
    ensures r.Ok? ==> Paths.Subsection(subpath, 0).Some?
                      && ParseI64(Paths.Subsection(subpath, 0).value) == Ok(r.value)
    ensures Paths.Subsection(subpath, 0).Some? && ParseI64(Paths.Subsection(subpath, 0).value).Err?
            ==> r == Err(ParseIdFailed(ParseI64(Paths.Subsection(subpath, 0).value).error))
  {
    match Paths.Subsection(subpath, 0)
    case None => Err(MissingIdentifier(subpath))
    case Some(segment) =>
      match ParseI64(segment)
      case Ok(id) => Ok(id)
      case Err(e) => Err(ParseIdFailed(e))
  }

  /** Once section 0 is present, the ladder's outcome is decided by the segment's text: a
      well-formed number in range is the id, one out of range is the overflow in its sign's
      direction, and anything else is a parse error. */
  lemma IdFromSubpathSegment(subpath: string, segment: string)
    requires Paths.Subsection(subpath, 0) == Some(segment)
    ensures WellFormed(segment) && InI64(SignedValue(segment))
            ==> IdFromSubpath(subpath) == Ok(SignedValue(segment) as i64)
    ensures WellFormed(segment) && !InI64(SignedValue(segment))
            ==> IdFromSubpath(subpath)
                == Err(ParseIdFailed(if segment[0] == '-' then NegOverflow else PosOverflow))
    ensures !WellFormed(segment) ==> IdFromSubpath(subpath).Err?
  {
    ParseI64Ok(segment);
    if WellFormed(segment) && !InI64(SignedValue(segment)) {
      ParseI64Overflow(segment);
    }
  }

  /** Printed identifiers are a sign and digits: no `/`, no `"`. */
  lemma DecimalChars(n: int)
    ensures '/' !in IntToDecimal(n) && '"' !in IntToDecimal(n)
  {
    var d := NatToDecimal(if n < 0 then -n else n);
    assert forall i :: 0 <= i < |d| ==> d[i] != '/' && d[i] != '"';
    if n < 0 {
      assert IntToDecimal(n) == "-" + d;
    }
  }

  /** Printing an `i64` loses nothing: equal texts come from equal numbers. */
  lemma DecimalInjective(a: i64, b: i64)
    requires IntToDecimal(a) == IntToDecimal(b)
    ensures a == b
  {
    ParseI64RoundTrip(a);
    ParseI64RoundTrip(b);
  }

  /** A `"`-free field followed by a closing quote can be cut off unambiguously. */
  lemma QuoteDelimited(d1: string, t1: string, d2: string, t2: string)
    requires '"' !in d1 && '"' !in d2
    requires |t1| > 0 && t1[0] == '"' && |t2| > 0 && t2[0] == '"'
    requires d1 + t1 == d2 + t2
    ensures d1 == d2 && t1 == t2
  {
    assert (d1 + t1)[..|d1|] == d1 && (d2 + t2)[..|d2|] == d2;
    SplitOnceAt(d1 + t1, '"', |d1|);
    SplitOnceAt(d2 + t2, '"', |d2|);
    assert (d1 + t1)[|d1| + 1..] == t1[1..] && (d2 + t2)[|d2| + 1..] == t2[1..];
    assert t1 == [t1[0]] + t1[1..] && t2 == [t2[0]] + t2[1..];
  }

  /** A decimal field closed by a quote determines both the number and what follows. */
  lemma DecimalFieldInjective(a: i64, t1: string, b: i64, t2: string)
    requires |t1| > 0 && t1[0] == '"' && |t2| > 0 && t2[0] == '"'
    requires IntToDecimal(a) + t1 == IntToDecimal(b) + t2
    ensures a == b && t1 == t2
  {
    DecimalChars(a);
    DecimalChars(b);
    QuoteDelimited(IntToDecimal(a), t1, IntToDecimal(b), t2);
    DecimalInjective(a, b);
  }

  /** A sub-path `/<id>` names that id. */
  lemma IdFromSubpathOf(id: i64)
    ensures IdFromSubpath("/" + IntToDecimal(id)) == Ok(id)
  {
    DecimalChars(id);
    Paths.SubsectionSingle(IntToDecimal(id), 0);
    ParseI64RoundTrip(id);
  }

  /** An empty sub-path names no identifier. */
  lemma IdFromSubpathEmpty()
    ensures IdFromSubpath("") == Err(MissingIdentifier(""))
  {
    Paths.SubsectionEmpty(0);
  }

  /** A first segment that is not a number is reported with the parser's message. */
  lemma IdFromSubpathNotNumber(segment: string)
    requires '/' !in segment && |segment| > 0 && !IsDigit(segment[0])
    requires segment[0] != '+' && segment[0] != '-'
    ensures IdFromSubpath("/" + segment) == Err(ParseIdFailed(InvalidDigit))
  {
    Paths.SubsectionSingle(segment, 0);
  }

  /** The data-point key ladder of the `SessionSensorData` interfaces: sections 0 (the
      session id) and 1 (the date-time) must both be present before the id is parsed. */
  function DatapointKey(subpath: string): (r: Result<(i64, string), string>)
    ensures Paths.Subsection(subpath, 1).None? ==> r == Err(MissingIdentifier(subpath))
    ensures r.Ok? ==> Paths.Subsection(subpath, 1) == Some(r.value.1)
                      && Paths.Subsection(subpath, 0).Some?
                      && ParseI64(Paths.Subsection(subpath, 0).value) == Ok(r.value.0)
    ensures Paths.Subsection(subpath, 0).Some? && Paths.Subsection(subpath, 1).Some?
            && ParseI64(Paths.Subsection(subpath, 0).value).Err?
            ==> r == Err(ParseIdFailed(ParseI64(Paths.Subsection(subpath, 0).value).error))
  {
    match Paths.Subsection(subpath, 0)
    case None => Err(MissingIdentifier(subpath))
    case Some(segment) =>
      match Paths.Subsection(subpath, 1)
      case None => Err(MissingIdentifier(subpath))
      case Some(datetime) =>
        match ParseI64(segment)
        case Ok(id) => Ok((id, datetime))
        case Err(e) => Err(ParseIdFailed(e))
  }

  /** A sub-path `/<id>/<datetime>` names that data point. */
  lemma DatapointKeyOf(id: i64, datetime: string)
    requires '/' !in datetime
    ensures DatapointKey("/" + IntToDecimal(id) + "/" + datetime) == Ok((id, datetime))
  {
    var d := IntToDecimal(id);
    DecimalChars(id);
    assert Join([d, datetime], '/') == d + "/" + datetime;
    assert "/" + d + "/" + datetime == "/" + Join([d, datetime], '/');
    Paths.SubsectionJoin([d, datetime], 0);
    Paths.SubsectionJoin([d, datetime], 1);
    ParseI64RoundTrip(id);
  }

  /** Once sections 0 and 1 are present, the key is decided by section 0's text as in
      `IdFromSubpathSegment`, and the date-time is section 1 unchanged. */
  lemma DatapointKeySegments(subpath: string, segment: string, datetime: string)
    requires Paths.Subsection(subpath, 0) == Some(segment)
    requires Paths.Subsection(subpath, 1) == Some(datetime)
    ensures WellFormed(segment) && InI64(SignedValue(segment))
            ==> DatapointKey(subpath) == Ok((SignedValue(segment) as i64, datetime))
    ensures WellFormed(segment) && !InI64(SignedValue(segment))
            ==> DatapointKey(subpath)
                == Err(ParseIdFailed(if segment[0] == '-' then NegOverflow else PosOverflow))
    ensures !WellFormed(segment) ==> DatapointKey(subpath).Err?
  {
    ParseI64Ok(segment);
    if WellFormed(segment) && !InI64(SignedValue(segment)) {
      ParseI64Overflow(segment);
    }
  }

  /** The date-time is checked before the id is parsed: a single segment is a missing
      identifier even when it is not a number. */
  lemma DatapointKeyNeedsTwo(segment: string)
    requires '/' !in segment
    ensures DatapointKey("/" + segment) == Err(MissingIdentifier("/" + segment))
  {
    Paths.SubsectionSingle(segment, 1);
  }

  // The batch ladder.

  /** Every element parsed, or `None` as soon as one fails (`collect` into a `Result`). */
  function ParseAll<T>(items: seq<Json>, fromValue: Json -> Option<T>): (r: Option<seq<T>>)
    ensures r.Some? <==> forall i :: 0 <= i < |items| ==> fromValue(items[i]).Some?
    ensures r.Some? ==> |r.value| == |items|
    ensures r.Some? ==> forall i :: 0 <= i < |items| ==> r.value[i] == fromValue(items[i]).value
  {
    if items == [] then Some([])
    else match fromValue(items[0])
      case None => None
      case Some(first) =>
        match ParseAll(items[1..], fromValue)
        case None =>
          assert !(forall i :: 0 <= i < |items| - 1 ==> fromValue(items[1..][i]).Some?);
          None
        case Some(rest) => Some([first] + rest)
  }

  /** The data points of a batch body: the array under `datapoints`, all parsed. */
  function BatchData<T>(json: Json, fromValue: Json -> Option<T>): (r: Option<seq<T>>)
    ensures r.Some? ==> json.Object? && "datapoints" in json.fields
                        && json.fields["datapoints"].Array?
                        && ParseAll(json.fields["datapoints"].items, fromValue) == r
    ensures !json.Object? || "datapoints" !in json.fields ==> r.None?
  {
    match Get(json, "datapoints")
    case None => None
    case Some(value) =>
      match AsArray(value)
      case None => None
      case Some(items) => ParseAll(items, fromValue)
  }

  /** `try_batch_model`, as both revisions of the data-point model write it, with the hint
      `msg` of each. `batch` is the database's `batch_session_sensor_data`. */
  function TryBatch<T>(msg: string, body: Option<Json>, fromValue: Json -> Option<T>,
                       batch: seq<T> -> Result<seq<T>, string>, now: i64): (r: HttpResponse)
    ensures body.None? ==> r == MissingBody(Some(msg), now)
    ensures body.Some? && BatchData(body.value, fromValue).None? ==> r == InvalidBody(Some(msg), now)
    ensures body.Some? && BatchData(body.value, fromValue).Some? ==>
      var outcome := batch(BatchData(body.value, fromValue).value);
      (outcome.Ok? ==> r == NoContentResponse(now)) && (outcome.Err? ==> r == BadRequest(msg, now))
  {
    match body
    case None => MissingBody(Some(msg), now)
    case Some(json) =>
      match BatchData(json, fromValue)
      case None => InvalidBody(Some(msg), now)
      case Some(data) =>
        match batch(data)
        case Ok(_) => NoContentResponse(now)
        case Err(_) => BadRequest(msg, now)
  }

  /** One element that does not parse rejects the whole batch before the database is
      consulted. */
  lemma TryBatchElementFails<T>(msg: string, items: seq<Json>, i: nat, fromValue: Json -> Option<T>,
                                batch: seq<T> -> Result<seq<T>, string>, now: i64)
    requires i < |items| && fromValue(items[i]).None?
    ensures TryBatch(msg, Some(Object(map["datapoints" := Array(items)])), fromValue, batch, now)
         == InvalidBody(Some(msg), now)
  {
    assert ParseAll(items, fromValue).None?;
  }

  /** A body whose `datapoints` is not an array is invalid. */
  lemma TryBatchNotArray<T>(msg: string, value: Json, fromValue: Json -> Option<T>,
                            batch: seq<T> -> Result<seq<T>, string>, now: i64)
    requires !value.Array?
    ensures TryBatch(msg, Some(Object(map["datapoints" := value])), fromValue, batch, now)
         == InvalidBody(Some(msg), now)
  {
    assert Get(Object(map["datapoints" := value]), "datapoints") == Some(value);
  }

  /** The database sees exactly the parsed elements, in order: `data` holds the parsed
      value of every element. */
  lemma TryBatchStoresAll<T>(msg: string, items: seq<Json>, fromValue: Json -> Option<T>,
                             batch: seq<T> -> Result<seq<T>, string>, now: i64, data: seq<T>)
    requires |data| == |items|
    requires forall i :: 0 <= i < |items| ==> fromValue(items[i]) == Some(data[i])
    ensures TryBatch(msg, Some(Object(map["datapoints" := Array(items)])), fromValue, batch, now)
         == if batch(data).Ok? then NoContentResponse(now) else BadRequest(msg, now)
  {
    var json := Object(map["datapoints" := Array(items)]);
    assert Get(json, "datapoints") == Some(Array(items));
    var parsed := ParseAll(items, fromValue);
    assert parsed.Some?;
    assert parsed.value == data;
    assert BatchData(json, fromValue) == Some(data);
  }
}

=== FILE: common.dfy ===
/** Values and sequence operations shared by every module of the model: the Option and
    Result types that stand for Rust's `Option` and `Result`, a byte type, and the slice
    and string searches (`position`, `split_once`, `split`, `trim_end_matches`, ...) the
    server is written with. */
module Common {

  datatype Option<+T> = None | Some(value: T)

  datatype Result<+T, +E> = Ok(value: T) | Err(error: E)

  /** A `u8`. */
  type byte = b: int | 0 <= b < 0x100

  /** `prefix` is a prefix of `s` (Rust `starts_with`). */
  predicate IsPrefix<T(==)>(prefix: seq<T>, s: seq<T>) {
    |prefix| <= |s| && s[..|prefix|] == prefix
  }

  /** `suffix` is a suffix of `s` (Rust `ends_with`). */
  predicate IsSuffix<T(==)>(suffix: seq<T>, s: seq<T>) {
    |suffix| <= |s| && s[|s| - |suffix|..] == suffix
  }

  /** `pat` occurs in `s` starting at index `i`. */
  predicate OccursAt<T(==)>(s: seq<T>, pat: seq<T>, i: nat) {
    i + |pat| <= |s| && s[i..i + |pat|] == pat
  }

  /** Index of the first `x` in `s` (Rust `iter().position(|e| *e == x)`). */
  function IndexOf<T(==)>(s: seq<T>, x: T): (r: Option<nat>)
    ensures r.None? <==> x !in s
    ensures r.Some? ==> r.value < |s| && s[r.value] == x && x !in s[..r.value]
  {
    if |s| == 0 then None
    else if s[0] == x then Some(0)
    else match IndexOf(s[1..], x)
      case None => None
      case Some(i) =>
        assert s[..i + 1] == [s[0]] + s[1..][..i];
        Some(i + 1)
  }

  /** Splits `s` around its first `x` (Rust `split_once`). */
  function SplitOnce<T(==)>(s: seq<T>, x: T): (r: Option<(seq<T>, seq<T>)>)
    ensures r.None? <==> x !in s
    ensures r.Some? ==> s == r.value.0 + [x] + r.value.1 && x !in r.value.0
  {
    match IndexOf(s, x)
    case None => None
    case Some(i) =>
      assert s == s[..i] + [x] + s[i + 1..];
      Some((s[..i], s[i + 1..]))
  }

  /** `split_once` at a known first occurrence. */
  lemma SplitOnceAt<T>(s: seq<T>, x: T, i: nat)
    requires i < |s| && s[i] == x && x !in s[..i]
    ensures SplitOnce(s, x) == Some((s[..i], s[i + 1..]))
  {
    assert x in s;
  }

  /** Every piece between occurrences of `x`, in order (Rust `split`): one more piece than
      there are occurrences of `x`, and none of them contains `x`. */
  function Split<T(==)>(s: seq<T>, x: T): (r: seq<seq<T>>)
    ensures |r| >= 1
    ensures forall i :: 0 <= i < |r| ==> x !in r[i]
    decreases |s|
  {
    match SplitOnce(s, x)
    case None => [s]
    case Some((head, tail)) => [head] + Split(tail, x)
  }

  /** Concatenates `parts` with `x` between neighbours (Rust `join`). */
  function Join<T>(parts: seq<seq<T>>, x: T): seq<T>
  {
    if |parts| == 0 then []
    else if |parts| == 1 then parts[0]
    else parts[0] + [x] + Join(parts[1..], x)
  }

  /** Concatenates `parts` with the separator `sep` between neighbours. */
  function JoinWith<T>(parts: seq<seq<T>>, sep: seq<T>): seq<T>
  {
    if |parts| == 0 then []
    else if |parts| == 1 then parts[0]
    else parts[0] + sep + JoinWith(parts[1..], sep)
  }

  /** A join behind a lead-in starts with the lead-in and the first part, and ends with
      the last part. */
  lemma JoinWithEnds<T>(lead: seq<T>, parts: seq<seq<T>>, sep: seq<T>)
    requires |parts| > 0
    ensures IsPrefix(lead + parts[0], lead + JoinWith(parts, sep))
    ensures IsSuffix(parts[|parts| - 1], lead + JoinWith(parts, sep))
  {
    var joined := JoinWith(parts, sep);
    var r := lead + joined;
    var first := parts[0];
    var last := parts[|parts| - 1];
    assert IsPrefix(first, joined);
    assert r[..|lead| + |first|] == lead + joined[..|first|];
    JoinWithLast(parts, sep);
    assert r[|r| - |last|..] == joined[|joined| - |last|..];
  }

  /** A join ends with its last part: no separator follows it. */
  lemma {:induction false} JoinWithLast<T>(parts: seq<seq<T>>, sep: seq<T>)
    requires |parts| > 0
    ensures IsSuffix(parts[|parts| - 1], JoinWith(parts, sep))
  {
    if |parts| > 1 {
      JoinWithLast(parts[1..], sep);
      var rest := JoinWith(parts[1..], sep);
      var j := parts[0] + sep + rest;
      assert j[|j| - |rest|..] == rest;
      assert j[|j| - |parts[|parts| - 1]|..] == rest[|rest| - |parts[|parts| - 1]|..];
    }
  }

  /** A join of two or more parts is the first part, the separator, and the join of the
      others. */
  lemma JoinWithCons<T>(parts: seq<seq<T>>, sep: seq<T>)
    requires |parts| > 1
    ensures JoinWith(parts, sep) == parts[0] + sep + JoinWith(parts[1..], sep)
  {
  }

  /** Joining the pieces of a split gives back the split sequence. */
  lemma {:induction false} JoinSplit<T>(s: seq<T>, x: T)
    ensures Join(Split(s, x), x) == s
    decreases |s|
  {
    match SplitOnce(s, x)
    case None =>
    case Some((head, tail)) =>
      JoinSplit(tail, x);
      assert Split(s, x) == [head] + Split(tail, x);
      assert Split(s, x)[1..] == Split(tail, x);
  }

  /** Splitting a join whose parts do not contain the separator gives back the parts. */
  lemma {:induction false} SplitJoin<T>(parts: seq<seq<T>>, x: T)
    requires |parts| >= 1
    requires forall i :: 0 <= i < |parts| ==> x !in parts[i]
    ensures Split(Join(parts, x), x) == parts
  {
    if |parts| > 1 {
      var s := Join(parts, x);
      assert s == parts[0] + [x] + Join(parts[1..], x);
      assert SplitOnce(s, x) == Some((parts[0], Join(parts[1..], x))) by {
        assert s[|parts[0]|] == x;
        assert s[..|parts[0]|] == parts[0];
      }
      SplitJoin(parts[1..], x);
    }
  }

  /** Equal sequences one element longer: `x` is `c` before `y`, and `y` is `t` before `d`,
      so `x` is `c` before `t`, before `d`. */
  lemma ConsConcat<T>(x: seq<T>, c: T, y: seq<T>, t: seq<T>, d: seq<T>)
    requires x == [c] + y && y == t + d
    ensures x == ([c] + t) + d
  {
  }

  /** A non-empty sequence is its first element before the rest. */
  lemma HeadTail<T>(s: seq<T>)
    requires |s| > 0
    ensures [s[0]] + s[1..] == s
  {
  }

  /** A sequence that is the first element of `s` before the rest of `s` is `s`. */
  lemma ConsOfTail<T>(x: seq<T>, y: seq<T>, s: seq<T>)
    requires |s| > 0 && x == [s[0]] + y && y == s[1..]
    ensures x == s
  {
  }

  /** Splitting twice around `x` regroups into three pieces. */
  lemma RegroupThree<T>(h: seq<T>, a: seq<T>, x: T, b: seq<T>, c: seq<T>)
    requires h == a + [x] + (b + [x] + c)
    ensures h == a + [x] + b + [x] + c
  {
  }

  /** The layout of a text made of three pieces: its length, its ends and its middle. */
  lemma Concat3<T>(a: seq<T>, b: seq<T>, c: seq<T>)
    ensures |a + b + c| == |a| + |b| + |c|
    ensures IsPrefix(a, a + b + c) && IsSuffix(c, a + b + c)
    ensures (a + b + c)[|a|..|a| + |b|] == b
  {
    assert (a + b + c)[..|a|] == a;
    assert (a + b + c)[|a| + |b|..] == c;
  }

  /** Five pieces joined left to right, regrouped from the right. */
  lemma ConcatFive<T>(a: seq<T>, b: seq<T>, c: seq<T>, d: seq<T>, e: seq<T>)
    ensures a + b + c + d + e == a + (b + (c + d + e))
  {
  }

  /** A suffix of a suffix cuts the whole into what precedes it and itself. */
  lemma SuffixOfSuffix<T>(s: seq<T>, t: seq<T>, b: seq<T>)
    requires IsSuffix(t, s) && IsSuffix(b, t)
    ensures s == s[..|s| - |b|] + b
  {
    assert s[|s| - |b|..] == t[|t| - |b|..];
  }

  /** Index of the first occurrence of `pat` in `s` (a substring search, as Rust's
      `str::find` or `windows(n).position(|w| w == pat)` for `pat` of length n >= 1). */
  function IndexOfSeq<T(==)>(s: seq<T>, pat: seq<T>): (r: Option<nat>)
    ensures r.Some? ==>
      OccursAt(s, pat, r.value) && forall j :: 0 <= j < r.value ==> !OccursAt(s, pat, j)
    ensures r.None? ==> forall j :: 0 <= j <= |s| ==> !OccursAt(s, pat, j)
  {
    IndexOfSeqFrom(s, pat, 0)
  }

  /** A first occurrence is the one `IndexOfSeq` finds. */
  lemma IndexOfSeqFirst<T>(s: seq<T>, pat: seq<T>, i: nat)
    requires OccursAt(s, pat, i)
    requires forall j :: 0 <= j < i ==> !OccursAt(s, pat, j)
    ensures IndexOfSeq(s, pat) == Some(i)
  {
  }

  function IndexOfSeqFrom<T(==)>(s: seq<T>, pat: seq<T>, from: nat): (r: Option<nat>)
    requires from <= |s| + 1
    requires forall j :: 0 <= j < from ==> !OccursAt(s, pat, j)
    ensures r.Some? ==>
      OccursAt(s, pat, r.value) && forall j :: 0 <= j < r.value ==> !OccursAt(s, pat, j)
    ensures r.None? ==> forall j :: 0 <= j <= |s| ==> !OccursAt(s, pat, j)
    decreases |s| + 1 - from
  {
    if from + |pat| > |s| then None
    else if s[from..from + |pat|] == pat then Some(from)
    else IndexOfSeqFrom(s, pat, from + 1)
  }

  /** `s` without its trailing copies of `x` (Rust `trim_end_matches(x)` for one element). */
  function TrimEndElem<T(==)>(s: seq<T>, x: T): (r: seq<T>)
    ensures IsPrefix(r, s)
    ensures forall i :: |r| <= i < |s| ==> s[i] == x
    ensures |r| == 0 || r[|r| - 1] != x
  {
    if |s| > 0 && s[|s| - 1] == x then
      var r := TrimEndElem(s[..|s| - 1], x);
      assert s[..|s| - 1][..|r|] == s[..|r|];
      r
    else s
  }

  /** Trimming trailing `x`s and then trailing copies of `pat` leaves a prefix followed by
      whole copies of `pat` up to `cut`, and only `x`s after `cut`. */
  lemma TrimEndBoth<T>(s: seq<T>, x: T, pat: seq<T>)
    requires |pat| > 0
    ensures var r := TrimEndSeq(TrimEndElem(s, x), pat); var cut := |TrimEndElem(s, x)|;
      && |r| <= cut <= |s| && IsPrefix(r, s)
      && Repeats(s[|r|..cut], pat)
      && (forall i :: cut <= i < |s| ==> s[i] == x)
      && (cut == 0 || s[cut - 1] != x)
  {
    var t := TrimEndElem(s, x);
    var r := TrimEndSeq(t, pat);
    var cut := |t|;
    assert s[|r|..cut] == t[|r|..];
    assert s[..|t|][..|r|] == s[..|r|];
  }

  /** `t` is zero or more copies of `pat` one after another. */
  predicate Repeats<T(==)>(t: seq<T>, pat: seq<T>)
    requires |pat| > 0
    decreases |t|
  {
    t == [] || (|pat| <= |t| && t[|t| - |pat|..] == pat && Repeats(t[..|t| - |pat|], pat))
  }

  /** No copies at all. */
  lemma RepeatsEmpty<T>(t: seq<T>, pat: seq<T>)
    requires |pat| > 0 && |t| == 0
    ensures Repeats(t, pat)
  {
  }

  /** One more copy of `pat` after copies of `pat` is still copies of `pat`. */
  lemma RepeatsAppend<T>(u: seq<T>, pat: seq<T>)
    requires |pat| > 0 && Repeats(u, pat)
    ensures Repeats(u + pat, pat)
  {
    var t := u + pat;
    assert t[|t| - |pat|..] == pat;
    assert t[..|t| - |pat|] == u;
  }

  /** A prefix of `s` minus one trailing `pat`, followed by copies of `pat` there, is a
      prefix of `s` followed by copies of `pat`. */
  lemma TrimEndSeqStep<T>(s: seq<T>, pat: seq<T>, r: seq<T>)
    requires 0 < |pat| <= |s| && s[|s| - |pat|..] == pat
    requires IsPrefix(r, s[..|s| - |pat|]) && Repeats(s[..|s| - |pat|][|r|..], pat)
    ensures IsPrefix(r, s) && Repeats(s[|r|..], pat)
  {
    var rest := s[..|s| - |pat|];
    assert rest[..|r|] == s[..|r|];
    assert s == rest + pat;
    DropAppend(rest, pat, |r|);
    RepeatsAppend(rest[|r|..], pat);
  }

  /** Dropping from a concatenation within its first part. */
  lemma DropAppend<T>(a: seq<T>, b: seq<T>, k: nat)
    requires k <= |a|
    ensures (a + b)[k..] == a[k..] + b
  {
  }

  /** `s` with its trailing copies of `pat` removed one after another (Rust
      `trim_end_matches(pat)` for a non-empty string pattern): what is removed is whole
      copies of `pat`, and what is left does not end with one. */
  function TrimEndSeq<T(==)>(s: seq<T>, pat: seq<T>): (r: seq<T>)
    requires |pat| > 0
    ensures IsPrefix(r, s)
    ensures Repeats(s[|r|..], pat)
    ensures !(|pat| <= |r| && r[|r| - |pat|..] == pat)
    decreases |s|
  {
    if |pat| <= |s| && s[|s| - |pat|..] == pat then
      var rest := s[..|s| - |pat|];
      var r := TrimEndSeq(rest, pat);
      TrimEndSeqStep(s, pat, r);
      r
    else
      RepeatsEmpty(s[|s|..], pat);
      s
  }

  predicate IsAscii(c: char) {
    c as int < 0x80
  }

  /** ASCII lower-casing of one character: 'A'..'Z' become 'a'..'z'. */
  function ToLowerChar(c: char): char {
    if 'A' <= c <= 'Z' then (c as int + 32) as char else c
  }

  /** ASCII lower-casing of a string. */
  function ToLower(s: string): (r: string)
    ensures |r| == |s|
    ensures forall i :: 0 <= i < |s| ==> r[i] == ToLowerChar(s[i])
  {
    if |s| == 0 then [] else [ToLowerChar(s[0])] + ToLower(s[1..])
  }

  /** Lower-casing leaves a text without capital letters unchanged. */
  lemma LowerCaseFixed(s: string)
    requires forall i :: 0 <= i < |s| ==> !('A' <= s[i] <= 'Z')
    ensures ToLower(s) == s
  {
  }

  /** Rust's `char::is_whitespace`: the Unicode White_Space property. */
  predicate IsWhitespace(c: char) {
    var n := c as int;
    || 0x09 <= n <= 0x0D || n == 0x20 || n == 0x85 || n == 0xA0 || n == 0x1680
    || 0x2000 <= n <= 0x200A || n == 0x2028 || n == 0x2029 || n == 0x202F
    || n == 0x205F || n == 0x3000
  }

  function TrimStart(s: string): (r: string)
    ensures |r| <= |s| && r == s[|s| - |r|..]
    ensures forall i :: 0 <= i < |s| - |r| ==> IsWhitespace(s[i])
    ensures |r| == 0 || !IsWhitespace(r[0])
  {
    if |s| > 0 && IsWhitespace(s[0]) then
      var r := TrimStart(s[1..]);
      assert s[1..][|s| - 1 - |r|..] == s[|s| - |r|..];
      r
    else s
  }

  function TrimEnd(s: string): (r: string)
    ensures IsPrefix(r, s)
    ensures forall i :: |r| <= i < |s| ==> IsWhitespace(s[i])
    ensures |r| == 0 || !IsWhitespace(r[|r| - 1])
  {
    if |s| > 0 && IsWhitespace(s[|s| - 1]) then
      var r := TrimEnd(s[..|s| - 1]);
      assert s[..|s| - 1][..|r|] == s[..|r|];
      r
    else s
  }

  /** Rust `str::trim`: white space removed from both ends. */
  function Trim(s: string): (r: string)
    ensures |r| == 0 || (!IsWhitespace(r[0]) && !IsWhitespace(r[|r| - 1]))
    ensures exists i, j :: 0 <= i <= j <= |s| && r == s[i..j]
                           && (forall k :: 0 <= k < i ==> IsWhitespace(s[k]))
                           && (forall k :: j <= k < |s| ==> IsWhitespace(s[k]))
  {
    var t := TrimStart(s);
    var r := TrimEnd(t);
    assert r == s[|s| - |t|..|s| - |t| + |r|];
    r
  }
}

=== FILE: decimal.dfy ===
/** Decimal text for integers, as the server prints and reads them: the `Display` of `i64`
    and `usize` (used by `format!` in `public_json`, the `content-length` header and the
    `datetime` header), and Rust's `str::parse::<i64>` with the error kinds of
    `ParseIntError`, which the path-identifier parsing in the models reports. */
module Decimal {
  import opened Common

  const I64_MIN: int := -0x8000_0000_0000_0000
  const I64_MAX: int := 0x7FFF_FFFF_FFFF_FFFF

  /** A Rust `i64`. */
  type i64 = x: int | I64_MIN <= x <= I64_MAX

  predicate InI64(x: int) {
    I64_MIN <= x <= I64_MAX
  }

  predicate IsDigit(c: char) {
    '0' <= c <= '9'
  }

  predicate AllDigits(s: string) {
    forall i :: 0 <= i < |s| ==> IsDigit(s[i])
  }

  function DigitValue(c: char): (d: nat)
    requires IsDigit(c)
    ensures d < 10
  {
    c as int - '0' as int
  }

  function DigitChar(d: nat): (c: char)
    requires d < 10
    ensures IsDigit(c) && DigitValue(c) == d
  {
    ('0' as int + d) as char
  }

  /** The decimal digits of `n`, most significant first, without leading zeros. */
  function NatToDecimal(n: nat): (r: string)
    ensures |r| > 0 && AllDigits(r)
    ensures r[0] == '0' ==> n == 0 && r == "0"
  {
    if n < 10 then [DigitChar(n)] else NatToDecimal(n / 10) + [DigitChar(n % 10)]
  }

  /** A three-digit number is printed as its hundreds, tens and units digits. */
  lemma ThreeDigits(n: nat)
    requires 100 <= n < 1000
    ensures NatToDecimal(n) == [DigitChar(n / 100), DigitChar(n / 10 % 10), DigitChar(n % 10)]
  {
    assert NatToDecimal(n / 100) == [DigitChar(n / 100)];
    assert n / 10 / 10 == n / 100;
  }

  /** Rust's `Display` for integers: a `-` sign for negative values, then the digits. */
  function IntToDecimal(n: int): (r: string)
    ensures |r| > 0
    ensures r[0] == '-' <==> n < 0
    ensures n >= 0 ==> r == NatToDecimal(n)
    ensures n < 0 ==> r == "-" + NatToDecimal(-n)
  {
    if n < 0 then "-" + NatToDecimal(-n) else NatToDecimal(n)
  }

  /** The value of a digit string read left to right, starting from `acc`. */
  function LeftValue(ds: string, acc: nat): (r: int)
    requires AllDigits(ds)
    ensures r >= acc
  {
    if ds == [] then acc else LeftValue(ds[1..], acc * 10 + DigitValue(ds[0]))
  }

  /** Kinds of `core::num::IntErrorKind` that `parse::<i64>` can report. */
  datatype IntErrorKind = Empty | InvalidDigit | PosOverflow | NegOverflow {
    /** The `Display` text of a `ParseIntError` of this kind. */
    function Message(): string {
      match this
      case Empty => "cannot parse integer from empty string"
      case InvalidDigit => "invalid digit found in string"
      case PosOverflow => "number too large to fit in target type"
      case NegOverflow => "number too small to fit in target type"
    }
  }

  /** `str::parse::<i64>`: an optional `+` or `-`, then decimal digits, read left to right
      with a checked multiply and add per digit. A character that is not a digit is
      reported as soon as it is reached, an overflow as soon as it happens. */
  function ParseI64(s: string): Result<i64, IntErrorKind>
  {
    if s == [] then Err(Empty)
    else if (s[0] == '+' || s[0] == '-') && |s| == 1 then Err(InvalidDigit)
    else if s[0] == '+' then Accumulate(s[1..], 0, true)
    else if s[0] == '-' then Accumulate(s[1..], 0, false)
    else Accumulate(s, 0, true)
  }

  /** The digit loop of `from_str_radix`: for each character, check the multiply, then
      the digit, then report an overflowed multiply, then check the add (a subtraction
      for a negative number). */
  function Accumulate(ds: string, acc: i64, positive: bool): Result<i64, IntErrorKind>
    decreases |ds|
  {
    if ds == [] then Ok(acc)
    else if !IsDigit(ds[0]) then Err(InvalidDigit)
    else
      var overflow := if positive then PosOverflow else NegOverflow;
      var mul := acc * 10;
      if !InI64(mul) then Err(overflow)
      else
        var next := if positive then mul + DigitValue(ds[0]) else mul - DigitValue(ds[0]);
        if !InI64(next) then Err(overflow)
        else Accumulate(ds[1..], next, positive)
  }

  /** The text `parse::<i64>` accepts: an optional sign and at least one digit. */
  predicate WellFormed(s: string) {
    if |s| > 0 && (s[0] == '+' || s[0] == '-') then |s| > 1 && AllDigits(s[1..])
    else |s| > 0 && AllDigits(s)
  }

  /** The mathematical value of a well-formed number text. */
  function SignedValue(s: string): int
    requires WellFormed(s)
  {
    if s[0] == '-' then -LeftValue(s[1..], 0)
    else if s[0] == '+' then LeftValue(s[1..], 0)
    else LeftValue(s, 0)
  }

  lemma {:induction false} LeftValueAppend(ds: string, d: char, acc: nat)
    requires AllDigits(ds) && IsDigit(d)
    ensures AllDigits(ds + [d])
    ensures LeftValue(ds + [d], acc) == LeftValue(ds, acc) * 10 + DigitValue(d)
    decreases |ds|
  {
    assert AllDigits(ds + [d]);
    if ds != [] {
      assert (ds + [d])[1..] == ds[1..] + [d];
      LeftValueAppend(ds[1..], d, acc * 10 + DigitValue(ds[0]));
    } else {
      assert (ds + [d])[1..] == [];
    }
  }

  /** Reading back the printed digits of `n` gives `n`. */
  lemma {:induction false} LeftValueOfDecimal(n: nat)
    ensures LeftValue(NatToDecimal(n), 0) == n
  {
    if n >= 10 {
      LeftValueOfDecimal(n / 10);
      LeftValueAppend(NatToDecimal(n / 10), DigitChar(n % 10), 0);
    }
  }

  /** A digit run whose value fits is accumulated to that value, for either sign. */
  lemma {:induction false} AccumulateInRange(ds: string, acc: int, positive: bool)
    requires acc >= 0
    requires AllDigits(ds)
    requires positive ==> LeftValue(ds, acc) <= I64_MAX
    requires !positive ==> -LeftValue(ds, acc) >= I64_MIN
    ensures InI64(if positive then acc else -acc)
    ensures Accumulate(ds, if positive then acc else -acc, positive)
         == Ok(if positive then LeftValue(ds, acc) else -LeftValue(ds, acc))
    decreases |ds|
  {
    if ds != [] {
      var d := DigitValue(ds[0]);
      AccumulateInRange(ds[1..], acc * 10 + d, positive);
    }
  }

  /** A digit run whose value does not fit is reported as an overflow of its sign. */
  lemma {:induction false} AccumulateOutOfRange(ds: string, acc: int, positive: bool)
    requires acc >= 0
    requires AllDigits(ds)
    requires InI64(if positive then acc else -acc)
    requires positive ==> LeftValue(ds, acc) > I64_MAX
    requires !positive ==> -LeftValue(ds, acc) < I64_MIN
    ensures Accumulate(ds, if positive then acc else -acc, positive)
         == Err(if positive then PosOverflow else NegOverflow)
    decreases |ds|
  {
    var d := DigitValue(ds[0]);
    var next := acc * 10 + d;
    if InI64(if positive then next else -next) {
      AccumulateOutOfRange(ds[1..], next, positive);
    }
  }

  /** An accepted digit run consists of digits only and has its left-to-right value. */
  lemma {:induction false} AccumulateOk(ds: string, acc: int, positive: bool, n: i64)
    requires acc >= 0
    requires InI64(if positive then acc else -acc)
    requires Accumulate(ds, if positive then acc else -acc, positive) == Ok(n)
    ensures AllDigits(ds)
    ensures n == if positive then LeftValue(ds, acc) else -LeftValue(ds, acc)
    decreases |ds|
  {
    if ds != [] {
      var next := acc * 10 + DigitValue(ds[0]);
      AccumulateOk(ds[1..], next, positive, n);
      assert ds == [ds[0]] + ds[1..];
    }
  }

  /** `parse::<i64>` accepts exactly the well-formed texts whose value fits in an `i64`,
      and returns that value. */
  lemma ParseI64Ok(s: string)
    ensures ParseI64(s).Ok? <==> WellFormed(s) && InI64(SignedValue(s))
    ensures ParseI64(s).Ok? ==> ParseI64(s).value == SignedValue(s)
  {
    if s == [] || ((s[0] == '+' || s[0] == '-') && |s| == 1) {
    } else {
      var digits := if s[0] == '+' || s[0] == '-' then s[1..] else s;
      var positive := s[0] != '-';
      if ParseI64(s).Ok? {
        AccumulateOk(digits, 0, positive, ParseI64(s).value);
      }
      if WellFormed(s) && InI64(SignedValue(s)) {
        AccumulateInRange(digits, 0, positive);
      }
    }
  }

  /** A well-formed number that does not fit in an `i64` is an overflow of its sign. */
  lemma ParseI64Overflow(s: string)
    requires WellFormed(s) && !InI64(SignedValue(s))
    ensures ParseI64(s) == Err(if s[0] == '-' then NegOverflow else PosOverflow)
  {
    var digits := if s[0] == '+' || s[0] == '-' then s[1..] else s;
    AccumulateOutOfRange(digits, 0, s[0] != '-');
  }

  /** Parsing the printed form of an `i64` gives it back. */
  lemma ParseI64RoundTrip(n: i64)
    ensures ParseI64(IntToDecimal(n)) == Ok(n)
  {
    var m: int := n;
    var digits := NatToDecimal(if m < 0 then -m else m);
    LeftValueOfDecimal(if m < 0 then -m else m);
    if n < 0 {
      assert IntToDecimal(n)[1..] == digits;
      AccumulateInRange(digits, 0, false);
    } else {
      AccumulateInRange(digits, 0, true);
    }
  }
}

=== FILE: form_urlencoded.dfy ===
/** The `application/x-www-form-urlencoded` parser the server decodes query strings with
    (the `form_urlencoded::parse` function of the `url` crate, which follows section 5.1 of
    the WHATWG URL Standard). */
module FormUrlEncoded {
  import opened Common
  import Utf8

  const AMPERSAND: byte := 0x26
  const EQUALS: byte := 0x3D
  const PLUS: byte := 0x2B
  const PERCENT: byte := 0x25
  const SPACE: byte := 0x20

  /** Every `+` replaced by a space. */
  function ReplacePlus(b: seq<byte>): (r: seq<byte>)
    ensures |r| == |b|
    ensures forall i :: 0 <= i < |b| ==> r[i] == if b[i] == PLUS then SPACE else b[i]
  {
    if b == [] then [] else [if b[0] == PLUS then SPACE else b[0]] + ReplacePlus(b[1..])
  }

  /** The value of an ASCII hexadecimal digit of either case. */
  function HexByte(x: byte): (r: Option<nat>)
    ensures r.Some? ==> r.value < 16
  {
    if 0x30 <= x <= 0x39 then Some(x - 0x30)
    else if 0x41 <= x <= 0x46 then Some(x - 0x41 + 10)
    else if 0x61 <= x <= 0x66 then Some(x - 0x61 + 10)
    else None
  }

  /** Percent-decoding: `%` and two hexadecimal digits become the byte they spell; a `%`
      not followed by two hexadecimal digits stays as it is. */
  function PercentDecode(b: seq<byte>): (r: seq<byte>)
    ensures |r| <= |b|
    decreases |b|
  {
    if b == [] then []
    else if b[0] == PERCENT && |b| >= 3 && HexByte(b[1]).Some? && HexByte(b[2]).Some? then
      [HexByte(b[1]).value * 16 + HexByte(b[2]).value] + PercentDecode(b[3..])
    else [b[0]] + PercentDecode(b[1..])
  }

  /** One name or value: `+` as space, then percent-decoding, then UTF-8 decoding with
      replacement of ill-formed bytes. */
  function DecodeComponent(b: seq<byte>): string {
    Utf8.DecodeLossy(PercentDecode(ReplacePlus(b)))
  }

  /** One non-empty `&`-separated sequence: the name before the first `=` and the value
      after it, or the whole sequence as name and an empty value when there is no `=`. */
  function ParsePair(piece: seq<byte>): (r: (string, string))
    ensures EQUALS !in piece ==> r == (DecodeComponent(piece), "")
  {
    match SplitOnce(piece, EQUALS)
    case None => (DecodeComponent(piece), "")
    case Some((name, value)) => (DecodeComponent(name), DecodeComponent(value))
  }

  /** `form_urlencoded::parse`: takes the input up to the next `&` at each step, skips it
      when empty, and decodes it as a pair otherwise. */
  function Parse(input: seq<byte>): seq<(string, string)>
    decreases |input|
  {
    if input == [] then []
    else
      var (piece, rest) := match SplitOnce(input, AMPERSAND)
        case None => (input, [])
        case Some((p, r)) => (p, r);
      if piece == [] then Parse(rest) else [ParsePair(piece)] + Parse(rest)
  }

  /** The pieces that are not empty, in order. */
  function NonEmpty(pieces: seq<seq<byte>>): (r: seq<seq<byte>>)
    ensures forall i :: 0 <= i < |r| ==> r[i] != []
    ensures |r| <= |pieces|
  {
    if pieces == [] then []
    else if pieces[0] == [] then NonEmpty(pieces[1..])
    else [pieces[0]] + NonEmpty(pieces[1..])
  }

  function ParsePairs(pieces: seq<seq<byte>>): (r: seq<(string, string)>)
    ensures |r| == |pieces|
    ensures forall i :: 0 <= i < |r| ==> r[i] == ParsePair(pieces[i])
  {
    if pieces == [] then [] else [ParsePair(pieces[0])] + ParsePairs(pieces[1..])
  }

  /** The standard's description: split the input on `&`, drop the empty sequences, parse
      each remaining one as a pair. */
  function ParseSpec(input: seq<byte>): seq<(string, string)> {
    ParsePairs(NonEmpty(Split(input, AMPERSAND)))
  }

  /** The step-by-step parser is the standard's split-and-filter description. */
  lemma {:induction false} ParseIsSpec(input: seq<byte>)
    ensures Parse(input) == ParseSpec(input)
    decreases |input|
  {
    if input != [] {
      match SplitOnce(input, AMPERSAND)
      case None =>
        assert Split(input, AMPERSAND) == [input];
        assert NonEmpty([input]) == [input];
      case Some((p, r)) =>
        ParseIsSpec(r);
        var pieces := Split(input, AMPERSAND);
        assert pieces == [p] + Split(r, AMPERSAND);
        assert pieces[1..] == Split(r, AMPERSAND);
        if r == [] {
          assert Split(r, AMPERSAND) == [[]];
          assert Parse(r) == [];
        }
    }
  }

  /** The empty query has no parameters. */
  lemma ParseEmpty()
    ensures Parse([]) == []
  {
  }

  /** Bytes without `+` are left alone by the `+` replacement. */
  lemma ReplacePlusNone(b: seq<byte>)
    requires PLUS !in b
    ensures ReplacePlus(b) == b
  {
  }

  /** Bytes without `%` are left alone by percent-decoding. */
  lemma {:induction false} PercentDecodeNone(b: seq<byte>)
    requires PERCENT !in b
    ensures PercentDecode(b) == b
  {
    if b != [] {
      PercentDecodeNone(b[1..]);
      assert [b[0]] + b[1..] == b;
    }
  }

  /** Upper-case hexadecimal digit byte, as percent-encoding writes them. */
  function HexDigitByte(d: nat): (x: byte)
    requires d < 16
    ensures HexByte(x) == Some(d)
  {
    if d < 10 then 0x30 + d else 0x41 + d - 10
  }

  /** Every byte percent-encoded. */
  function PercentEncodeAll(b: seq<byte>): (r: seq<byte>)
    ensures |r| == 3 * |b|
  {
    if b == [] then []
    else [PERCENT, HexDigitByte(b[0] / 16), HexDigitByte(b[0] % 16)] + PercentEncodeAll(b[1..])
  }

  /** Percent-decoding inverts percent-encoding. */
  lemma {:induction false} PercentDecodeEncode(b: seq<byte>)
    ensures PercentDecode(PercentEncodeAll(b)) == b
  {
    if b != [] {
      var e := PercentEncodeAll(b);
      assert e[3..] == PercentEncodeAll(b[1..]);
      PercentDecodeEncode(b[1..]);
      assert [b[0]] + b[1..] == b;
    }
  }

  /** A text without `+` and `%` decodes from its UTF-8 bytes to itself. */
  lemma DecodeComponentPlain(s: string)
    requires '+' !in s && '%' !in s
    ensures DecodeComponent(Utf8.Encode(s)) == s
  {
    Utf8.EncodeAsciiIn(s, '+');
    Utf8.EncodeAsciiIn(s, '%');
    ReplacePlusNone(Utf8.Encode(s));
    PercentDecodeNone(Utf8.Encode(s));
    Utf8.DecodeLossyEncode(s);
  }

  /** Percent-decoding passes over bytes without `%` unchanged. */
  lemma {:induction false} PercentDecodePlainPrefix(x: seq<byte>, y: seq<byte>)
    requires PERCENT !in x
    ensures PercentDecode(x + y) == x + PercentDecode(y)
  {
    if x != [] {
      PercentDecodePlainPrefix(x[1..], y);
      assert (x + y)[1..] == x[1..] + y;
      assert [x[0]] + x[1..] == x;
    } else {
      assert x + y == y;
    }
  }

  /** The plain UTF-8 bytes of `a`, a space and `b` decode back to the text `a b`. */
  lemma SpacedText(a: string, b: string)
    requires '+' !in a && '%' !in a && '+' !in b && '%' !in b
    ensures var x, y := Utf8.Encode(a), Utf8.Encode(b);
      && PLUS !in x && PERCENT !in x && PLUS !in y && PERCENT !in y
      && Utf8.DecodeLossy(x + [SPACE] + y) == a + " " + b
  {
    Utf8.EncodeAsciiIn(a, '+');
    Utf8.EncodeAsciiIn(a, '%');
    Utf8.EncodeAsciiIn(b, '+');
    Utf8.EncodeAsciiIn(b, '%');
    Utf8.EncodeAppend(a, " ");
    Utf8.EncodeAppend(a + " ", b);
    assert Utf8.Encode(" ") == [SPACE];
    Utf8.DecodeLossyEncode(a + " " + b);
  }

  /** Decoding a component in its three stages. */
  lemma DecodeComponentVia(input: seq<byte>, replaced: seq<byte>, decoded: seq<byte>, text: string)
    requires ReplacePlus(input) == replaced && PercentDecode(replaced) == decoded
    requires Utf8.DecodeLossy(decoded) == text
    ensures DecodeComponent(input) == text
  {
  }

  /** A `+` between bytes without `+` is the one byte the replacement changes. */
  lemma ReplaceOnePlus(x: seq<byte>, y: seq<byte>) returns (spaced: seq<byte>)
    requires PLUS !in x && PLUS !in y && PERCENT !in x && PERCENT !in y
    ensures spaced == x + [SPACE] + y && PERCENT !in spaced
    ensures ReplacePlus(x + [PLUS] + y) == spaced
  {
    spaced := x + [SPACE] + y;
    var input := x + [PLUS] + y;
    var r := ReplacePlus(input);
    forall i | 0 <= i < |input|
      ensures r[i] == spaced[i]
    {
      if i < |x| {
        assert input[i] == x[i] && spaced[i] == x[i];
      } else if i > |x| {
        assert input[i] == y[i - |x| - 1] && spaced[i] == y[i - |x| - 1];
      }
    }
  }

  /** `%20` at the front is decoded to a space. */
  lemma PercentDecodeSpace(y: seq<byte>)
    ensures PercentDecode([PERCENT, 0x32, 0x30] + y) == [SPACE] + PercentDecode(y)
  {
    var escaped := [PERCENT, 0x32, 0x30] + y;
    assert escaped[0] == PERCENT && escaped[1] == 0x32 && escaped[2] == 0x30;
    assert escaped[3..] == y;
  }

  /** `%20` between bytes without `%` is the one escape percent-decoding changes. */
  lemma DecodeOneEscape(x: seq<byte>, y: seq<byte>) returns (escaped: seq<byte>)
    requires PLUS !in x && PLUS !in y && PERCENT !in x && PERCENT !in y
    ensures escaped == x + [PERCENT, 0x32, 0x30] + y && PLUS !in escaped
    ensures PercentDecode(escaped) == x + [SPACE] + y
  {
    var tail := [PERCENT, 0x32, 0x30] + y;
    escaped := x + tail;
    PercentDecodePlainPrefix(x, tail);
    PercentDecodeSpace(y);
    PercentDecodeNone(y);
    assert x + ([SPACE] + y) == x + [SPACE] + y;
  }

  /** `+` stands for a space: `a+b` decodes to `a b`. */
  lemma DecodeComponentPlus(a: string, b: string)
    requires '+' !in a && '%' !in a && '+' !in b && '%' !in b
    ensures DecodeComponent(Utf8.Encode(a) + [PLUS] + Utf8.Encode(b)) == a + " " + b
  {
    SpacedText(a, b);
    var spaced := ReplaceOnePlus(Utf8.Encode(a), Utf8.Encode(b));
    PercentDecodeNone(spaced);
    DecodeComponentVia(Utf8.Encode(a) + [PLUS] + Utf8.Encode(b), spaced, spaced, a + " " + b);
  }

  /** `%20` spells a space: `a%20b` decodes to `a b`. */
  lemma DecodeComponentPercentSpace(a: string, b: string)
    requires '+' !in a && '%' !in a && '+' !in b && '%' !in b
    ensures DecodeComponent(Utf8.Encode(a) + [PERCENT, 0x32, 0x30] + Utf8.Encode(b)) == a + " " + b
  {
    SpacedText(a, b);
    var escaped := DecodeOneEscape(Utf8.Encode(a), Utf8.Encode(b));
    ReplacePlusNone(escaped);
    DecodeComponentVia(escaped, escaped, Utf8.Encode(a) + [SPACE] + Utf8.Encode(b), a + " " + b);
  }
}

=== FILE: http_header.dfy ===
/** Status lines and header maps (`tcp-server/src/http/http_header.rs`): the statuses the
    server answers with, the header names it uses, and `HttpHeader`, a string-keyed map
    that responses and requests carry, with the canned header sets of the server. */
module Headers {
  import opened Common
  import opened Decimal

  /** The statuses the server uses, with their numeric codes. */
  datatype HttpStatus = OK | Created | NoContent | BadRequest | Unauthorized | Forbidden | NotFound
  {
    /** The enum's discriminant, which is the status code. */
    function Code(): nat {
      match this
      case OK => 200
      case Created => 201
      case NoContent => 204
      case BadRequest => 400
      case Unauthorized => 401
      case Forbidden => 403
      case NotFound => 404
    }

    /** The status as written in a status line: the code, a space, the reason phrase. */
    function AsStr(): (r: string)
      ensures |r| > 4 && AllDigits(r[..3]) && r[3] == ' '
    {
      match this
      case OK => "200 OK"
      case Created => "201 Created"
      case NoContent => "204 No Content"
      case BadRequest => "400 Bad Request"
      case Unauthorized => "401 Unauthorized"
      case Forbidden => "403 Forbidden"
      case NotFound => "404 Not Found"
    }
  }

  /** A text whose first three characters are the digits of `n` starts with `n` in
      decimal. */
  lemma StartsWithDigits(r: string, n: nat)
    requires 100 <= n < 1000 && |r| >= 3
    requires r[0] == DigitChar(n / 100) && r[1] == DigitChar(n / 10 % 10) && r[2] == DigitChar(n % 10)
    ensures r[..3] == NatToDecimal(n)
  {
    ThreeDigits(n);
  }

  /** Every status string starts with the status's code in decimal. */
  lemma StatusStartsWithCode(s: HttpStatus)
    ensures s.AsStr()[..3] == NatToDecimal(s.Code())
  {
    StartsWithDigits(s.AsStr(), s.Code());
  }

  /** Different statuses have different codes, hence different status strings. */
  lemma StatusCodesDistinct(s: HttpStatus, t: HttpStatus)
    requires s.AsStr()[..3] == t.AsStr()[..3]
    ensures s == t
  {
    StatusStartsWithCode(s);
    StatusStartsWithCode(t);
    LeftValueOfDecimal(s.Code());
    LeftValueOfDecimal(t.Code());
  }

  /** The header names the server reads or writes. */
  datatype HttpHeaderType =
    | SessionID | Cookie | SetCookie | DateTime | ContentType | ContentLength
    | AcAllowOrigin | AcAllowMethods | AcAllowHeaders | AcAllowCredentials | AcMaxAge
    | AcExposeHeaders | Host | Origin | AcRequestMethod | AcRequestHeaders
  {
    /** The header's name, written in lower case, as request parsing stores names. */
    function AsStr(): (r: string)
      ensures |r| >= 4
    {
      match this
      case SessionID => "session_id"
      case Cookie => "cookie"
      case SetCookie => "set-cookie"
      case DateTime => "datetime"
      case ContentType => "content-type"
      case ContentLength => "content-length"
      case AcAllowOrigin => "access-control-allow-origin"
      case AcAllowMethods => "access-control-allow-methods"
      case AcAllowHeaders => "access-control-allow-headers"
      case AcAllowCredentials => "access-control-allow-credentials"
      case AcMaxAge => "access-control-max-age"
      case AcExposeHeaders => "access-control-expose-headers"
      case Host => "host"
      case Origin => "origin"
      case AcRequestMethod => "access-control-request-method"
      case AcRequestHeaders => "access-control-request-headers"
    }
  }

  /** Every header name is its own lower-cased form, so a name the server writes matches
      the same name read back from a request. */
  lemma AsStrLowerCase(h: HttpHeaderType)
    ensures ToLower(h.AsStr()) == h.AsStr()
  {
    if h.SessionID? || h.Cookie? || h.SetCookie? || h.DateTime? {
      GeneralNamesLowerCase(h);
    } else if h.ContentType? || h.ContentLength? || h.Host? || h.Origin? {
      ContentNamesLowerCase(h);
    } else if h.AcAllowOrigin? || h.AcAllowMethods? || h.AcAllowHeaders? || h.AcAllowCredentials? {
      AllowNamesLowerCase(h);
    } else {
      OtherAccessNamesLowerCase(h);
    }
  }

  // The names four at a time, so that each proof stays small.

  lemma GeneralNamesLowerCase(h: HttpHeaderType)
    requires h.SessionID? || h.Cookie? || h.SetCookie? || h.DateTime?
    ensures ToLower(h.AsStr()) == h.AsStr()
  {
    LowerCaseFixed(h.AsStr());
  }

  lemma ContentNamesLowerCase(h: HttpHeaderType)
    requires h.ContentType? || h.ContentLength? || h.Host? || h.Origin?
    ensures ToLower(h.AsStr()) == h.AsStr()
  {
    LowerCaseFixed(h.AsStr());
  }

  lemma AllowNamesLowerCase(h: HttpHeaderType)
    requires h.AcAllowOrigin? || h.AcAllowMethods? || h.AcAllowHeaders? || h.AcAllowCredentials?
    ensures ToLower(h.AsStr()) == h.AsStr()
  {
    LowerCaseFixed(h.AsStr());
  }

  lemma OtherAccessNamesLowerCase(h: HttpHeaderType)
    requires h.AcMaxAge? || h.AcExposeHeaders? || h.AcRequestMethod? || h.AcRequestHeaders?
    ensures ToLower(h.AsStr()) == h.AsStr()
  {
    LowerCaseFixed(h.AsStr());
  }

  const AC_ALLOWED_METHODS: string := "GET, POST, PATCH, DELETE, OPTIONS"
  const AC_MAX_AGE: string := "86400"

  /** A header map: what `HttpHeader` holds. */
  type HeaderMap = map<string, string>

  /** `HashMap::get`. */
  function Get(m: HeaderMap, key: string): (r: Option<string>)
    ensures r.Some? <==> key in m
    ensures r.Some? ==> r.value == m[key]
  {
    if key in m then Some(m[key]) else None
  }

  /** The map after inserting `pairs` one after another, left to right. */
  function InsertAll(m: HeaderMap, pairs: seq<(string, string)>): (r: HeaderMap)
    ensures r.Keys == m.Keys + set i | 0 <= i < |pairs| :: pairs[i].0
  {
    if pairs == [] then m
    else
      var last := pairs[|pairs| - 1];
      var r := InsertAll(m, pairs[..|pairs| - 1])[last.0 := last.1];
      assert forall i :: 0 <= i < |pairs| - 1 ==> pairs[..|pairs| - 1][i] == pairs[i];
      r
  }

  /** Inserting one more pair after a list of them. */
  lemma InsertAllSnoc(m: HeaderMap, pairs: seq<(string, string)>, i: nat)
    requires i < |pairs|
    ensures InsertAll(m, pairs[..i + 1]) == InsertAll(m, pairs[..i])[pairs[i].0 := pairs[i].1]
  {
    assert pairs[..i + 1][..i] == pairs[..i];
  }

  /** The value of the last pair with key `key`, if any. */
  function LastValue(pairs: seq<(string, string)>, key: string): Option<string>
  {
    if pairs == [] then None
    else if pairs[|pairs| - 1].0 == key then Some(pairs[|pairs| - 1].1)
    else LastValue(pairs[..|pairs| - 1], key)
  }

  /** There is a last value exactly when some pair has the key; it is the value of a pair
      with the key at index `i`, after which no pair has the key. */
  lemma {:induction false} LastValueIndex(pairs: seq<(string, string)>, key: string) returns (i: nat)
    ensures LastValue(pairs, key).None? <==> forall j :: 0 <= j < |pairs| ==> pairs[j].0 != key
    ensures LastValue(pairs, key).Some? ==>
      && i < |pairs| && pairs[i] == (key, LastValue(pairs, key).value)
      && forall j :: i < j < |pairs| ==> pairs[j].0 != key
  {
    if pairs == [] {
      i := 0;
    } else if pairs[|pairs| - 1].0 == key {
      i := |pairs| - 1;
    } else {
      var init := pairs[..|pairs| - 1];
      i := LastValueIndex(init, key);
      assert forall j :: 0 <= j < |init| ==> init[j] == pairs[j];
    }
  }

  /** Inserting a list of pairs: for a repeated key the last value wins; keys that are not
      inserted keep their old value. */
  lemma {:induction false} InsertAllGet(m: HeaderMap, pairs: seq<(string, string)>, key: string)
    ensures Get(InsertAll(m, pairs), key)
         == if LastValue(pairs, key).Some? then LastValue(pairs, key) else Get(m, key)
  {
    if pairs != [] {
      InsertAllGet(m, pairs[..|pairs| - 1], key);
    }
  }

  /** The attributes of the session cookie: not readable by scripts, sent on same-site
      requests only, kept for an hour, valid for every path. */
  const COOKIE_ATTRIBUTES: string := ";" + " HttpOnly; SameSite=Strict; Max-Age=3600; Path=/"

  /** The `set-cookie` value for a session: the session id cookie with its attributes. */
  function SessionCookie(sessionId: string): (r: string)
    ensures |r| == |SessionID.AsStr()| + 1 + |sessionId| + |COOKIE_ATTRIBUTES|
    ensures IsPrefix(SessionID.AsStr() + "=" + sessionId + ";", r)
    ensures IsSuffix(COOKIE_ATTRIBUTES, r)
    ensures r[|SessionID.AsStr()| + 1..|r| - |COOKIE_ATTRIBUTES|] == sessionId
  {
    var head := SessionID.AsStr() + "=" + sessionId;
    var r := head + COOKIE_ATTRIBUTES;
    assert r[..|head|] == head && r[|head|] == ';';
    assert r[..|head| + 1] == head + ";";
    Concat3(SessionID.AsStr() + "=", sessionId, COOKIE_ATTRIBUTES);
    r
  }

  /** The pairs `default` inserts: credentials allowed, and the time in seconds. */
  function DefaultPairs(now: i64): seq<(string, string)> {
    [(AcAllowCredentials.AsStr(), "true"), (DateTime.AsStr(), IntToDecimal(now))]
  }

  /** The headers of `default_json`. */
  function DefaultJsonHeaders(now: i64): HeaderMap {
    InsertAll(InsertAll(map[], DefaultPairs(now)), [(ContentType.AsStr(), "application/json")])
  }

  /** The headers of `default_html`. */
  function DefaultHtmlHeaders(now: i64): HeaderMap {
    InsertAll(InsertAll(map[], DefaultPairs(now)), [(ContentType.AsStr(), "application/html")])
  }

  /** The pairs `default_options` adds to the defaults. */
  function OptionsPairs(): seq<(string, string)> {
    [(AcAllowMethods.AsStr(), AC_ALLOWED_METHODS),
     (AcAllowHeaders.AsStr(), ContentType.AsStr() + ", " + SessionID.AsStr()),
     (AcMaxAge.AsStr(), AC_MAX_AGE)]
  }

  /** The headers of `default_options`. */
  function DefaultOptionsHeaders(now: i64): HeaderMap {
    InsertAll(InsertAll(map[], DefaultPairs(now)), OptionsPairs())
  }

  /** Inserting one pair. */
  lemma InsertAllOne(m: HeaderMap, a: (string, string))
    ensures InsertAll(m, [a]) == m[a.0 := a.1]
  {
    assert [a][..0] == [];
  }

  /** Inserting two pairs. */
  lemma InsertAllTwo(m: HeaderMap, a: (string, string), b: (string, string))
    ensures InsertAll(m, [a, b]) == m[a.0 := a.1][b.0 := b.1]
  {
    assert [a, b][..1] == [a];
    InsertAllOne(m, a);
  }

  /** The defaults hold the credentials and time headers. */
  lemma DefaultPairsContents(now: i64)
    ensures InsertAll(map[], DefaultPairs(now)) == map[
      "access-control-allow-credentials" := "true",
      "datetime" := IntToDecimal(now)]
  {
    InsertAllTwo(map[], DefaultPairs(now)[0], DefaultPairs(now)[1]);
  }

  /** The JSON defaults hold exactly the credentials, time and JSON content-type
      headers. */
  lemma DefaultJsonContents(now: i64)
    ensures DefaultJsonHeaders(now) == map[
      "access-control-allow-credentials" := "true",
      "datetime" := IntToDecimal(now),
      "content-type" := "application/json"]
  {
    DefaultPairsContents(now);
    InsertAllOne(InsertAll(map[], DefaultPairs(now)), (ContentType.AsStr(), "application/json"));
  }

  /** The HTML defaults hold exactly the credentials, time and HTML content-type
      headers. */
  lemma DefaultHtmlContents(now: i64)
    ensures DefaultHtmlHeaders(now) == map[
      "access-control-allow-credentials" := "true",
      "datetime" := IntToDecimal(now),
      "content-type" := "application/html"]
  {
    DefaultPairsContents(now);
    InsertAllOne(InsertAll(map[], DefaultPairs(now)), (ContentType.AsStr(), "application/html"));
  }

  /** The options defaults hold exactly the credentials, time, allowed methods, allowed
      headers and max-age headers; there is no allowed-origin header. */
  lemma DefaultOptionsContents(now: i64)
    ensures DefaultOptionsHeaders(now) == map[
      "access-control-allow-credentials" := "true",
      "datetime" := IntToDecimal(now),
      "access-control-allow-methods" := "GET, POST, PATCH, DELETE, OPTIONS",
      "access-control-allow-headers" := "content-type, session_id",
      "access-control-max-age" := "86400"]
    ensures AcAllowOrigin.AsStr() !in DefaultOptionsHeaders(now)
  {
    DefaultPairsContents(now);
    var p := OptionsPairs();
    assert p[..2] == [p[0], p[1]];
    InsertAllTwo(InsertAll(map[], DefaultPairs(now)), p[0], p[1]);
    assert ContentType.AsStr() + ", " + SessionID.AsStr() == "content-type, session_id";
  }

  /** The text of a cookie header after the first occurrence of `key` (`split_once`). */
  function CookieTail(cookie: string, key: string): (r: Option<string>)
    ensures r.Some? <==> IndexOfSeq(cookie, key).Some?
    ensures r.Some? ==> r.value == cookie[IndexOfSeq(cookie, key).value + |key|..]
  {
    match IndexOfSeq(cookie, key)
    case None => None
    case Some(i) => Some(cookie[i + |key|..])
  }

  /** `get_cookie` skips one character after the key by byte slicing, which panics when
      nothing, or a character of more than one byte, follows the key. */
  predicate CookieSliceable(cookie: string, key: string) {
    CookieTail(cookie, key).Some? ==>
      |CookieTail(cookie, key).value| > 0 && IsAscii(CookieTail(cookie, key).value[0])
  }

  /** The value `get_cookie` finds for `key` in a cookie header: the text after the first
      occurrence of `key`, skipping one character (meant to be `=`), up to the next `;` or
      the end. */
  function CookieValue(cookie: string, key: string): (r: Option<string>)
    requires CookieSliceable(cookie, key)
    ensures r.None? <==> IndexOfSeq(cookie, key).None?
    ensures r.Some? ==> ';' !in r.value
    ensures r.Some? ==>
      var t := CookieTail(cookie, key).value[1..];
      IsPrefix(r.value, t) && (|r.value| == |t| || t[|r.value|] == ';')
  {
    match CookieTail(cookie, key)
    case None => None
    case Some(tail) => Some(UpToSemicolon(tail[1..]))
  }

  /** The text before the first `;`, or all of it when there is none. */
  function UpToSemicolon(s: string): (r: string)
    ensures ';' !in r
    ensures IsPrefix(r, s) && (|r| == |s| || s[|r|] == ';')
  {
    match SplitOnce(s, ';')
    case Some((value, _)) => value
    case None => s
  }

  /** A value free of `;`, followed by nothing or by `;` and more, is what comes before
      the first `;`. */
  lemma UpToSemicolonOf(value: string, rest: string)
    requires ';' !in value
    requires rest == "" || rest[0] == ';'
    ensures UpToSemicolon(value + rest) == value
  {
    var s := value + rest;
    if rest != "" {
      assert s[|value|] == ';' && s[..|value|] == value;
      SplitOnceAt(s, ';', |value|);
    } else {
      assert s == value;
    }
  }

  /** `get_cookie`: the value for `key` in the cookie header, or `None` when there is no
      cookie header or `key` does not occur in it. */
  function GetCookie(m: HeaderMap, key: string): (r: Option<string>)
    requires Cookie.AsStr() in m ==> CookieSliceable(m[Cookie.AsStr()], key)
    ensures r.None? <==> Cookie.AsStr() !in m || IndexOfSeq(m[Cookie.AsStr()], key).None?
    ensures Cookie.AsStr() in m ==> r == CookieValue(m[Cookie.AsStr()], key)
  {
    match Get(m, Cookie.AsStr())
    case None => None
    case Some(cookie) => CookieValue(cookie, key)
  }

  /** Wherever `key` first occurs in a cookie header, the value is what follows it after
      one one-byte character, up to the next `;` or the end: in `pre + key + [c] + value +
      rest`, with no earlier occurrence of `key`, the value is `value`. */
  lemma CookieValueAt(pre: string, key: string, c: char, value: string, rest: string)
    requires forall j :: 0 <= j < |pre| ==> !OccursAt(pre + key + [c] + value + rest, key, j)
    requires IsAscii(c) && ';' !in value
    requires rest == "" || rest[0] == ';'
    ensures CookieSliceable(pre + key + [c] + value + rest, key)
    ensures CookieValue(pre + key + [c] + value + rest, key) == Some(value)
  {
    var cookie := pre + key + [c] + value + rest;
    var tail := [c] + value + rest;
    assert cookie == pre + key + tail;
    assert OccursAt(cookie, key, |pre|) && cookie[|pre| + |key|..] == tail by {
      Concat3(pre, key, tail);
    }
    IndexOfSeqFirst(cookie, key, |pre|);
    assert tail[1..] == value + rest;
    UpToSemicolonOf(value, rest);
  }

  /** A cookie header that starts with `key=value`, followed by nothing or by `;` and more,
      gives `value` for `key`: `session_id=abc123; other=x` gives `abc123`. */
  lemma CookieValueFirst(key: string, value: string, rest: string)
    requires |key| > 0 && ';' !in value
    requires rest == "" || rest[0] == ';'
    ensures CookieSliceable(key + "=" + value + rest, key)
    ensures CookieValue(key + "=" + value + rest, key) == Some(value)
  {
    var cookie := key + "=" + value + rest;
    var tail := "=" + value + rest;
    assert cookie == key + tail;
    assert OccursAt(cookie, key, 0) && cookie[|key|..] == tail;
    IndexOfSeqFirst(cookie, key, 0);
    assert tail[1..] == value + rest;
    UpToSemicolonOf(value, rest);
  }

  /** The session cookie the server sets reads back as the session id when a client sends
      it as its cookie header. */
  lemma SessionCookieRoundTrip(m: HeaderMap, sessionId: string)
    requires ';' !in sessionId
    requires Cookie.AsStr() in m && m[Cookie.AsStr()] == SessionCookie(sessionId)
    ensures CookieSliceable(m[Cookie.AsStr()], SessionID.AsStr())
    ensures GetCookie(m, SessionID.AsStr()) == Some(sessionId)
  {
    CookieValueFirst(SessionID.AsStr(), sessionId, COOKIE_ATTRIBUTES);
  }

  /** `id` first occurs in `session_id=abc` inside the cookie name. */
  lemma IdInsideSessionId()
    ensures IndexOfSeq("session_id=abc", "id") == Some(8)
  {
    var c := "session_id=abc";
    assert OccursAt(c, "id", 8);
    forall j | 0 <= j < 8 ensures !OccursAt(c, "id", j) {
      assert c[j..j + 2][0] == c[j] && c[j..j + 2][1] == c[j + 1];
    }
    assert IndexOfSeq(c, "id").Some?;
  }

  /** The key is searched for as plain text, not as a cookie name: the key `id` is found
      inside the name `session_id`. */
  lemma CookieLooseMatch()
    ensures CookieSliceable("session_id=abc", "id")
    ensures CookieValue("session_id=abc", "id") == Some("abc")
  {
    var c := "session_id=abc";
    IdInsideSessionId();
    assert c[10..] == "=abc";
    assert "=abc"[1..] == "abc";
    UpToSemicolonOf("abc", "");
  }

  /** `order` lists every key of `m` exactly once: the iteration order of the map. */
  predicate EnumeratesKeys(m: HeaderMap, order: seq<string>) {
    && (forall i, j :: 0 <= i < j < |order| ==> order[i] != order[j])
    && (forall i :: 0 <= i < |order| ==> order[i] in m)
    && (forall k :: k in m ==> k in order)
  }

  /** One `name: value` line per key, in the order given. */
  function HeaderLines(m: HeaderMap, order: seq<string>): (r: seq<string>)
    requires forall i :: 0 <= i < |order| ==> order[i] in m
    ensures |r| == |order|
    ensures forall i :: 0 <= i < |r| ==> r[i] == order[i] + ": " + m[order[i]]
  {
    if order == [] then [] else [order[0] + ": " + m[order[0]]] + HeaderLines(m, order[1..])
  }

  /** `HttpHeader::to_string`: the header lines joined by CRLF, with no CRLF at the end.
      The map's iteration order is not fixed; `order` stands for it. */
  function ToString(m: HeaderMap, order: seq<string>): (r: string)
    requires EnumeratesKeys(m, order)
    ensures r == "" <==> m == map[]
    ensures order != [] ==> r == JoinWith(HeaderLines(m, order), "\r\n")
    ensures order != [] ==> IsPrefix(order[0] + ": " + m[order[0]], r)
    ensures order != [] ==> IsSuffix(order[|order| - 1] + ": " + m[order[|order| - 1]], r)
  {
    if order == [] then
      assert m == map[];
      []
    else
      var lines := HeaderLines(m, order);
      assert order[0] in m;
      JoinWithFirst(lines, "\r\n");
      JoinWithLast(lines, "\r\n");
      JoinWith(lines, "\r\n")
  }

  /** A join starts with its first part. */
  lemma JoinWithFirst<T>(parts: seq<seq<T>>, sep: seq<T>)
    requires |parts| > 0
    ensures IsPrefix(parts[0], JoinWith(parts, sep))
  {
  }

  /** A map with a single header prints as that single line. */
  lemma ToStringSingle(key: string, value: string)
    ensures ToString(map[key := value], [key]) == key + ": " + value
  {
  }

  /** An empty header map prints as the empty text. */
  lemma ToStringEmpty()
    ensures ToString(map[], []) == ""
  {
  }

  /** `HttpHeader`: a map from header names to values that its methods update in place. */
  class HttpHeader {
    var headers: HeaderMap

    /** `HttpHeader::new`: no headers. */
    constructor ()
      ensures headers == map[]
    {
      headers := map[];
    }

    /** `insert`: sets `key` to `value` and returns the value it replaced, if any. */
    method Insert(key: string, value: string) returns (previous: Option<string>)
      modifies this
      ensures headers == old(headers)[key := value]
      ensures previous == Get(old(headers), key)
      ensures Lookup(key) == Some(value)
    {
      previous := Get(headers, key);
      headers := headers[key := value];
    }

    /** `get`. */
    function Lookup(key: string): (r: Option<string>)
      reads this
      ensures r.Some? <==> key in headers
      ensures r.Some? ==> r.value == headers[key]
    {
      Get(headers, key)
    }

    /** `with`: inserts the pairs left to right. */
    method With(pairs: seq<(string, string)>)
      modifies this
      ensures headers == InsertAll(old(headers), pairs)
    {
      var i := 0;
      while i < |pairs|
        invariant 0 <= i <= |pairs|
        invariant headers == InsertAll(old(headers), pairs[..i])
      {
        InsertAllSnoc(old(headers), pairs, i);
        var _ := Insert(pairs[i].0, pairs[i].1);
        i := i + 1;
      }
      assert pairs[..i] == pairs;
    }

    /** `set_session`: the session cookie, and the session id header exposed to scripts. */
    method SetSession(sessionId: string)
      modifies this
      ensures headers == old(headers)[SetCookie.AsStr() := SessionCookie(sessionId)]
                                     [AcExposeHeaders.AsStr() := SessionID.AsStr()]
      ensures Lookup(SetCookie.AsStr()) == Some(SessionCookie(sessionId))
      ensures Lookup(AcExposeHeaders.AsStr()) == Some(SessionID.AsStr())
    {
      var _ := Insert(SetCookie.AsStr(), SessionCookie(sessionId));
      var _ := Insert(AcExposeHeaders.AsStr(), SessionID.AsStr());
    }

    /** `default`: allows credentials and stamps the time, `now` in seconds. */
    method Default(now: i64)
      modifies this
      ensures headers == InsertAll(old(headers), DefaultPairs(now))
    {
      With(DefaultPairs(now));
    }

    /** `default_json`. */
    static method DefaultJson(now: i64) returns (h: HttpHeader)
      ensures fresh(h) && h.headers == DefaultJsonHeaders(now)
    {
      h := new HttpHeader();
      h.Default(now);
      h.With([(ContentType.AsStr(), "application/json")]);
    }

    /** `default_html`. */
    static method DefaultHtml(now: i64) returns (h: HttpHeader)
      ensures fresh(h) && h.headers == DefaultHtmlHeaders(now)
    {
      h := new HttpHeader();
      h.Default(now);
      h.With([(ContentType.AsStr(), "application/html")]);
    }

    /** `default_options`. */
    static method DefaultOptions(now: i64) returns (h: HttpHeader)
      ensures fresh(h) && h.headers == DefaultOptionsHeaders(now)
    {
      h := new HttpHeader();
      h.Default(now);
      h.With(OptionsPairs());
    }
  }

  /** After `insert`, the key reads back as the new value and every other key as before. */
  lemma InsertThenGet(m: HeaderMap, key: string, value: string, other: string)
    ensures Get(m[key := value], key) == Some(value)
    ensures other != key ==> Get(m[key := value], other) == Get(m, other)
  {
  }
}

=== FILE: http_method.dfy ===
/** The request methods the server recognises (`tcp-server/src/http/http_method.rs`):
    a fixed, ordered table of tokens, and classification of a request by the first token
    its bytes start with. */
module Methods {
  import opened Common
  import Utf8

  /** The allowed methods, with `Error` as the catch-all. */
  datatype HttpMethod = Get | Post | Patch | Delete | Options | Error {

    /** The method's token. */
    function AsStr(): (r: string)
      ensures |r| >= 3 && forall i :: 0 <= i < |r| ==> 'A' <= r[i] <= 'Z'
    {
      match this
      case Get => "GET"
      case Post => "POST"
      case Patch => "PATCH"
      case Delete => "DELETE"
      case Options => "OPTIONS"
      case Error => "ERROR"
    }

    /** The UTF-8 bytes of the token. */
    function ToBytes(): (r: seq<byte>)
      ensures |r| == |AsStr()|
      ensures forall i :: 0 <= i < |r| ==> r[i] == AsStr()[i] as int
    {
      Utf8.EncodeAscii(AsStr());
      Utf8.Encode(AsStr())
    }
  }

  /** Every method, in the order in which classification tries them. */
  function AllTypes(): (r: seq<HttpMethod>)
    ensures |r| == 6
  {
    [Get, Post, Patch, Delete, Options, Error]
  }

  /** Every method appears in the table, at the index `Index` gives. */
  function Index(m: HttpMethod): (i: nat)
    ensures i < |AllTypes()| && AllTypes()[i] == m
  {
    match m
    case Get => 0
    case Post => 1
    case Patch => 2
    case Delete => 3
    case Options => 4
    case Error => 5
  }

  /** The first method of `ms` whose token starts `bytes`, or `Error` if there is none. */
  function FirstByteMatch(ms: seq<HttpMethod>, bytes: seq<byte>): (r: HttpMethod)
    ensures r == Error || (r in ms && IsPrefix(r.ToBytes(), bytes))
  {
    if ms == [] then Error
    else if IsPrefix(ms[0].ToBytes(), bytes) then ms[0]
    else FirstByteMatch(ms[1..], bytes)
  }

  /** The first method of `ms` whose token starts `s`, or `Error` if there is none. */
  function FirstStringMatch(ms: seq<HttpMethod>, s: string): (r: HttpMethod)
    ensures r == Error || (r in ms && IsPrefix(r.AsStr(), s))
  {
    if ms == [] then Error
    else if IsPrefix(ms[0].AsStr(), s) then ms[0]
    else FirstStringMatch(ms[1..], s)
  }

  /** `HttpMethod::from_bytes`: classifies the start of a request. */
  function FromBytes(bytes: seq<byte>): (r: HttpMethod)
    ensures r != Error ==> IsPrefix(r.ToBytes(), bytes)
  {
    FirstByteMatch(AllTypes(), bytes)
  }

  /** `HttpMethod::from_string`: the same classification on text. */
  function FromString(s: string): (r: HttpMethod)
    ensures r != Error ==> IsPrefix(r.AsStr(), s)
  {
    FirstStringMatch(AllTypes(), s)
  }

  /** `FirstByteMatch` picks the first entry whose token matches. */
  lemma {:induction false} FirstByteMatchIsFirst(ms: seq<HttpMethod>, bytes: seq<byte>, i: nat)
    requires i < |ms| && IsPrefix(ms[i].ToBytes(), bytes)
    requires forall j :: 0 <= j < i ==> !IsPrefix(ms[j].ToBytes(), bytes)
    ensures FirstByteMatch(ms, bytes) == ms[i]
  {
    if i > 0 {
      FirstByteMatchIsFirst(ms[1..], bytes, i - 1);
    }
  }

  /** `FirstByteMatch` falls back to `Error` when no entry matches. */
  lemma {:induction false} FirstByteMatchNone(ms: seq<HttpMethod>, bytes: seq<byte>)
    requires forall j :: 0 <= j < |ms| ==> !IsPrefix(ms[j].ToBytes(), bytes)
    ensures FirstByteMatch(ms, bytes) == Error
  {
    if ms != [] {
      FirstByteMatchNone(ms[1..], bytes);
    }
  }

  /** `from_bytes` returns the first method of the table whose token is a prefix of the
      input. */
  lemma FromBytesFirstMatch(bytes: seq<byte>, i: nat)
    requires i < |AllTypes()| && IsPrefix(AllTypes()[i].ToBytes(), bytes)
    requires forall j :: 0 <= j < i ==> !IsPrefix(AllTypes()[j].ToBytes(), bytes)
    ensures FromBytes(bytes) == AllTypes()[i]
  {
    FirstByteMatchIsFirst(AllTypes(), bytes, i);
  }

  /** Input that starts with none of the tokens, the empty input among it, is `Error`. */
  lemma FromBytesNoMatch(bytes: seq<byte>)
    requires forall m: HttpMethod :: !IsPrefix(m.ToBytes(), bytes)
    ensures FromBytes(bytes) == Error
  {
    FirstByteMatchNone(AllTypes(), bytes);
  }

  /** The empty input is `Error`. */
  lemma FromBytesEmpty()
    ensures FromBytes([]) == Error
  {
    forall m: HttpMethod ensures !IsPrefix(m.ToBytes(), []) {
      assert |m.ToBytes()| >= 3;
    }
    FromBytesNoMatch([]);
  }

  /** Classifying the bytes of a text agrees with classifying the text. */
  lemma {:induction false} FirstMatchAgree(ms: seq<HttpMethod>, s: string)
    ensures FirstByteMatch(ms, Utf8.Encode(s)) == FirstStringMatch(ms, s)
  {
    if ms != [] {
      Utf8.EncodeAscii(ms[0].AsStr());
      Utf8.EncodeAsciiPrefix(ms[0].AsStr(), s);
      FirstMatchAgree(ms[1..], s);
    }
  }

  /** `from_string(s)` is `from_bytes` of the UTF-8 bytes of `s`. */
  lemma FromStringFromBytes(s: string)
    ensures FromString(s) == FromBytes(Utf8.Encode(s))
  {
    FirstMatchAgree(AllTypes(), s);
  }

  /** No token is a prefix of another. */
  lemma TokensPrefixFree(m: HttpMethod, n: HttpMethod)
    requires IsPrefix(m.AsStr(), n.AsStr())
    ensures m == n
  {
    var t := m.AsStr();
    var u := n.AsStr();
    assert t[0] == u[0] && t[1] == u[1] && t[2] == u[2];
  }

  /** Classifying a method's own bytes gives the method back. */
  lemma FromBytesToBytes(m: HttpMethod)
    ensures FromBytes(m.ToBytes()) == m
  {
    FromStringFromBytes(m.AsStr());
    FromStringAsStr(m);
  }

  /** Classifying a method's own token gives the method back. */
  lemma FromStringAsStr(m: HttpMethod)
    ensures FromString(m.AsStr()) == m
  {
    var i := Index(m);
    forall j | 0 <= j < i
      ensures !IsPrefix(AllTypes()[j].AsStr(), m.AsStr())
    {
      if IsPrefix(AllTypes()[j].AsStr(), m.AsStr()) {
        TokensPrefixFree(AllTypes()[j], m);
      }
    }
    FirstStringMatchIsFirst(AllTypes(), m.AsStr(), i);
  }

  lemma {:induction false} FirstStringMatchIsFirst(ms: seq<HttpMethod>, s: string, i: nat)
    requires i < |ms| && IsPrefix(ms[i].AsStr(), s)
    requires forall j :: 0 <= j < i ==> !IsPrefix(ms[j].AsStr(), s)
    ensures FirstStringMatch(ms, s) == ms[i]
  {
    if i > 0 {
      FirstStringMatchIsFirst(ms[1..], s, i - 1);
    }
  }

  /** Matching is by prefix only, with no token boundary: `"GETX /"` is a `GET`. */
  lemma PrefixOnly()
    ensures FromBytes(Utf8.Encode("GETX /")) == Get
  {
    FromStringFromBytes("GETX /");
    assert IsPrefix(Get.AsStr(), "GETX /");
  }

  /** Different methods have different tokens. */
  lemma AsStrInjective(m: HttpMethod, n: HttpMethod)
    requires m.AsStr() == n.AsStr()
    ensures m == n
  {
    TokensPrefixFree(m, n);
  }
}

=== FILE: http_path.dfy ===
/** Request targets sorted into the server's routes (`tcp-server/src/http/http_path.rs`):
    eight variants, each carrying the part of the path after its base path. */
module Paths {
  import opened Common

  const INDEX_ENDPOINT: string := "/"
  const NOT_FOUND_ENDPOINT: string := ""
  const AUTHENTICATION_ENDPOINT: string := "/authentication"
  const USER_ENDPOINT: string := "/users"
  const SENSOR_ENDPOINT: string := "/sensors"
  const SESSION_ENDPOINT: string := "/sessions"
  const SESSION_SENSOR_ENDPOINT: string := "/sessions-sensors"
  const SESSION_SENSOR_DATA_ENDPOINT: string := "/sessions-sensors-data"

  /** A route together with its sub-path. */
  datatype HttpPath =
    | Index(subpath: string)
    | NotFound(subpath: string)
    | Authentication(subpath: string)
    | User(subpath: string)
    | Sensor(subpath: string)
    | Session(subpath: string)
    | SessionSensor(subpath: string)
    | SessionSensorData(subpath: string)
  {
    /** The route's endpoint constant. */
    function BasePath(): string {
      match this
      case Index(_) => INDEX_ENDPOINT
      case NotFound(_) => NOT_FOUND_ENDPOINT
      case Authentication(_) => AUTHENTICATION_ENDPOINT
      case User(_) => USER_ENDPOINT
      case Sensor(_) => SENSOR_ENDPOINT
      case Session(_) => SESSION_ENDPOINT
      case SessionSensor(_) => SESSION_SENSOR_ENDPOINT
      case SessionSensorData(_) => SESSION_SENSOR_DATA_ENDPOINT
    }

    /** The endpoint followed by the sub-path. */
    function ToString(): (r: string)
      ensures IsPrefix(BasePath(), r) && r[|BasePath()|..] == subpath
    {
      BasePath() + subpath
    }

    /** The same route with another sub-path. */
    function WithSubpath(s: string): (r: HttpPath)
      ensures r.BasePath() == BasePath() && r.subpath == s
    {
      match this
      case Index(_) => Index(s)
      case NotFound(_) => NotFound(s)
      case Authentication(_) => Authentication(s)
      case User(_) => User(s)
      case Sensor(_) => Sensor(s)
      case Session(_) => Session(s)
      case SessionSensor(_) => SessionSensor(s)
      case SessionSensorData(_) => SessionSensorData(s)
    }
  }

  /** Every route with an empty sub-path, in declaration order. */
  function Variants(): (r: seq<HttpPath>)
    ensures |r| == 8
    ensures forall i :: 0 <= i < |r| ==> r[i].subpath == ""
  {
    [Index(""), NotFound(""), Authentication(""), User(""), Sensor(""), Session(""),
     SessionSensor(""), SessionSensorData("")]
  }

  /** The first route of `vs` whose endpoint is `base` (`iter().find`). */
  function FindVariant(vs: seq<HttpPath>, base: string): (r: Option<HttpPath>)
    ensures r.Some? ==> r.value in vs && r.value.BasePath() == base
    ensures r.None? ==> forall i :: 0 <= i < |vs| ==> vs[i].BasePath() != base
  {
    if vs == [] then None
    else if vs[0].BasePath() == base then Some(vs[0])
    else FindVariant(vs[1..], base)
  }

  /** The split of a path into the base to match and the sub-path to keep: around the first
      `/` after the first character, both halves given a leading `/`; with no such `/`, the
      whole path and the empty sub-path. */
  function SplitBase(path: string): (r: (string, string))
    requires |path| > 0
    ensures |r.0| > 0
  {
    match SplitOnce(path[1..], '/')
    case None => (path, "")
    case Some((basePart, subpathPart)) => ("/" + basePart, "/" + subpathPart)
  }

  /** `HttpPath::from_string`. The first character is skipped by byte slicing, which panics
      unless it is a one-byte (ASCII) character. */
  function FromString(path: string): (r: HttpPath)
    requires |path| > 0 && IsAscii(path[0])
    ensures r.NotFound? ==> r.subpath == path
  {
    var (base, subpath) := SplitBase(path);
    match FindVariant(Variants(), base)
    case Some(variant) => variant.WithSubpath(subpath)
    case None => NotFound(path)
  }

  /** `HttpPath::subsection`: the `/`-separated piece of a sub-path at `index + 1` (piece 0
      is the empty text before the leading `/`), or `None` for an empty sub-path or an index
      past the end. */
  function Subsection(subpath: string, index: nat): (r: Option<string>)
    ensures r.Some? ==> '/' !in r.value
  {
    if subpath == [] then None
    else
      var pieces := Split(subpath, '/');
      if index + 1 < |pieces| then Some(pieces[index + 1]) else None
  }

  /** The endpoints of the eight routes are pairwise distinct. */
  lemma BasePathsDistinct(p: HttpPath, q: HttpPath)
    requires p.BasePath() == q.BasePath()
    ensures p.WithSubpath("") == q.WithSubpath("")
  {
  }

  /** For a path starting with `/`: the base is `/` and the text up to the next `/`, the
      sub-path is the rest from that `/` on; with no second `/`, the base is the whole path
      and the sub-path is empty. Either way they make up the path. */
  lemma SplitBaseShape(path: string)
    requires |path| > 0 && path[0] == '/'
    ensures SplitBase(path).0 + SplitBase(path).1 == path
    ensures SplitBase(path).0[0] == '/' && '/' !in SplitBase(path).0[1..]
    ensures SplitBase(path).1 == "" <==> '/' !in path[1..]
    ensures SplitBase(path).1 != "" ==> SplitBase(path).1[0] == '/'
  {
    assert path == [path[0]] + path[1..];
    match SplitOnce(path[1..], '/')
    case None =>
    case Some((a, b)) =>
      assert ("/" + a)[1..] == a;
  }

  /** A base equal to a route's endpoint gives that route carrying the sub-path. */
  lemma FromStringRoute(path: string, v: HttpPath)
    requires |path| > 0 && IsAscii(path[0])
    requires SplitBase(path).0 == v.BasePath()
    ensures FromString(path) == v.WithSubpath(SplitBase(path).1)
  {
    FindVariantOf(v, SplitBase(path).0);
    WithSubpathTwice(v, SplitBase(path).1);
  }

  /** Searching the routes for a route's endpoint finds that route. */
  lemma FindVariantOf(v: HttpPath, base: string)
    requires base == v.BasePath()
    ensures FindVariant(Variants(), base) == Some(v.WithSubpath(""))
  {
    var found := FindVariant(Variants(), base);
    assert found.Some? by {
      assert Variants()[VariantIndex(v)].BasePath() == base;
    }
    BasePathsDistinct(found.value, v);
  }

  lemma WithSubpathTwice(v: HttpPath, s: string)
    ensures v.WithSubpath("").WithSubpath(s) == v.WithSubpath(s)
  {
  }

  /** A base equal to no endpoint gives `NotFound` carrying the whole path. */
  lemma FromStringNoRoute(path: string)
    requires |path| > 0 && IsAscii(path[0])
    requires forall w: HttpPath :: SplitBase(path).0 != w.BasePath()
    ensures FromString(path) == NotFound(path)
  {
  }

  /** The position of a route in `Variants()`. */
  function VariantIndex(v: HttpPath): (i: nat)
    ensures i < |Variants()| && Variants()[i] == v.WithSubpath("")
  {
    match v
    case Index(_) => 0
    case NotFound(_) => 1
    case Authentication(_) => 2
    case User(_) => 3
    case Sensor(_) => 4
    case Session(_) => 5
    case SessionSensor(_) => 6
    case SessionSensorData(_) => 7
  }

  /** Printing a classified path gives the path back, for every path starting with `/`. */
  lemma FromStringRoundTrip(path: string)
    requires |path| > 0 && path[0] == '/'
    ensures FromString(path).ToString() == path
  {
    SplitBaseShape(path);
  }

  /** `SplitBase` at a known second `/`. */
  lemma SplitBaseAt(path: string, i: nat)
    requires 1 <= i < |path| && path[i] == '/' && '/' !in path[1..i]
    ensures SplitBase(path) == ("/" + path[1..i], "/" + path[i + 1..])
  {
    assert path[1..][..i - 1] == path[1..i];
    assert path[1..][i - 1 + 1..] == path[i + 1..];
    SplitOnceAt(path[1..], '/', i - 1);
  }

  /** Every endpoint but the not-found one is `/` followed by `/`-free text. */
  lemma EndpointShape(v: HttpPath)
    requires !v.NotFound?
    ensures |v.BasePath()| > 0 && v.BasePath()[0] == '/' && '/' !in v.BasePath()[1..]
  {
    match v
    case Index(_) =>
    case Authentication(_) => SlashName(AUTHENTICATION_ENDPOINT);
    case User(_) => SlashName(USER_ENDPOINT);
    case Sensor(_) => SlashName(SENSOR_ENDPOINT);
    case Session(_) => SlashName(SESSION_ENDPOINT);
    case SessionSensor(_) => SlashName(SESSION_SENSOR_ENDPOINT);
    case SessionSensorData(_) => SlashName(SESSION_SENSOR_DATA_ENDPOINT);
  }

  /** A `/` followed by letters and `-`. */
  lemma SlashName(e: string)
    requires |e| > 1 && e[0] == '/'
    requires forall i :: 1 <= i < |e| ==> 'a' <= e[i] <= 'z' || e[i] == '-'
    ensures '/' !in e[1..]
  {
  }

  /** A route's endpoint followed by an empty sub-path or one starting with `/` splits
      back into the endpoint and that sub-path. */
  lemma SplitBaseOfRoute(v: HttpPath, rest: string)
    requires !v.NotFound?
    requires rest == "" || rest[0] == '/'
    ensures |v.BasePath() + rest| > 0 && IsAscii((v.BasePath() + rest)[0])
    ensures SplitBase(v.BasePath() + rest) == (v.BasePath(), rest)
  {
    EndpointShape(v);
    SplitBaseOfEndpoint(v.BasePath(), rest);
  }

  /** `SplitBase` of a `/` and `/`-free text, followed by nothing or by a `/`-led text. */
  lemma SplitBaseOfEndpoint(base: string, rest: string)
    requires |base| > 0 && base[0] == '/' && '/' !in base[1..]
    requires rest == "" || rest[0] == '/'
    ensures |base + rest| > 0 && (base + rest)[0] == '/'
    ensures SplitBase(base + rest) == (base, rest)
  {
    var path := base + rest;
    if rest == "" {
      assert path == base;
    } else {
      assert path[|base|] == '/' && path[1..|base|] == base[1..];
      SplitBaseAt(path, |base|);
      assert "/" + path[1..|base|] == base;
      assert "/" + path[|base| + 1..] == rest;
    }
  }

  /** A route's endpoint followed by an empty sub-path or one starting with `/` is that
      route carrying that sub-path. */
  lemma FromStringOfRoute(v: HttpPath, rest: string)
    requires !v.NotFound?
    requires rest == "" || rest[0] == '/'
    ensures FromString(v.BasePath() + rest) == v.WithSubpath(rest)
  {
    SplitBaseOfRoute(v, rest);
    FromStringRoute(v.BasePath() + rest, v);
  }

  /** `/` is the index route with an empty sub-path. */
  lemma FromStringIndex()
    ensures FromString(INDEX_ENDPOINT) == Index("")
  {
    FromStringOfRoute(Index(""), "");
    assert INDEX_ENDPOINT + "" == INDEX_ENDPOINT;
  }

  /** A path whose base matches no endpoint is `NotFound` carrying the whole path, not
      just the base: `/unknown/x` is `NotFound("/unknown/x")`. */
  lemma FromStringNotFoundExample(rest: string)
    requires rest == "" || rest[0] == '/'
    ensures FromString("/unknown" + rest) == NotFound("/unknown" + rest)
  {
    UnknownBase(rest);
    forall w: HttpPath ensures "/unknown" != w.BasePath() {
      assert |w.BasePath()| != 8 || w.BasePath()[1] != 'u';
    }
    FromStringNoRoute("/unknown" + rest);
  }

  lemma UnknownBase(rest: string)
    requires rest == "" || rest[0] == '/'
    ensures SplitBase("/unknown" + rest).0 == "/unknown"
  {
    var p := "/unknown" + rest;
    if rest == "" {
      assert '/' !in p[1..];
    } else {
      assert p[8] == '/' && p[1..8] == "unknown";
      SplitBaseAt(p, 8);
    }
  }

  /** Only the byte slicing looks at the first character: when a later `/` follows, any
      ASCII character there is treated as if it were `/`, so `x/users/a` is the index route with sub-path
      `/users/a`. */
  lemma FromStringFirstCharIgnored(c: char, rest: string)
    requires IsAscii(c) && '/' in rest
    ensures SplitBase([c] + rest) == SplitBase(['/'] + rest)
  {
    assert ([c] + rest)[1..] == rest == (['/'] + rest)[1..];
  }

  /** A sub-path built from one or more `/`-free segments gives back each segment by its
      index, and `None` past the last one. */
  lemma SubsectionJoin(segments: seq<string>, index: nat)
    requires |segments| > 0
    requires forall i :: 0 <= i < |segments| ==> '/' !in segments[i]
    ensures Subsection("/" + Join(segments, '/'), index)
         == if index < |segments| then Some(segments[index]) else None
  {
    var parts := [""] + segments;
    assert parts[1..] == segments;
    assert Join(parts, '/') == "/" + Join(segments, '/');
    SplitJoin(parts, '/');
  }

  /** `/<a>/<b>` has sections `a` and `b`, and nothing after them. */
  lemma SubsectionPair(a: string, b: string, index: nat)
    requires '/' !in a && '/' !in b
    ensures Subsection("/" + a + "/" + b, index)
         == if index == 0 then Some(a) else if index == 1 then Some(b) else None
  {
    var segments := [a, b];
    assert Join(segments, '/') == a + "/" + b by {
      assert segments[1..] == [b];
    }
    assert "/" + a + "/" + b == "/" + (a + "/" + b);
    SubsectionJoin(segments, index);
  }

  /** An empty sub-path has no sections. */
  lemma SubsectionEmpty(index: nat)
    ensures Subsection("", index) == None
  {
  }

  /** A non-empty sub-path `/` followed by `/`-free text has that text as section 0 and
      nothing after it. */
  lemma SubsectionSingle(segment: string, index: nat)
    requires '/' !in segment
    ensures Subsection("/" + segment, index) == if index == 0 then Some(segment) else None
  {
    assert Join([segment], '/') == segment;
    SubsectionJoin([segment], index);
  }
}

=== FILE: http_request.dfy ===
/** Requests (`tcp-server/src/http/http_request.rs`): parsing one buffer of request bytes
    into method, route, query parameters and headers, parsing the body as JSON, and
    printing a request back. */
module Requests {
  import opened Common
  import Utf8
  import FormUrlEncoded
  import opened Json
  import opened Methods
  import opened Paths
  import opened Headers

  /** The bytes of the empty line that ends the head of a request. */
  const DELIMITER: seq<byte> := [0x0D, 0x0A, 0x0D, 0x0A]
  const SP: byte := 0x20
  const QUESTION_MARK: byte := 0x3F

  /** The bytes before the first CRLF CRLF, or the whole buffer when there is none. */
  function HeaderBlock(buffer: seq<byte>): (r: seq<byte>)
    ensures IsPrefix(r, buffer)
    ensures forall j :: 0 <= j < |r| ==> !OccursAt(buffer, DELIMITER, j)
    ensures r == buffer || OccursAt(buffer, DELIMITER, |r|)
  {
    match IndexOfSeq(buffer, DELIMITER)
    case Some(i) => buffer[..i]
    case None => buffer
  }

  /** `splitn(3, ' ')` with each missing piece taken as empty: the method token, the
      request target, and the rest of the head. */
  function RequestLineParts(header: seq<byte>): (r: (seq<byte>, seq<byte>, seq<byte>))
    ensures SP !in r.0 && SP !in r.1
  {
    match SplitOnce(header, SP)
    case None => (header, [], [])
    case Some((first, rest)) =>
      match SplitOnce(rest, SP)
      case None => (first, rest, [])
      case Some((second, third)) => (first, second, third)
  }

  /** The parts make up the head: the first alone when it holds no space, otherwise the
      first two around a space, or all three around two spaces; `spaces` is the number of
      separating spaces found. */
  lemma RequestLinePartsJoin(header: seq<byte>) returns (spaces: nat)
    ensures var r := RequestLineParts(header);
      && (spaces == 0 <==> SP !in header)
      && (spaces == 0 ==> r == (header, [], []))
      && (spaces == 1 ==> header == r.0 + [SP] + r.1 && r.2 == [])
      && (spaces == 2 ==> header == r.0 + [SP] + r.1 + [SP] + r.2)
      && spaces <= 2
  {
    match SplitOnce(header, SP)
    case None =>
      spaces := 0;
    case Some((first, rest)) =>
      match SplitOnce(rest, SP)
      case None =>
        spaces := 1;
      case Some((second, third)) =>
        RegroupThree(header, first, SP, second, third);
        spaces := 2;
  }

  /** The target up to its first `?`, and the query after it (empty without a `?`). */
  function SplitTarget(target: seq<byte>): (r: (seq<byte>, seq<byte>))
    ensures QUESTION_MARK !in r.0
    ensures target == r.0 || target == r.0 + [QUESTION_MARK] + r.1
    ensures QUESTION_MARK !in target ==> r == (target, [])
  {
    match SplitOnce(target, QUESTION_MARK)
    case None => (target, [])
    case Some((path, query)) => (path, query)
  }

  /** The path text: the path bytes as UTF-8 (the empty text when they are not), trimmed
      of white space. */
  function PathText(pathBytes: seq<byte>): (r: string)
    ensures (forall s :: Utf8.Encode(s) != pathBytes) ==> r == ""
    ensures forall s :: Utf8.Encode(s) == pathBytes ==> r == Trim(s)
  {
    Utf8.DecodeExactly(pathBytes);
    match Utf8.Decode(pathBytes)
    case Some(s) => Trim(s)
    case None => ""
  }

  /** Rust's `str::lines`: the pieces between `\n`s, each without its `\n` and then
      without one `\r` before it; a last piece with no `\n` after it is kept as it is, and
      a final `\n` does not start another line. */
  function Lines(s: string): (r: seq<string>)
    ensures s == [] ==> r == []
    ensures forall i :: 0 <= i < |r| ==> '\n' !in r[i]
    decreases |s|
  {
    if s == [] then []
    else match SplitOnce(s, '\n')
      case None => [s]
      case Some((line, rest)) =>
        var stripped := if |line| > 0 && line[|line| - 1] == '\r' then line[..|line| - 1] else line;
        [stripped] + Lines(rest)
  }

  /** One header line: the name before the first `:`, lower-cased, and the value after
      it, kept as it is; a line without `:` gives an empty name and value. */
  function HeaderPair(line: string): (r: (string, string))
    ensures ':' !in line ==> r == ("", "")
    ensures ':' in line ==>
      && |r.0| + 1 + |r.1| == |line|
      && line[|r.0|] == ':' && ':' !in line[..|r.0|]
      && r.0 == ToLower(line[..|r.0|]) && r.1 == line[|r.0| + 1..]
  {
    match SplitOnce(line, ':')
    case Some((name, value)) => (ToLower(name), value)
    case None => ("", "")
  }

  function HeaderPairs(lines: seq<string>): (r: seq<(string, string)>)
    ensures |r| == |lines|
    ensures forall i :: 0 <= i < |r| ==> r[i] == HeaderPair(lines[i])
  {
    if lines == [] then [] else [HeaderPair(lines[0])] + HeaderPairs(lines[1..])
  }

  /** The header map built from the header lines, in order, so that a later line for the
      same name replaces an earlier one. */
  function HeaderMapOf(lines: seq<string>): HeaderMap {
    InsertAll(map[], HeaderPairs(lines))
  }

  /** The header text: what follows the skipped `HTTP/1.1\r\n` (ten bytes) in the rest of
      the head, as UTF-8, or the empty text when it is not. */
  function HeaderText(rest: seq<byte>): (r: string)
    requires |rest| >= 10
    ensures (forall s :: Utf8.Encode(s) != rest[10..]) ==> r == ""
    ensures forall s :: Utf8.Encode(s) == rest[10..] ==> r == s
  {
    Utf8.DecodeExactly(rest[10..]);
    match Utf8.Decode(rest[10..])
    case Some(s) => s
    case None => ""
  }

  /** What `from_request_bytes` needs not to panic: a third part of the head of at least
      ten bytes (it skips ten bytes by slicing), and a path text whose first character is
      one byte long (`HttpPath::from_string` slices after it). */
  predicate Parsable(buffer: seq<byte>) {
    var parts := RequestLineParts(HeaderBlock(buffer));
    var path := PathText(SplitTarget(parts.1).0);
    |parts.2| >= 10 && |path| > 0 && IsAscii(path[0])
  }

  /** The text `parse_body` works on: the buffer decoded as UTF-8 with invalid sequences
      replaced, then trailing NUL padding trimmed, then trailing copies of the CRLF CRLF
      delimiter trimmed. */
  function BodyText(buffer: seq<byte>): (r: string)
    ensures IsPrefix(r, Utf8.DecodeLossy(buffer))
    ensures exists cut ::
              && |r| <= cut <= |Utf8.DecodeLossy(buffer)|
              && Repeats(Utf8.DecodeLossy(buffer)[|r|..cut], "\r\n\r\n")
              && (forall i :: cut <= i < |Utf8.DecodeLossy(buffer)| ==> Utf8.DecodeLossy(buffer)[i] == '\0')
              && (cut == 0 || Utf8.DecodeLossy(buffer)[cut - 1] != '\0')
    ensures !IsSuffix("\r\n\r\n", r)
  {
    TrimEndBoth(Utf8.DecodeLossy(buffer), '\0', "\r\n\r\n");
    TrimEndSeq(TrimEndElem(Utf8.DecodeLossy(buffer), '\0'), "\r\n\r\n")
  }

  /** The outcome of `parse_body`: the JSON value, or the error it reports. `parseJson`
      stands for `serde_json::from_str`, its error for the parser's message. */
  function ParseBodyResult(buffer: seq<byte>, parseJson: string -> Result<Json, string>): (r: Result<Json, string>)
    ensures BodyText(buffer) == "" ==> r == Err("Failed to parse request body to utf8 string")
    ensures BodyText(buffer) != "" && parseJson(BodyText(buffer)).Ok? ==>
      r == Ok(parseJson(BodyText(buffer)).value)
    ensures BodyText(buffer) != "" && parseJson(BodyText(buffer)).Err? ==>
      r == Err("Failed to parse request body to json value: " + parseJson(BodyText(buffer)).error)
  {
    var text := BodyText(buffer);
    if text == [] then Err("Failed to parse request body to utf8 string")
    else match parseJson(text)
      case Ok(value) => Ok(value)
      case Err(e) => Err("Failed to parse request body to json value: " + e)
  }

  /** `parameters_to_string`: `?` and the `key=value` pairs joined by `&`, or the empty
      text when there are no parameters. */
  function ParametersToString(parameters: Option<seq<(string, string)>>): (r: string)
    ensures (parameters.None? || parameters.value == []) <==> r == ""
    ensures r != "" ==> r[0] == '?'
    ensures r != "" ==> r == "?" + JoinWith(PairTexts(parameters.value), "&")
    ensures r != "" ==>
      var ps := parameters.value;
      && IsPrefix("?" + PairText(ps[0]), r)
      && IsSuffix(PairText(ps[|ps| - 1]), r)
  {
    if parameters.None? || parameters.value == [] then ""
    else
      JoinWithEnds("?", PairTexts(parameters.value), "&");
      "?" + JoinWith(PairTexts(parameters.value), "&")
  }

  /** One query pair as printed: `key=value`. */
  function PairText(p: (string, string)): string {
    p.0 + "=" + p.1
  }

  function PairTexts(pairs: seq<(string, string)>): (r: seq<string>)
    ensures |r| == |pairs|
    ensures forall i :: 0 <= i < |r| ==> r[i] == PairText(pairs[i])
  {
    if pairs == [] then [] else [PairText(pairs[0])] + PairTexts(pairs[1..])
  }

  /** The header loop of `from_request_bytes`: one `insert` per line, in order. */
  method ParseHeaderLines(lines: seq<string>) returns (h: HttpHeader)
    ensures fresh(h)
    ensures h.headers == HeaderMapOf(lines)
  {
    h := new HttpHeader();
    var pairs := HeaderPairs(lines);
    var i := 0;
    while i < |pairs|
      invariant 0 <= i <= |pairs|
      invariant fresh(h)
      invariant h.headers == InsertAll(map[], pairs[..i])
    {
      InsertAllSnoc(map[], pairs, i);
      var _ := h.Insert(pairs[i].0, pairs[i].1);
      i := i + 1;
    }
    assert pairs[..i] == pairs;
  }

  /** A request. The header object is the one the request owns. */
  class HttpRequest {
    var httpMethod: HttpMethod
    var path: HttpPath
    var parameters: Option<seq<(string, string)>>
    var headers: HttpHeader
    var body: Option<Json>

    /** `from_request_bytes`: parses the head of one buffer of request bytes. The body is
        left for `parse_body`. */
    static method FromRequestBytes(buffer: seq<byte>) returns (r: HttpRequest)
      requires Parsable(buffer)
      ensures var parts := RequestLineParts(HeaderBlock(buffer));
        && r.httpMethod == Methods.FromBytes(parts.0)
        && r.path == Paths.FromString(PathText(SplitTarget(parts.1).0))
        && r.parameters == Some(FormUrlEncoded.Parse(SplitTarget(parts.1).1))
        && r.headers.headers == HeaderMapOf(Lines(HeaderText(parts.2)))
      ensures fresh(r) && fresh(r.headers)
      ensures r.body == None
    {
      var parts := RequestLineParts(HeaderBlock(buffer));
      var h := ParseHeaderLines(Lines(HeaderText(parts.2)));
      var target := SplitTarget(parts.1);
      r := new HttpRequest.New(Methods.FromBytes(parts.0), Paths.FromString(PathText(target.0)),
                               Some(FormUrlEncoded.Parse(target.1)), h, None);
    }

    /** `error`: the placeholder request. */
    constructor Error()
      ensures httpMethod == HttpMethod.Error && path == Index("") && parameters == None
      ensures fresh(headers) && headers.headers == map[] && body == None
    {
      httpMethod := HttpMethod.Error;
      path := Index("");
      parameters := None;
      headers := new HttpHeader();
      body := None;
    }

    /** `new`. */
    constructor New(httpMethod: HttpMethod, path: HttpPath, parameters: Option<seq<(string, string)>>,
                    headers: HttpHeader, body: Option<Json>)
      ensures this.httpMethod == httpMethod && this.path == path && this.parameters == parameters
      ensures this.headers == headers && this.body == body
    {
      this.httpMethod := httpMethod;
      this.path := path;
      this.parameters := parameters;
      this.headers := headers;
      this.body := body;
    }

    /** `get`. */
    constructor Get(path: HttpPath, parameters: Option<seq<(string, string)>>,
                    headers: HttpHeader, body: Option<Json>)
      ensures this.httpMethod == HttpMethod.Get && this.path == path && this.parameters == parameters
      ensures this.headers == headers && this.body == body
    {
      this.httpMethod := HttpMethod.Get;
      this.path := path;
      this.parameters := parameters;
      this.headers := headers;
      this.body := body;
    }

    /** `post`. */
    constructor Post(path: HttpPath, parameters: Option<seq<(string, string)>>,
                     headers: HttpHeader, body: Option<Json>)
      ensures this.httpMethod == HttpMethod.Post && this.path == path && this.parameters == parameters
      ensures this.headers == headers && this.body == body
    {
      this.httpMethod := HttpMethod.Post;
      this.path := path;
      this.parameters := parameters;
      this.headers := headers;
      this.body := body;
    }

    /** `patch`. */
    constructor Patch(path: HttpPath, parameters: Option<seq<(string, string)>>,
                      headers: HttpHeader, body: Option<Json>)
      ensures this.httpMethod == HttpMethod.Patch && this.path == path && this.parameters == parameters
      ensures this.headers == headers && this.body == body
    {
      this.httpMethod := HttpMethod.Patch;
      this.path := path;
      this.parameters := parameters;
      this.headers := headers;
      this.body := body;
    }

    /** `delete`. */
    constructor Delete(path: HttpPath, parameters: Option<seq<(string, string)>>,
                       headers: HttpHeader, body: Option<Json>)
      ensures this.httpMethod == HttpMethod.Delete && this.path == path && this.parameters == parameters
      ensures this.headers == headers && this.body == body
    {
      this.httpMethod := HttpMethod.Delete;
      this.path := path;
      this.parameters := parameters;
      this.headers := headers;
      this.body := body;
    }

    /** `parse_body`: strips the NUL padding and trailing empty-line delimiters, then parses
        the rest as JSON into `body`; on an error `body` is left as it was. */
    method ParseBody(buffer: seq<byte>, parseJson: string -> Result<Json, string>)
      returns (result: Result<(), string>)
      modifies this
      ensures var outcome := ParseBodyResult(buffer, parseJson);
        && (outcome.Ok? ==> result == Ok(()) && body == Some(outcome.value))
        && (outcome.Err? ==> result == Err(outcome.error) && body == old(body))
      ensures httpMethod == old(httpMethod) && path == old(path) && parameters == old(parameters)
      ensures headers == old(headers)
    {
      var text := BodyText(buffer);
      if |text| == 0 {
        return Err("Failed to parse request body to utf8 string");
      }
      match parseJson(text) {
        case Ok(value) =>
          body := Some(value);
          result := Ok(());
        case Err(e) =>
          result := Err("Failed to parse request body to json value: " + e);
      }
    }

    /** `to_string`: the request line, the header lines, an empty line and the body as
        Rust's pretty `Debug` prints it (`debugBody`). `order` is the header map's
        iteration order. */
    function ToString(order: seq<string>, debugBody: Option<Json> -> string): (r: string)
      reads this, headers
      requires EnumeratesKeys(headers.headers, order)
      ensures IsPrefix(httpMethod.AsStr() + " " + path.ToString() + ParametersToString(parameters)
                       + " HTTP/1.1\r\n", r)
      ensures IsSuffix("\r\n\r\n" + debugBody(body), r)
      ensures |r| == |httpMethod.AsStr() + " " + path.ToString() + ParametersToString(parameters)
                      + " HTTP/1.1\r\n"| + |Headers.ToString(headers.headers, order)|
                     + 4 + |debugBody(body)|
      ensures r[|httpMethod.AsStr() + " " + path.ToString() + ParametersToString(parameters)
                 + " HTTP/1.1\r\n"|..|r| - 4 - |debugBody(body)|]
              == Headers.ToString(headers.headers, order)
    {
      var line := httpMethod.AsStr() + " " + path.ToString() + ParametersToString(parameters)
        + " HTTP/1.1\r\n";
      var hs := Headers.ToString(headers.headers, order);
      var tail := "\r\n\r\n" + debugBody(body);
      var r := line + hs + tail;
      Concat3(line, hs, tail);
      r
    }

    /** `to_bytes`: the UTF-8 bytes of `to_string`. */
    function ToBytes(order: seq<string>, debugBody: Option<Json> -> string): (b: seq<byte>)
      reads this, headers
      requires EnumeratesKeys(headers.headers, order)
      ensures Utf8.Decode(b) == Some(ToString(order, debugBody))
    {
      Utf8.DecodeEncode(ToString(order, debugBody));
      Utf8.Encode(ToString(order, debugBody))
    }
  }
  // Properties of the head parser.

  /** `splitn(3, ' ')` stops after two spaces: the rest of the head keeps its own spaces. */
  lemma RequestLinePartsOf(first: seq<byte>, target: seq<byte>, rest: seq<byte>)
    requires SP !in first && SP !in target
    ensures RequestLineParts(first + [SP] + target + [SP] + rest) == (first, target, rest)
  {
    var header := first + [SP] + target + [SP] + rest;
    SplitOnceAt(header, SP, |first|);
    assert header[..|first|] == first;
    var tail := header[|first| + 1..];
    assert tail == target + [SP] + rest;
    SplitOnceAt(tail, SP, |target|);
    assert tail[..|target|] == target;
  }

  /** A request whose head ends right after the version, with no header line, is not
      parsable: after two spaces only the eight bytes of `HTTP/1.1` remain, and skipping
      ten bytes panics. */
  lemma NoHeaderLinesNotParsable(first: seq<byte>, target: seq<byte>, body: seq<byte>)
    requires SP !in first && SP !in target && 0x0D !in first && 0x0D !in target
    ensures !Parsable(first + [SP] + target + [SP] + HTTP_1_1 + DELIMITER + body)
  {
    var head := first + [SP] + target + [SP] + HTTP_1_1;
    var buffer := head + DELIMITER + body;
    assert 0x0D !in head by {
      assert head == first + ([SP] + target + [SP] + HTTP_1_1);
    }
    assert OccursAt(buffer, DELIMITER, |head|) by {
      assert buffer[|head|..|head| + 4] == DELIMITER;
    }
    forall j | 0 <= j < |head|
      ensures !OccursAt(buffer, DELIMITER, j)
    {
      assert buffer[j] == head[j] != 0x0D;
    }
    assert buffer[..|head|] == head;
    assert HeaderBlock(buffer) == head;
    RequestLinePartsOf(first, target, HTTP_1_1);
  }

  /** The bytes of `HTTP/1.1`. */
  const HTTP_1_1: seq<byte> := [0x48, 0x54, 0x54, 0x50, 0x2F, 0x31, 0x2E, 0x31]
  /** The bytes of `GET`. */
  const GET_TOKEN: seq<byte> := [0x47, 0x45, 0x54]

  /** The example from the request line alone: `GET / HTTP/1.1` followed by the empty
      line makes `from_request_bytes` panic. */
  lemma BareRequestLineNotParsable()
    ensures !Parsable(GET_TOKEN + [SP] + [0x2F] + [SP] + HTTP_1_1 + DELIMITER)
  {
    var buffer := GET_TOKEN + [SP] + [0x2F] + [SP] + HTTP_1_1 + DELIMITER;
    NoHeaderLinesNotParsable(GET_TOKEN, [0x2F], []);
    assert buffer + [] == buffer;
  }

  /** A method token and a path with a query, separated by single spaces, are read back:
      the method from its token, the route from the path text, the parameters from the
      query. */
  lemma RequestLineRoundTrip(m: HttpMethod, path: string, query: seq<byte>, rest: seq<byte>)
    requires m != HttpMethod.Error
    requires ' ' !in path && '?' !in path && SP !in query
    requires |path| > 0 && !IsWhitespace(path[0]) && !IsWhitespace(path[|path| - 1])
    ensures var target := Utf8.Encode(path) + [QUESTION_MARK] + query;
      && RequestLineParts(Utf8.Encode(m.AsStr()) + [SP] + target + [SP] + rest)
         == (Utf8.Encode(m.AsStr()), target, rest)
      && Methods.FromBytes(Utf8.Encode(m.AsStr())) == m
      && SplitTarget(target) == (Utf8.Encode(path), query)
      && PathText(Utf8.Encode(path)) == path
  {
    var pathBytes := Utf8.Encode(path);
    MethodToken(m);
    Utf8.EncodeAsciiIn(path, ' ');
    var target := pathBytes + [QUESTION_MARK] + query;
    assert SP !in target;
    RequestLinePartsOf(Utf8.Encode(m.AsStr()), target, rest);
    TargetOf(path, query);
  }

  /** A method token has no space and is classified as its method. */
  lemma MethodToken(m: HttpMethod)
    ensures SP !in Utf8.Encode(m.AsStr())
    ensures Methods.FromBytes(Utf8.Encode(m.AsStr())) == m
  {
    Utf8.EncodeAscii(m.AsStr());
    FromBytesToBytes(m);
  }

  /** A target of a path and a query splits back into them, and the path text is the
      path when it has no white space at its ends. */
  lemma TargetOf(path: string, query: seq<byte>)
    requires '?' !in path
    requires |path| > 0 && !IsWhitespace(path[0]) && !IsWhitespace(path[|path| - 1])
    ensures SplitTarget(Utf8.Encode(path) + [QUESTION_MARK] + query) == (Utf8.Encode(path), query)
    ensures PathText(Utf8.Encode(path)) == path
  {
    var pathBytes := Utf8.Encode(path);
    var target := pathBytes + [QUESTION_MARK] + query;
    Utf8.EncodeAsciiIn(path, '?');
    SplitOnceAt(target, QUESTION_MARK, |pathBytes|);
    assert target[..|pathBytes|] == pathBytes;
    assert target[|pathBytes| + 1..] == query;
    Utf8.DecodeEncode(path);
    assert TrimStart(path) == path;
    assert TrimEnd(path) == path;
  }

  // Properties of the header lines.

  /** A line without `\n` followed by CRLF is read as that line, then the lines of the
      rest. */
  lemma LinesCons(s: string, line: string, rest: string)
    requires '\n' !in line && s == line + "\r\n" + rest
    ensures Lines(s) == [line] + Lines(rest)
  {
    var withCr := line + "\r";
    assert s == withCr + ['\n'] + rest;
    SplitOnceAt(s, '\n', |withCr|);
    assert s[..|withCr|] == withCr && s[|withCr| + 1..] == rest;
    assert withCr[..|withCr| - 1] == line;
  }

  /** One step of reading back a join: the first line, then the lines of the others. */
  lemma LinesJoinStep(ls: seq<string>)
    requires |ls| > 1 && '\n' !in ls[0]
    requires Lines(JoinWith(ls[1..], "\r\n")) == ls[1..]
    ensures Lines(JoinWith(ls, "\r\n")) == ls
  {
    var s := JoinWith(ls, "\r\n");
    var rest := JoinWith(ls[1..], "\r\n");
    JoinWithCons(ls, "\r\n");
    LinesCons(s, ls[0], rest);
    ConsOfTail(Lines(s), Lines(rest), ls);
  }

  /** Lines joined by CRLF are split back into the same lines by `lines()`, provided no
      line holds a `\n` and the last one is not empty. */
  lemma {:induction false} LinesJoin(ls: seq<string>)
    requires forall i :: 0 <= i < |ls| ==> '\n' !in ls[i]
    requires |ls| > 0 ==> ls[|ls| - 1] != ""
    ensures Lines(JoinWith(ls, "\r\n")) == ls
  {
    if |ls| == 1 {
      assert JoinWith(ls, "\r\n") == ls[0];
    } else if |ls| > 1 {
      LinesJoin(ls[1..]);
      LinesJoinStep(ls);
    }
  }

  /** A `name: value` line is read as the lower-cased name and the value with its leading
      space. */
  lemma HeaderPairOfLine(name: string, value: string)
    requires ':' !in name
    ensures HeaderPair(name + ":" + value) == (ToLower(name), value)
  {
    var line := name + ":" + value;
    assert line == name + [':'] + value;
    SplitOnceAt(line, ':', |name|);
    assert line[..|name|] == name;
    assert line[|name| + 1..] == value;
  }

  /** A printed `name: value` line reads back with a space before the value. */
  lemma PrintedHeaderPair(name: string, value: string)
    requires ':' !in name
    ensures HeaderPair(name + ": " + value) == (ToLower(name), " " + value)
  {
    assert name + ": " + value == name + ":" + (" " + value);
    HeaderPairOfLine(name, " " + value);
  }

  /** A later line for the same name wins; a name no line carries is absent. */
  lemma HeaderMapLastWins(lines: seq<string>, name: string)
    ensures Headers.Get(HeaderMapOf(lines), name) == LastValue(HeaderPairs(lines), name)
  {
    InsertAllGet(map[], HeaderPairs(lines), name);
  }

  /** Reading back printed headers: the lines `to_string` prints for a map whose names
      are lower case, contain no `:` and no line break, and whose values contain no line
      break, parse to the same names, each value with the space after the `:` in front. */
  lemma HeadersReadBack(m: HeaderMap, order: seq<string>)
    requires EnumeratesKeys(m, order)
    requires forall k :: k in m ==> ':' !in k && '\n' !in k && ToLower(k) == k && '\n' !in m[k]
    ensures HeaderMapOf(Lines(Headers.ToString(m, order))) == map k | k in m :: " " + m[k]
  {
    PrintedLines(m, order);
    var pairs := PrintedPairs(m, order);
    PrintedPairsAgree(m, order, pairs);
    InsertAllOfMap(map k | k in m :: " " + m[k], pairs);
  }

  /** The printed pairs agree with the map read back, and cover all its names. */
  lemma PrintedPairsAgree(m: HeaderMap, order: seq<string>, pairs: seq<(string, string)>)
    requires EnumeratesKeys(m, order)
    requires |pairs| == |order|
    requires forall i :: 0 <= i < |order| ==> pairs[i] == (order[i], " " + m[order[i]])
    ensures var want := map k | k in m :: " " + m[k];
      && (forall i :: 0 <= i < |pairs| ==> pairs[i].0 in want && pairs[i].1 == want[pairs[i].0])
      && (forall k :: k in want ==> exists i :: 0 <= i < |pairs| && pairs[i].0 == k)
  {
    var want := map k | k in m :: " " + m[k];
    forall k | k in want
      ensures exists i :: 0 <= i < |pairs| && pairs[i].0 == k
    {
      var i :| 0 <= i < |order| && order[i] == k;
      assert pairs[i].0 == k;
    }
  }

  /** The pairs read from the printed lines: each name with its value after a space. */
  lemma PrintedPairs(m: HeaderMap, order: seq<string>) returns (pairs: seq<(string, string)>)
    requires EnumeratesKeys(m, order)
    requires forall k :: k in m ==> ':' !in k && ToLower(k) == k
    ensures pairs == HeaderPairs(HeaderLines(m, order))
    ensures |pairs| == |order|
    ensures forall i :: 0 <= i < |order| ==> pairs[i] == (order[i], " " + m[order[i]])
  {
    pairs := HeaderPairs(HeaderLines(m, order));
    forall i | 0 <= i < |order|
      ensures pairs[i] == (order[i], " " + m[order[i]])
    {
      PrintedHeaderPair(order[i], m[order[i]]);
    }
  }

  /** A header line of a name and a value without line breaks has none. */
  lemma LineWithoutBreak(name: string, value: string)
    requires '\n' !in name && '\n' !in value
    ensures '\n' !in name + ": " + value
  {
  }

  /** `lines()` gives back the lines `to_string` joins. */
  lemma PrintedLines(m: HeaderMap, order: seq<string>)
    requires EnumeratesKeys(m, order)
    requires forall k :: k in m ==> '\n' !in k && '\n' !in m[k]
    ensures Lines(Headers.ToString(m, order)) == HeaderLines(m, order)
  {
    var ls := HeaderLines(m, order);
    assert Headers.ToString(m, order) == JoinWith(ls, "\r\n");
    forall i | 0 <= i < |ls|
      ensures '\n' !in ls[i]
    {
      LineWithoutBreak(order[i], m[order[i]]);
    }
    LinesJoin(ls);
  }

  /** Inserting pairs that all agree with a map, and cover its keys, builds that map. */
  lemma InsertAllOfMap(want: HeaderMap, pairs: seq<(string, string)>)
    requires forall i :: 0 <= i < |pairs| ==> pairs[i].0 in want && pairs[i].1 == want[pairs[i].0]
    requires forall k :: k in want ==> exists i :: 0 <= i < |pairs| && pairs[i].0 == k
    ensures InsertAll(map[], pairs) == want
  {
    var got := InsertAll(map[], pairs);
    InsertedKeysInMap(want, pairs);
    forall k | k in want
      ensures k in got && got[k] == want[k]
    {
      InsertedKey(want, pairs, k);
    }
    MapsEqual(got, want);
  }

  lemma MapsEqual(a: HeaderMap, b: HeaderMap)
    requires a.Keys <= b.Keys
    requires forall k :: k in b ==> k in a && a[k] == b[k]
    ensures a == b
  {
  }

  /** Only names of the pairs are inserted. */
  lemma InsertedKeysInMap(want: HeaderMap, pairs: seq<(string, string)>)
    requires forall i :: 0 <= i < |pairs| ==> pairs[i].0 in want
    ensures InsertAll(map[], pairs).Keys <= want.Keys
  {
    forall k | k in InsertAll(map[], pairs)
      ensures k in want
    {
      assert k in set i | 0 <= i < |pairs| :: pairs[i].0;
    }
  }

  /** A key of the map is inserted with the map's value. */
  lemma InsertedKey(want: HeaderMap, pairs: seq<(string, string)>, k: string)
    requires forall i :: 0 <= i < |pairs| ==> pairs[i].0 in want && pairs[i].1 == want[pairs[i].0]
    requires exists i :: 0 <= i < |pairs| && pairs[i].0 == k
    ensures Headers.Get(InsertAll(map[], pairs), k) == Some(want[k])
  {
    InsertAllGet(map[], pairs, k);
    var j := LastValueIndex(pairs, k);
    assert pairs[j].1 == want[k];
  }

  // Properties of the query parameters.

  /** A parameter that survives printing and parsing: the name holds none of `&`, `=`,
      `+`, `%`, the value none of `&`, `+`, `%`. */
  predicate PlainParameter(p: (string, string)) {
    '&' !in p.0 && '=' !in p.0 && '+' !in p.0 && '%' !in p.0
    && '&' !in p.1 && '+' !in p.1 && '%' !in p.1
  }

  /** One printed `name=value` is one non-empty `&`-free piece that parses to the pair. */
  lemma PairTextParses(p: (string, string))
    requires PlainParameter(p)
    ensures var b := Utf8.Encode(p.0 + "=" + p.1);
      && b != [] && FormUrlEncoded.AMPERSAND !in b && FormUrlEncoded.ParsePair(b) == p
  {
    var name := Utf8.Encode(p.0);
    var value := Utf8.Encode(p.1);
    Utf8.EncodeAppend(p.0, "=");
    Utf8.EncodeAppend(p.0 + "=", p.1);
    var b := Utf8.Encode(p.0 + "=" + p.1);
    assert Utf8.Encode("=") == [FormUrlEncoded.EQUALS];
    assert b == name + [FormUrlEncoded.EQUALS] + value;
    Utf8.EncodeAsciiIn(p.0, '&');
    Utf8.EncodeAsciiIn(p.1, '&');
    Utf8.EncodeAsciiIn(p.0, '=');
    SplitOnceAt(b, FormUrlEncoded.EQUALS, |name|);
    assert b[..|name|] == name && b[|name| + 1..] == value;
    FormUrlEncoded.DecodeComponentPlain(p.0);
    FormUrlEncoded.DecodeComponentPlain(p.1);
  }

  /** The bytes of `a&b` are the bytes of `a`, the `&` byte and the bytes of `b`. */
  lemma EncodeAmpersand(a: string, b: string)
    ensures Utf8.Encode(a + "&" + b) == Utf8.Encode(a) + [FormUrlEncoded.AMPERSAND] + Utf8.Encode(b)
  {
    Utf8.EncodeAppend(a, "&");
    Utf8.EncodeAppend(a + "&", b);
    assert Utf8.Encode("&") == [FormUrlEncoded.AMPERSAND];
  }

  /** A non-empty `&`-free piece followed by `&` parses as one pair, then the rest. */
  lemma ParseFirstPiece(piece: seq<byte>, rest: seq<byte>)
    requires piece != [] && FormUrlEncoded.AMPERSAND !in piece
    ensures FormUrlEncoded.Parse(piece + [FormUrlEncoded.AMPERSAND] + rest)
         == [FormUrlEncoded.ParsePair(piece)] + FormUrlEncoded.Parse(rest)
  {
    var b := piece + [FormUrlEncoded.AMPERSAND] + rest;
    SplitOnceAt(b, FormUrlEncoded.AMPERSAND, |piece|);
    assert b[..|piece|] == piece && b[|piece| + 1..] == rest;
  }

  /** A non-empty `&`-free piece alone parses as one pair. */
  lemma ParseOnlyPiece(piece: seq<byte>)
    requires piece != [] && FormUrlEncoded.AMPERSAND !in piece
    ensures FormUrlEncoded.Parse(piece) == [FormUrlEncoded.ParsePair(piece)]
  {
    assert FormUrlEncoded.Parse(piece) == [FormUrlEncoded.ParsePair(piece)] + FormUrlEncoded.Parse([]);
  }

  /** Plain pairs printed and joined by `&` parse back to the same pairs. */
  lemma {:induction false} ParsePairTexts(ps: seq<(string, string)>)
    requires |ps| > 0
    requires forall i :: 0 <= i < |ps| ==> PlainParameter(ps[i])
    ensures FormUrlEncoded.Parse(Utf8.Encode(JoinWith(PairTexts(ps), "&"))) == ps
  {
    var texts := PairTexts(ps);
    PairTextParses(ps[0]);
    var b0 := Utf8.Encode(texts[0]);
    if |ps| == 1 {
      assert JoinWith(texts, "&") == texts[0];
      ParseOnlyPiece(b0);
    } else {
      var rest := JoinWith(texts[1..], "&");
      assert JoinWith(texts, "&") == texts[0] + "&" + rest;
      EncodeAmpersand(texts[0], rest);
      ParseFirstPiece(b0, Utf8.Encode(rest));
      assert PairTexts(ps[1..]) == texts[1..];
      ParsePairTexts(ps[1..]);
      HeadTail(ps);
    }
  }

  /** Printing parameters and parsing the query back gives the same list, when no name or
      value uses the characters the query syntax gives meaning to. */
  lemma ParametersRoundTrip(ps: seq<(string, string)>)
    requires forall i :: 0 <= i < |ps| ==> PlainParameter(ps[i])
    ensures var text := ParametersToString(Some(ps));
      FormUrlEncoded.Parse(Utf8.Encode(if text == "" then "" else text[1..])) == ps
  {
    if ps == [] {
      FormUrlEncoded.ParseEmpty();
    } else {
      var text := ParametersToString(Some(ps));
      assert text[1..] == JoinWith(PairTexts(ps), "&");
      ParsePairTexts(ps);
    }
  }

  // Properties of the body parser.

  /** `n` zero bytes: the unused rest of the read buffer. */
  function Zeros(n: nat): (r: seq<byte>)
    ensures |r| == n && forall i :: 0 <= i < n ==> r[i] == 0
  {
    seq(n, _ => 0)
  }

  lemma {:induction false} DecodeLossyZeros(n: nat)
    ensures Utf8.DecodeLossy(Zeros(n)) == seq(n, _ => '\0')
  {
    if n > 0 {
      assert Zeros(n)[1..] == Zeros(n - 1);
      DecodeLossyZeros(n - 1);
      assert seq(n, _ => '\0') == ['\0'] + seq(n - 1, _ => '\0');
    }
  }

  /** The body the client sent, followed by the empty line and the zero padding of the
      buffer, is recovered exactly, unless it ends with an empty line itself. */
  lemma BodyTextOfPadded(text: string, n: nat)
    requires !IsSuffix("\r\n\r\n", text)
    ensures BodyText(Utf8.Encode(text + "\r\n\r\n") + Zeros(n)) == text
  {
    var sent := text + "\r\n\r\n";
    var decoded := Utf8.DecodeLossy(Utf8.Encode(sent) + Zeros(n));
    Utf8.DecodeLossyAppendEncoded(sent, Zeros(n));
    DecodeLossyZeros(n);
    assert decoded == sent + seq(n, _ => '\0');
    TrimNulPadding(sent, n);
    assert TrimEndElem(decoded, '\0') == sent;
    assert sent[|sent| - 4..] == "\r\n\r\n";
    assert sent[..|sent| - 4] == text;
    assert TrimEndSeq(sent, "\r\n\r\n") == TrimEndSeq(text, "\r\n\r\n");
  }

  /** Trimming NULs removes the padding and no more from a text that does not end in a
      NUL. */
  lemma TrimNulPadding(sent: string, n: nat)
    requires |sent| > 0 && sent[|sent| - 1] != '\0'
    ensures TrimEndElem(sent + seq(n, _ => '\0'), '\0') == sent
  {
    var padded := sent + seq(n, _ => '\0');
    var t := TrimEndElem(padded, '\0');
    assert padded[|sent| - 1] != '\0';
    assert |t| >= |sent|;
    assert t == padded[..|t|];
    assert padded[..|sent|] == sent;
  }

  /** A buffer of zeros only holds no body. */
  lemma EmptyBodyRejected(n: nat, parseJson: string -> Result<Json, string>)
    ensures ParseBodyResult(Zeros(n), parseJson) == Err("Failed to parse request body to utf8 string")
  {
    DecodeLossyZeros(n);
  }
}

=== FILE: http_response.dfy ===
/** Responses (`tcp-server/src/http/http_response.rs`): a status, a header map and a body,
    printed as an HTTP/1.1 message with an exact `content-length`, and the canned
    responses the server answers with. */
module Responses {
  import opened Common
  import opened Decimal
  import Utf8
  import Json
  import opened Headers

  /** A response. The header map is the one the response owns; the lock around it in the
      server guards nothing that can race here. */
  datatype HttpResponse = HttpResponse(status: HttpStatus, headers: HeaderMap, body: string)

  const NUL: char := '\0'
  const CRLF: string := "\r\n"

  /** `HttpResponse::new`: keeps the status and headers and strips every trailing NUL from
      the body (the rest of a zero-filled buffer), keeping the NULs inside it. */
  function New(status: HttpStatus, headers: HeaderMap, body: string): (r: HttpResponse)
    ensures r.status == status && r.headers == headers
    ensures IsPrefix(r.body, body)
    ensures forall i :: |r.body| <= i < |body| ==> body[i] == NUL
    ensures |r.body| == 0 || r.body[|r.body| - 1] != NUL
  {
    HttpResponse(status, headers, TrimEndElem(body, NUL))
  }

  /** Trimming removes exactly the trailing NULs: text that does not end in NUL, followed
      by any number of NULs, keeps the text, inner NULs included. */
  lemma NewTrimsTrailingNuls(status: HttpStatus, headers: HeaderMap, text: string, n: nat)
    requires |text| == 0 || text[|text| - 1] != NUL
    ensures New(status, headers, text + seq(n, _ => NUL)).body == text
  {
    var body := text + seq(n, _ => NUL);
    assert body[..|text|] == text;
  }

  /** `from_vec`: a 200 response with the JSON defaults. */
  function FromVec(body: string, now: i64): (r: HttpResponse)
    ensures r.status == OK && r.headers == DefaultJsonHeaders(now)
    ensures IsPrefix(r.body, body)
    ensures forall i :: |r.body| <= i < |body| ==> body[i] == NUL
    ensures |r.body| == 0 || r.body[|r.body| - 1] != NUL
    ensures |body| == 0 || body[|body| - 1] != NUL ==> r.body == body
  {
    New(OK, DefaultJsonHeaders(now), body)
  }

  /** The number of bytes of the body (Rust's `len()`), as `content-length` declares it. */
  function BodyLength(r: HttpResponse): nat {
    |Utf8.Encode(r.body)|
  }

  /** The status line: protocol version, status code and reason phrase. */
  function StatusLine(r: HttpResponse): string {
    "HTTP/1.1 " + r.status.AsStr() + CRLF
  }

  /** The line declaring the body's length in bytes. */
  function LengthLine(r: HttpResponse): string {
    HttpHeaderType.ContentLength.AsStr() + ": " + IntToDecimal(BodyLength(r)) + CRLF
  }

  /** `HttpResponse::to_string`: the status line, the `content-length` line, the header
      lines, an empty line, the body. `order` is the header map's iteration order. */
  function ToString(r: HttpResponse, order: seq<string>): (s: string)
    requires EnumeratesKeys(r.headers, order)
    ensures |s| == |StatusLine(r) + LengthLine(r)| + |Headers.ToString(r.headers, order)|
                   + |CRLF + CRLF + r.body|
    ensures IsPrefix(StatusLine(r) + LengthLine(r), s)
    ensures IsSuffix(CRLF + CRLF + r.body, s)
    ensures s[|StatusLine(r) + LengthLine(r)|..|s| - |CRLF + CRLF + r.body|]
            == Headers.ToString(r.headers, order)
  {
    var top := StatusLine(r) + LengthLine(r);
    var hs := Headers.ToString(r.headers, order);
    var tail := CRLF + CRLF + r.body;
    var s := top + hs + tail;
    Concat3(top, hs, tail);
    s
  }

  /** `to_bytes`: the UTF-8 bytes of the printed response. */
  function ToBytes(r: HttpResponse, order: seq<string>): (b: seq<byte>)
    requires EnumeratesKeys(r.headers, order)
    ensures Utf8.Decode(b) == Some(ToString(r, order))
  {
    Utf8.DecodeEncode(ToString(r, order));
    Utf8.Encode(ToString(r, order))
  }

  /** The second line of a printed response declares the content length, which reads
      back as the number of bytes of the body. */
  lemma ContentLengthDeclared(r: HttpResponse, order: seq<string>)
    requires EnumeratesKeys(r.headers, order)
    requires BodyLength(r) <= I64_MAX
    ensures IsPrefix(StatusLine(r) + "content-length: " + IntToDecimal(BodyLength(r)) + CRLF,
                     ToString(r, order))
    ensures ParseI64(IntToDecimal(BodyLength(r))) == Ok(BodyLength(r))
  {
    assert LengthLine(r) == "content-length: " + IntToDecimal(BodyLength(r)) + CRLF;
    assert StatusLine(r) + LengthLine(r)
        == StatusLine(r) + "content-length: " + IntToDecimal(BodyLength(r)) + CRLF;
    ParseI64RoundTrip(BodyLength(r));
  }

  /** The bytes of a printed response end with exactly the body's bytes, as many as the
      content length declares. */
  lemma ResponseEndsWithBody(r: HttpResponse, order: seq<string>)
    requires EnumeratesKeys(r.headers, order)
    ensures IsSuffix(Utf8.Encode(r.body), ToBytes(r, order))
    ensures |Utf8.Encode(r.body)| == BodyLength(r)
  {
    var s := ToString(r, order);
    Concat3(CRLF, CRLF, r.body);
    SuffixOfSuffix(s, CRLF + CRLF + r.body, r.body);
    Utf8.EncodeAppend(s[..|s| - |r.body|], r.body);
  }

  /** `html_404`. */
  function Html404(now: i64): (r: HttpResponse)
    ensures r.status == NotFound && r.headers == DefaultHtmlHeaders(now)
    ensures r.body == "<html><body><h1>404 Not Found</h1></body></html>"
  {
    var body := "<html><body><h1>404 Not Found</h1></body>" + "</html>";
    assert body[|body| - 1] == '>';
    New(NotFound, DefaultHtmlHeaders(now), body)
  }

  /** An error body is never trimmed: it ends with `}`. */
  lemma ErrorBodyUntrimmed(status: HttpStatus, headers: HeaderMap, msg: string)
    ensures New(status, headers, Json.ErrorBody(msg)).body == Json.ErrorBody(msg)
  {
    var b := Json.ErrorBody(msg);
    assert b[|b| - 1] == '}';
    NewTrimsTrailingNuls(status, headers, b, 0);
    assert b + seq(0, _ => NUL) == b;
  }

  /** An error response: the JSON defaults and `{"error":"<message>"}`. */
  function ErrorResponse(status: HttpStatus, msg: string, now: i64): (r: HttpResponse)
    ensures r.status == status && r.headers == DefaultJsonHeaders(now)
    ensures r.body == Json.ErrorBody(msg)
  {
    ErrorBodyUntrimmed(status, DefaultJsonHeaders(now), msg);
    New(status, DefaultJsonHeaders(now), Json.ErrorBody(msg))
  }

  /** `json_404`: 404, `{"error":"<resource> not found"}`. */
  function Json404(resource: string, now: i64): (r: HttpResponse)
    ensures r.status == NotFound && r.headers == DefaultJsonHeaders(now)
    ensures ErrorMessage(r) == Some(resource + " not found")
  {
    ErrorMessageRoundTrip(NotFound, resource + " not found", now);
    ErrorResponse(NotFound, resource + " not found", now)
  }

  /** `options_response`: 204 with the CORS preflight headers and no body. */
  function OptionsResponse(now: i64): (r: HttpResponse)
    ensures r.status == NoContent && r.headers == DefaultOptionsHeaders(now) && r.body == ""
  {
    New(NoContent, DefaultOptionsHeaders(now), "")
  }

  /** `bad_request`: 400 with the message as the error. */
  function BadRequest(msg: string, now: i64): (r: HttpResponse)
    ensures r.status == HttpStatus.BadRequest && r.headers == DefaultJsonHeaders(now)
    ensures ErrorMessage(r) == Some(msg)
  {
    ErrorMessageRoundTrip(HttpStatus.BadRequest, msg, now);
    ErrorResponse(HttpStatus.BadRequest, msg, now)
  }

  /** Rust's `unwrap_or_default` on an optional text. */
  function OrEmpty(msg: Option<string>): (r: string)
    ensures msg.Some? ==> r == msg.value
    ensures msg.None? ==> r == ""
  {
    if msg.Some? then msg.value else ""
  }

  /** `missing_body`: 400, `Missing request body.` followed by the hint, if any. */
  function MissingBody(msg: Option<string>, now: i64): (r: HttpResponse)
    ensures r.status == HttpStatus.BadRequest && r.headers == DefaultJsonHeaders(now)
    ensures ErrorMessage(r) == Some("Missing request body." + OrEmpty(msg))
  {
    BadRequest("Missing request body." + OrEmpty(msg), now)
  }

  /** `invalid_body`: 400, `Invalid request body.` followed by the hint, if any. */
  function InvalidBody(msg: Option<string>, now: i64): (r: HttpResponse)
    ensures r.status == HttpStatus.BadRequest && r.headers == DefaultJsonHeaders(now)
    ensures ErrorMessage(r) == Some("Invalid request body." + OrEmpty(msg))
  {
    BadRequest("Invalid request body." + OrEmpty(msg), now)
  }

  /** `not_authorized`: 401. */
  function NotAuthorized(now: i64): (r: HttpResponse)
    ensures r.status == Unauthorized && r.headers == DefaultJsonHeaders(now)
    ensures ErrorMessage(r) == Some("Invalid authentication credentials.")
  {
    ErrorMessageRoundTrip(Unauthorized, "Invalid authentication credentials.", now);
    ErrorResponse(Unauthorized, "Invalid authentication credentials.", now)
  }

  /** `forbidden`: 403. */
  function ForbiddenResponse(now: i64): (r: HttpResponse)
    ensures r.status == Forbidden && r.headers == DefaultJsonHeaders(now)
    ensures ErrorMessage(r) == Some("User not authorized.")
  {
    ErrorMessageRoundTrip(Forbidden, "User not authorized.", now);
    ErrorResponse(Forbidden, "User not authorized.", now)
  }

  /** `no_content`: 204 with the JSON defaults and no body. */
  function NoContentResponse(now: i64): (r: HttpResponse)
    ensures r.status == NoContent && r.headers == DefaultJsonHeaders(now) && r.body == ""
  {
    New(NoContent, DefaultJsonHeaders(now), "")
  }

  /** The message a client reads from an error response's body, if it has the error
      form. */
  function ErrorMessage(r: HttpResponse): Option<string> {
    var b := r.body;
    if |b| >= 12 && IsPrefix("{\"error\":\"", b) && IsSuffix("\"}", b) then
      Json.Unescape(b[10..|b| - 2])
    else None
  }

  /** Every error response carries its message intact, whatever characters it holds. */
  lemma ErrorMessageRoundTrip(status: HttpStatus, msg: string, now: i64)
    ensures ErrorMessage(ErrorResponse(status, msg, now)) == Some(msg)
  {
    Json.ErrorBodyRoundTrip(msg);
  }

  /** A missing body and an invalid body are never confused: their messages differ from
      the first character, whatever the hints. */
  lemma MissingNotInvalid(hint: Option<string>, other: Option<string>, now: i64, later: i64)
    ensures MissingBody(hint, now) != InvalidBody(other, later)
  {
    var m := "Missing request body." + OrEmpty(hint);
    var v := "Invalid request body." + OrEmpty(other);
    assert m[0] != v[0];
  }
}

=== FILE: json.dfy ===
/** The JSON values the server handles (`serde_json::Value`), the lookups it makes on them,
    and the string escaping `serde_json` applies when it prints a string. */
module Json {
  import opened Common

  /** A JSON value. A number is kept as the text it was written with; the server never
      does arithmetic on one. */
  datatype Json =
    | Null
    | Bool(b: bool)
    | Number(text: string)
    | Str(s: string)
    | Array(items: seq<Json>)
    | Object(fields: map<string, Json>)

  /** `Value::get(key)`: the member `key` of an object; `None` for a missing member and
      for any value that is not an object. */
  function Get(v: Json, key: string): (r: Option<Json>)
    ensures r.Some? <==> v.Object? && key in v.fields
    ensures r.Some? ==> r.value == v.fields[key]
  {
    if v.Object? && key in v.fields then Some(v.fields[key]) else None
  }

  /** `Value::as_array`: the elements of an array, `None` for any other value. */
  function AsArray(v: Json): (r: Option<seq<Json>>)
    ensures r.Some? <==> v.Array?
    ensures r.Some? ==> r.value == v.items
  {
    if v.Array? then Some(v.items) else None
  }

  /** Lower-case hexadecimal digit, as `serde_json` writes them. */
  function HexDigit(d: nat): (c: char)
    requires d < 16
    ensures HexValue(c) == Some(d)
  {
    if d < 10 then ('0' as int + d) as char else ('a' as int + d - 10) as char
  }

  /** The value of a hexadecimal digit of either case. */
  function HexValue(c: char): (r: Option<nat>)
    ensures r.Some? ==> r.value < 16
  {
    if '0' <= c <= '9' then Some(c as int - '0' as int)
    else if 'a' <= c <= 'f' then Some(c as int - 'a' as int + 10)
    else if 'A' <= c <= 'F' then Some(c as int - 'A' as int + 10)
    else None
  }

  /** How `serde_json` writes one character inside a string: quote and backslash escaped,
      the five control characters with a short escape written short, the other control
      characters as `\u00xx`, everything else (DEL and non-ASCII included) as itself. */
  function EscapeChar(c: char): (r: string)
    ensures |r| > 0
    ensures r[0] != '"' && (r[0] == '\\' || c as int >= 0x20)
  {
    if c == '"' then "\\\""
    else if c == '\\' then "\\\\"
    else if c == '\U{8}' then "\\b"
    else if c == '\U{C}' then "\\f"
    else if c == '\n' then "\\n"
    else if c == '\r' then "\\r"
    else if c == '\t' then "\\t"
    else if c as int < 0x20 then ['\\', 'u', '0', '0', HexDigit(c as int / 16), HexDigit(c as int % 16)]
    else [c]
  }

  /** The escaped form of a string, without the surrounding quotes. */
  function Escape(s: string): string {
    if s == [] then [] else EscapeChar(s[0]) + Escape(s[1..])
  }

  /** A string as `serde_json` prints it: escaped and in double quotes. */
  function Quote(s: string): (r: string)
    ensures |r| >= 2 && r[0] == '"' && r[|r| - 1] == '"'
    ensures r[1..|r| - 1] == Escape(s)
  {
    "\"" + Escape(s) + "\""
  }

  /** Reads the escaped form of a string back; `None` at a stray quote, a raw control
      character or a malformed escape. */
  function Unescape(t: string): (r: Option<string>)
    decreases |t|
  {
    if t == [] then Some([])
    else if t[0] == '"' || t[0] as int < 0x20 then None
    else if t[0] != '\\' then
      match Unescape(t[1..])
      case None => None
      case Some(rest) => Some([t[0]] + rest)
    else if |t| < 2 then None
    else
      var e := t[1];
      if e == 'u' then
        if |t| < 6 then None
        else
          var a := HexValue(t[2]);
          var b := HexValue(t[3]);
          var c := HexValue(t[4]);
          var d := HexValue(t[5]);
          if a.None? || b.None? || c.None? || d.None? then None
          else
            var code := ((a.value * 16 + b.value) * 16 + c.value) * 16 + d.value;
            if 0xD800 <= code < 0xE000 then None
            else match Unescape(t[6..])
              case None => None
              case Some(rest) => Some([code as char] + rest)
      else
        var c :=
          if e == '"' then Some('"') else if e == '\\' then Some('\\')
          else if e == '/' then Some('/') else if e == 'b' then Some('\U{8}')
          else if e == 'f' then Some('\U{C}') else if e == 'n' then Some('\n')
          else if e == 'r' then Some('\r') else if e == 't' then Some('\t') else None;
        match (c, Unescape(t[2..]))
        case (Some(ch), Some(rest)) => Some([ch] + rest)
        case _ => None
  }

  /** Reading back one escaped character, whatever follows it. */
  lemma UnescapeChar(c: char, rest: string)
    ensures Unescape(EscapeChar(c) + rest) ==
      match Unescape(rest) case None => None case Some(r) => Some([c] + r)
  {
    var t := EscapeChar(c) + rest;
    if c as int < 0x20 && c !in "\U{8}\U{C}\n\r\t" {
      var n := c as int;
      assert t[6..] == rest;
      assert ((0 * 16 + 0) * 16 + n / 16) * 16 + n % 16 == n;
    } else if c == '"' || c == '\\' || c in "\U{8}\U{C}\n\r\t" {
      assert t[2..] == rest;
    } else {
      assert t[1..] == rest;
    }
  }

  /** Escaping loses nothing: the escaped form reads back as the original string. */
  lemma {:induction false} UnescapeEscape(s: string)
    ensures Unescape(Escape(s)) == Some(s)
  {
    if s != [] {
      UnescapeChar(s[0], Escape(s[1..]));
      UnescapeEscape(s[1..]);
      assert [s[0]] + s[1..] == s;
    }
  }

  /** The body of an error response: `{"error":"<message>"}`, the message escaped as a
      JSON string (what `json!({"error": msg}).to_string()` prints). */
  function ErrorBody(msg: string): (r: string)
    ensures |r| >= 12 && IsPrefix("{\"error\":\"", r) && IsSuffix("\"}", r)
    ensures r[10..|r| - 2] == Escape(msg)
  {
    var r := "{\"error\":" + Quote(msg) + "}";
    assert r == "{\"error\":\"" + Escape(msg) + "\"}";
    r
  }

  /** The message can be read back from an error body. */
  lemma ErrorBodyRoundTrip(msg: string)
    ensures Unescape(ErrorBody(msg)[10..|ErrorBody(msg)| - 2]) == Some(msg)
  {
    UnescapeEscape(msg);
  }

  /** Text without quotes, backslashes or control characters is printed unchanged. */
  lemma {:induction false} EscapePlain(s: string)
    requires forall i :: 0 <= i < |s| ==> s[i] != '"' && s[i] != '\\' && s[i] as int >= 0x20
    ensures Escape(s) == s
  {
    if s != [] {
      EscapePlain(s[1..]);
      assert [s[0]] + s[1..] == s;
    }
  }
}

=== FILE: sensor_model.dfy ===
/** The `Sensor` model (`tcp-server/src/models/sensor_model.rs`): a sensor id and type. */
module Sensors {
  import opened Common
  import Json
  import Decimal
  import Headers
  import Responses
  import opened BaseModels

  const TYPE_NAME: string := "sensor"
  const REQUIRED_VALUES: string := " Requires value \"type\": string"

  /** `Sensor::new` is the constructor; `get_id` and `get_sensor_type` are the fields. */
  datatype Sensor = Sensor(id: string, sensorType: string)

  /** `is_valid`: both fields are set. */
  predicate IsValid(s: Sensor) {
    s.id != "" && s.sensorType != ""
  }

  const ID_OPEN: string := "{\"id\":\""
  const TYPE_SEP: string := "\", \"type\":\""

  /** `public_json`: the id and the type (under the name `type`), as JSON strings. */
  function PublicJson(s: Sensor): (r: string)
    ensures |r| == |ID_OPEN| + |s.id| + |TYPE_SEP| + |s.sensorType| + 2
    ensures IsPrefix(ID_OPEN + s.id + TYPE_SEP, r)
    ensures IsSuffix(s.sensorType + "\"}", r)
    ensures r[|ID_OPEN + s.id + TYPE_SEP|..|r| - 2] == s.sensorType
  {
    var head := ID_OPEN + s.id + TYPE_SEP;
    var r := head + s.sensorType + "\"}";
    Concat3(head, s.sensorType, "\"}");
    assert r[|r| - |s.sensorType + "\"}"|..] == s.sensorType + "\"}";
    r
  }

  /** The public JSON after the id. */
  function AfterId(s: Sensor): string {
    TYPE_SEP + s.sensorType + "\"}"
  }

  lemma PublicJsonPieces(s: Sensor)
    ensures PublicJson(s) == ID_OPEN + (s.id + AfterId(s))
  {
  }

  /** Sensors whose ids hold no `"` can be told apart by their public JSON. */
  lemma PublicJsonInjective(s: Sensor, t: Sensor)
    requires '"' !in s.id && '"' !in t.id
    requires PublicJson(s) == PublicJson(t)
    ensures s == t
  {
    PublicJsonPieces(s);
    PublicJsonPieces(t);
    assert s.id + AfterId(s) == PublicJson(s)[|ID_OPEN|..];
    assert t.id + AfterId(t) == PublicJson(t)[|ID_OPEN|..];
    QuoteDelimited(s.id, AfterId(s), t.id, AfterId(t));
    var a := AfterId(s);
    assert s.sensorType == a[|TYPE_SEP|..|a| - 2];
  }

  function Kind(fromValue: Json.Json -> Option<Sensor>): (k: ModelKind<Sensor>)
    ensures k.typeName == TYPE_NAME && k.requiredValues == REQUIRED_VALUES
  {
    ModelKind(TYPE_NAME, REQUIRED_VALUES, PublicJson, fromValue)
  }

  /** `insert_interface`: the database's `insert_sensor`, on the sensor as given, with its
      result as it is. */
  function InsertInterface(insertSensor: Sensor -> Result<Sensor, string>, s: Sensor): (r: Result<Sensor, string>)
    ensures r == insertSensor(s)
  {
    insertSensor(s)
  }

  /** `try_insert_model` with this model's kind and `insert_interface`: a body that parses
      is stored, and the answer is 201 with the stored sensor's public JSON, or 400 with
      the creation error when the database refuses it. */
  lemma InsertAnswers(fromValue: Json.Json -> Option<Sensor>, insertSensor: Sensor -> Result<Sensor, string>,
                      json: Json.Json, model: Sensor, now: Decimal.i64)
    requires fromValue(json) == Some(model)
    ensures var r := TryInsertModel(Kind(fromValue), m => InsertInterface(insertSensor, m), Some(json), now);
      && (insertSensor(model).Ok? ==> r.status == Headers.Created && r.body == PublicJson(insertSensor(model).value))
      && (insertSensor(model).Err? ==> r == Responses.BadRequest(CreateErrorMsg(TYPE_NAME), now))
  {
    var insert := m => InsertInterface(insertSensor, m);
    if insertSensor(model).Ok? {
      var stored := insertSensor(model).value;
      assert IsSuffix("}", PublicJson(stored)) by {
        var r := PublicJson(stored);
        assert r[|r| - 1..] == r[|r| - 2..][1..];
      }
      TryInsertCreated(Kind(fromValue), insert, json, model, stored, now);
    }
  }
}

=== FILE: session_model.dfy ===
/** The `Session` model (`tcp-server/src/models/session_model.rs`): a numeric session id
    and the user name it belongs to, addressed in paths by id. */
module Sessions {
  import opened Common
  import opened Decimal
  import Json
  import Paths
  import Headers
  import Responses
  import opened BaseModels

  const TYPE_NAME: string := "session"
  const REQUIRED_VALUES: string := " Requires value \"username\": string"

  /** `Session::new` is the constructor; `get_id` and `get_username` are the fields. */
  datatype Session = Session(id: i64, username: string)

  /** `empty`: id -1 and no user name. */
  function Empty(): (s: Session)
    ensures !IsValid(s)
    ensures s.id == -1 && s.username == ""
  {
    Session(-1, "")
  }

  /** `is_valid`: a non-negative id and a user name. */
  predicate IsValid(s: Session) {
    s.id >= 0 && s.username != ""
  }

  const ID_OPEN: string := "{\"session_id\":\""
  const USERNAME_SEP: string := "\", \"username\":\""

  /** `public_json`: the id, printed in decimal, and the user name, both as JSON strings. */
  function PublicJson(s: Session): (r: string)
    ensures |r| == |ID_OPEN| + |IntToDecimal(s.id)| + |USERNAME_SEP| + |s.username| + 2
    ensures IsPrefix(ID_OPEN + IntToDecimal(s.id) + USERNAME_SEP, r)
    ensures IsSuffix(s.username + "\"}", r)
    ensures r[|ID_OPEN + IntToDecimal(s.id) + USERNAME_SEP|..|r| - 2] == s.username
  {
    var head := ID_OPEN + IntToDecimal(s.id) + USERNAME_SEP;
    var r := head + s.username + "\"}";
    Concat3(head, s.username, "\"}");
    assert r[|r| - |s.username + "\"}"|..] == s.username + "\"}";
    r
  }

  /** The public JSON after the id. */
  function AfterId(s: Session): string {
    USERNAME_SEP + s.username + "\"}"
  }

  lemma PublicJsonPieces(s: Session)
    ensures PublicJson(s) == ID_OPEN + (IntToDecimal(s.id) + AfterId(s))
  {
  }

  /** Both fields can be read back from the public JSON: different sessions print
      differently. */
  lemma PublicJsonInjective(s: Session, t: Session)
    requires PublicJson(s) == PublicJson(t)
    ensures s == t
  {
    PublicJsonPieces(s);
    PublicJsonPieces(t);
    assert IntToDecimal(s.id) + AfterId(s) == PublicJson(s)[|ID_OPEN|..];
    assert IntToDecimal(t.id) + AfterId(t) == PublicJson(t)[|ID_OPEN|..];
    DecimalFieldInjective(s.id, AfterId(s), t.id, AfterId(t));
    var a := AfterId(s);
    assert s.username == a[|USERNAME_SEP|..|a| - 2];
  }

  /** The `fill_from` result: the id taken from `other` when it is -1, the user name when
      it is empty. */
  function Filled(s: Session, other: Session): Session {
    Session(if s.id == -1 then other.id else s.id,
            if s.username == "" then other.username else s.username)
  }

  /** `fill_from`: fills the unset fields of `s`, one after the other. */
  method FillFrom(s: Session, other: Session) returns (filled: Session)
    ensures filled == Filled(s, other)
  {
    filled := s;
    if filled.id == -1 {
      filled := filled.(id := other.id);
    }
    if filled.username == "" {
      filled := filled.(username := other.username);
    }
  }

  /** Filling the empty session gives the other session; filling twice is filling once; a
      valid session is left as it is. Filling from a valid session gives a valid one unless
      the id is negative but not -1, which no fill replaces. */
  lemma FillProperties(s: Session, other: Session)
    ensures Filled(Empty(), other) == other
    ensures Filled(Filled(s, other), other) == Filled(s, other)
    ensures IsValid(s) ==> Filled(s, other) == s
    ensures IsValid(other) ==> (IsValid(Filled(s, other)) <==> s.id >= 0 || s.id == -1)
  {
  }

  function Kind(fromValue: Json.Json -> Option<Session>): (k: ModelKind<Session>)
    ensures k.typeName == TYPE_NAME && k.requiredValues == REQUIRED_VALUES
  {
    ModelKind(TYPE_NAME, REQUIRED_VALUES, PublicJson, fromValue)
  }

  /** `insert_interface`: the database's `insert_session`, on the session as given. */
  function InsertInterface(insertSession: Session -> Result<Session, string>, s: Session): (r: Result<Session, string>)
    ensures r == insertSession(s)
  {
    insertSession(s)
  }

  /** `try_insert_model` with this model's kind and `insert_interface`: a body that parses
      is stored, and the answer is 201 with the stored session's public JSON, or 400 with
      the creation error when the database refuses it. */
  lemma InsertAnswers(fromValue: Json.Json -> Option<Session>, insertSession: Session -> Result<Session, string>,
                      json: Json.Json, model: Session, now: Decimal.i64)
    requires fromValue(json) == Some(model)
    ensures var r := TryInsertModel(Kind(fromValue), m => InsertInterface(insertSession, m), Some(json), now);
      && (insertSession(model).Ok? ==> r.status == Headers.Created && r.body == PublicJson(insertSession(model).value))
      && (insertSession(model).Err? ==> r == Responses.BadRequest(CreateErrorMsg(TYPE_NAME), now))
  {
    var insert := m => InsertInterface(insertSession, m);
    if insertSession(model).Ok? {
      var stored := insertSession(model).value;
      assert IsSuffix("}", PublicJson(stored)) by {
        var r := PublicJson(stored);
        assert r[|r| - 1..] == r[|r| - 2..][1..];
      }
      TryInsertCreated(Kind(fromValue), insert, json, model, stored, now);
    }
  }

  /** `update_interface`: the session id in section 0 of the sub-path. */
  function UpdateInterface(updateSession: (i64, Session) -> Result<Session, string>,
                           subpath: string, updated: Session): (r: Result<Session, string>)
    ensures IdFromSubpath(subpath).Err? ==> r == Err(IdFromSubpath(subpath).error)
    ensures IdFromSubpath(subpath).Ok? ==> r == updateSession(IdFromSubpath(subpath).value, updated)
  {
    match IdFromSubpath(subpath)
    case Ok(id) => updateSession(id, updated)
    case Err(e) => Err(e)
  }

  /** `delete_interface`: the session id in section 0 of the sub-path. */
  function DeleteInterface(deleteSession: i64 -> Result<(), string>, subpath: string): (r: Result<(), string>)
    ensures IdFromSubpath(subpath).Err? ==> r == Err(IdFromSubpath(subpath).error)
    ensures IdFromSubpath(subpath).Ok? ==> r == deleteSession(IdFromSubpath(subpath).value)
  {
    match IdFromSubpath(subpath)
    case Ok(id) => deleteSession(id)
    case Err(e) => Err(e)
  }

  /** `/<id>` addresses session `<id>`. */
  lemma InterfacesAddressById(updateSession: (i64, Session) -> Result<Session, string>,
                              deleteSession: i64 -> Result<(), string>, id: i64, s: Session)
    ensures UpdateInterface(updateSession, "/" + IntToDecimal(id), s) == updateSession(id, s)
    ensures DeleteInterface(deleteSession, "/" + IntToDecimal(id)) == deleteSession(id)
  {
    IdFromSubpathOf(id);
  }

  /** No segment, or a segment that starts with neither a digit nor a sign (such as
      `me`), is refused without a database call. */
  lemma InterfacesRefuseBadId(updateSession: (i64, Session) -> Result<Session, string>,
                              deleteSession: i64 -> Result<(), string>, s: Session, segment: string)
    requires '/' !in segment && |segment| > 0 && !IsDigit(segment[0])
    requires segment[0] != '+' && segment[0] != '-'
    ensures UpdateInterface(updateSession, "", s) == Err(MissingIdentifier(""))
    ensures UpdateInterface(updateSession, "/" + segment, s) == Err(ParseIdFailed(InvalidDigit))
    ensures DeleteInterface(deleteSession, "/" + segment) == Err(ParseIdFailed(InvalidDigit))
  {
    IdFromSubpathEmpty();
    IdFromSubpathNotNumber(segment);
  }
}

=== FILE: session_sensor_data.dfy ===
/** The `SessionSensorData` model in the revision the crate compiles
    (`tcp-server/src/models/session_sensor_data.rs`): a data point whose id, date-time and
    blob are all strings. */
module LegacySensorData {
  import opened Common
  import Json
  import Responses
  import Decimal
  import Headers
  import opened BaseModels

  const TYPE_NAME: string := "session sensor data"
  const REQUIRED_VALUES: string :=
    " Requires values \"datetime\": string and \"data_blob\": string"
  /** The hint of every `try_batch_model` error. */
  const BATCH_HINT: string :=
    " Requires the values \"datapoints\": array [ { \"id\": string, \"datetime\": string, \"data_blob\": string }, ... ]"

  /** `SessionSensorData::new` is the constructor; the three getters are the fields. */
  datatype SessionSensorData = SessionSensorData(id: string, datetime: string, dataBlob: string)

  /** `is_valid`: all three fields are set. */
  predicate IsValid(d: SessionSensorData) {
    d.id != "" && d.datetime != "" && d.dataBlob != ""
  }

  const ID_OPEN: string := "{\"id\":\""
  const DATETIME_SEP: string := "\", \"datetime\":\""
  const BLOB_SEP: string := "\", \"data_blob\":\""

  /** The public JSON after the id. */
  function AfterId(d: SessionSensorData): string {
    DATETIME_SEP + d.datetime + AfterDatetime(d)
  }

  /** The public JSON after the date-time. */
  function AfterDatetime(d: SessionSensorData): string {
    BLOB_SEP + d.dataBlob + "\"}"
  }

  /** `public_json`: the three fields as JSON strings, in the order id, date-time, blob. */
  function PublicJson(d: SessionSensorData): (r: string)
    ensures |r| == |ID_OPEN| + |d.id| + |DATETIME_SEP| + |d.datetime| + |BLOB_SEP| + |d.dataBlob| + 2
    ensures IsPrefix(ID_OPEN + d.id + DATETIME_SEP, r)
    ensures IsSuffix(BLOB_SEP + d.dataBlob + "\"}", r)
    ensures r[|ID_OPEN + d.id + DATETIME_SEP|..|r| - |BLOB_SEP + d.dataBlob + "\"}"|] == d.datetime
  {
    var head := ID_OPEN + d.id + DATETIME_SEP;
    var tail := BLOB_SEP + d.dataBlob + "\"}";
    var r := head + d.datetime + tail;
    Concat3(head, d.datetime, tail);
    r
  }

  lemma PublicJsonPieces(d: SessionSensorData)
    ensures PublicJson(d) == ID_OPEN + (d.id + AfterId(d))
    ensures AfterId(d) == DATETIME_SEP + (d.datetime + AfterDatetime(d))
  {
    assert PublicJson(d) == ID_OPEN + (d.id + AfterId(d)) by {
      ConcatFive(ID_OPEN, d.id, DATETIME_SEP, d.datetime, AfterDatetime(d));
    }
  }

  /** Data points whose id and date-time hold no `"` can be told apart by their public
      JSON. */
  lemma PublicJsonInjective(d: SessionSensorData, e: SessionSensorData)
    requires '"' !in d.id && '"' !in e.id && '"' !in d.datetime && '"' !in e.datetime
    requires PublicJson(d) == PublicJson(e)
    ensures d == e
  {
    PublicJsonPieces(d);
    PublicJsonPieces(e);
    assert d.id + AfterId(d) == PublicJson(d)[|ID_OPEN|..];
    assert e.id + AfterId(e) == PublicJson(e)[|ID_OPEN|..];
    QuoteDelimited(d.id, AfterId(d), e.id, AfterId(e));
    assert d.datetime + AfterDatetime(d) == AfterId(d)[|DATETIME_SEP|..];
    assert e.datetime + AfterDatetime(e) == AfterId(e)[|DATETIME_SEP|..];
    QuoteDelimited(d.datetime, AfterDatetime(d), e.datetime, AfterDatetime(e));
    var c := AfterDatetime(d);
    assert d.dataBlob == c[|BLOB_SEP|..|c| - 2];
  }

  function Kind(fromValue: Json.Json -> Option<SessionSensorData>): (k: ModelKind<SessionSensorData>)
    ensures k.typeName == TYPE_NAME && k.requiredValues == REQUIRED_VALUES
  {
    ModelKind(TYPE_NAME, REQUIRED_VALUES, PublicJson, fromValue)
  }

  /** `insert_interface`: the database's `insert_session_sensor_data`, on the data point as
      given. */
  function InsertInterface(insertData: SessionSensorData -> Result<SessionSensorData, string>,
                           d: SessionSensorData): (r: Result<SessionSensorData, string>)
    ensures r == insertData(d)
  {
    insertData(d)
  }

  /** `try_insert_model` with this model's kind and `insert_interface`: a body that parses
      is stored, and the answer is 201 with the stored data point's public JSON, or 400 with
      the creation error when the database refuses it. */
  lemma InsertAnswers(fromValue: Json.Json -> Option<SessionSensorData>, insertData: SessionSensorData -> Result<SessionSensorData, string>,
                      json: Json.Json, model: SessionSensorData, now: Decimal.i64)
    requires fromValue(json) == Some(model)
    ensures var r := TryInsertModel(Kind(fromValue), m => InsertInterface(insertData, m), Some(json), now);
      && (insertData(model).Ok? ==> r.status == Headers.Created && r.body == PublicJson(insertData(model).value))
      && (insertData(model).Err? ==> r == Responses.BadRequest(CreateErrorMsg(TYPE_NAME), now))
  {
    var insert := m => InsertInterface(insertData, m);
    if insertData(model).Ok? {
      var stored := insertData(model).value;
      assert IsSuffix("}", PublicJson(stored)) by {
        var r := PublicJson(stored);
        assert r[|r| - 1..] == r[|r| - 2..][1..];
      }
      TryInsertCreated(Kind(fromValue), insert, json, model, stored, now);
    }
  }

  /** `try_batch_model`: the same ladder as the newer revision, with string ids in its
      hint. */
  function TryBatchModel(body: Option<Json.Json>, fromValue: Json.Json -> Option<SessionSensorData>,
                         batch: seq<SessionSensorData> -> Result<seq<SessionSensorData>, string>,
                         now: Decimal.i64): (r: Responses.HttpResponse)
    ensures body.None? ==> r == Responses.MissingBody(Some(BATCH_HINT), now)
    ensures body.Some? && BatchData(body.value, fromValue).None? ==>
      r == Responses.InvalidBody(Some(BATCH_HINT), now)
    ensures body.Some? && BatchData(body.value, fromValue).Some? ==>
      var outcome := batch(BatchData(body.value, fromValue).value);
      (outcome.Ok? ==> r == Responses.NoContentResponse(now))
      && (outcome.Err? ==> r == Responses.BadRequest(BATCH_HINT, now))
  {
    TryBatch(BATCH_HINT, body, fromValue, batch, now)
  }
}

=== FILE: session_sensor_data_model.dfy ===
/** The `SessionSensorData` model in its newer revision
    (`tcp-server/src/models/session_sensor_data_model.rs`): one data point of a session,
    with an optional numeric id, a date-time and a JSON blob, addressed in paths by
    session id and date-time, and stored in batches. */
module SensorData {
  import opened Common
  import opened Decimal
  import opened Json
  import Paths
  import Responses
  import Headers
  import opened BaseModels

  const TYPE_NAME: string := "session sensor data"
  const REQUIRED_VALUES: string :=
    " Requires values \"datetime\": string and \"data_blob\": string"
  /** The hint of every `try_batch_model` error. */
  const BATCH_HINT: string :=
    " Requires the values \"datapoints\": array [ { \"id\": i64, \"datetime\": string, \"data_blob\": string }, ... ]"

  /** `SessionSensorData::new` is the constructor; the three getters are the fields. */
  datatype SessionSensorData = SessionSensorData(id: Option<i64>, datetime: string, dataBlob: Json)

  /** `empty`: no id, no date-time, a `null` blob. */
  function Empty(): (d: SessionSensorData)
    ensures !IsValid(d)
    ensures d.id.None? && d.datetime == "" && d.dataBlob == Null
  {
    SessionSensorData(None, "", Null)
  }

  /** `is_valid`: an id, a date-time, and a blob that is a JSON object. */
  predicate IsValid(d: SessionSensorData) {
    d.id.Some? && d.datetime != "" && d.dataBlob.Object?
  }

  /** How serde writes the id: `null` or the number. */
  function IdJson(id: Option<i64>): Json {
    match id
    case None => Null
    case Some(n) => Number(IntToDecimal(n))
  }

  /** The value `public_json` prints: an object with the three fields. */
  function PublicValue(d: SessionSensorData): Json {
    Object(map["id" := IdJson(d.id), "datetime" := Str(d.datetime), "data_blob" := d.dataBlob])
  }

  /** Reads a data point back from a JSON value the way the derived `Deserialize` does
      for the three fields: an id that is absent, `null` or an `i64` number, a string
      date-time, and any blob. serde_json reads the number `-0` as the float negative
      zero, which an `i64` field refuses. */
  function ReadBack(v: Json): (r: Option<SessionSensorData>)
    ensures r.Some? ==> v.Object? && "datetime" in v.fields && v.fields["datetime"] == Str(r.value.datetime)
    ensures r.Some? ==> "data_blob" in v.fields && r.value.dataBlob == v.fields["data_blob"]
    ensures r.Some? ==> (r.value.id.None? <==> "id" !in v.fields || v.fields["id"] == Null)
    ensures r.Some? && r.value.id.Some? ==>
      && "id" in v.fields && v.fields["id"].Number? && v.fields["id"].text != "-0"
      && ParseI64(v.fields["id"].text) == Ok(r.value.id.value)
    ensures v.Object? && "data_blob" in v.fields && "datetime" in v.fields && v.fields["datetime"].Str? &&
            ("id" !in v.fields || v.fields["id"] == Null ||
             (v.fields["id"].Number? && v.fields["id"].text != "-0" && ParseI64(v.fields["id"].text).Ok?)) ==>
      r.Some?
  {
    if !v.Object? || "datetime" !in v.fields || "data_blob" !in v.fields then None
    else
      var id := if "id" !in v.fields then Some(None) else match v.fields["id"]
        case Null => Some(None)
        case Number(t) =>
          if t == "-0" then None
          else (match ParseI64(t) case Ok(n) => Some(Some(n)) case Err(_) => None)
        case _ => None;
      match v.fields["datetime"]
      case Str(datetime) =>
        if id.None? then None else Some(SessionSensorData(id.value, datetime, v.fields["data_blob"]))
      case _ => None
  }

  /** An id written `-0` is refused, though `-0` parses as an `i64` from text. */
  lemma ReadBackNegativeZero(datetime: string, blob: Json)
    ensures ParseI64("-0") == Ok(0)
    ensures ReadBack(Object(map["id" := Number("-0"), "datetime" := Str(datetime), "data_blob" := blob])).None?
  {
    ParseI64RoundTrip(0);
  }

  /** The public value loses nothing: reading it back gives the data point. */
  lemma ReadBackPublicValue(d: SessionSensorData)
    ensures ReadBack(PublicValue(d)) == Some(d)
  {
    if d.id.Some? {
      ParseI64RoundTrip(d.id.value);
    }
  }

  /** `public_json`: the public value printed by `serialize`, which stands for
      `serde_json::Value::to_string`. */
  function PublicJson(d: SessionSensorData, serialize: Json -> string): (r: string)
    ensures r == serialize(PublicValue(d))
  {
    serialize(PublicValue(d))
  }

  /** The `fill_from` result: the id taken from `other` when absent, the date-time when
      empty, the blob when `null`. */
  function Filled(d: SessionSensorData, other: SessionSensorData): SessionSensorData {
    SessionSensorData(if d.id.None? then other.id else d.id,
                      if d.datetime == "" then other.datetime else d.datetime,
                      if d.dataBlob.Null? then other.dataBlob else d.dataBlob)
  }

  /** `fill_from`: fills the unset fields of `d`, one after the other. */
  method FillFrom(d: SessionSensorData, other: SessionSensorData) returns (filled: SessionSensorData)
    ensures filled == Filled(d, other)
  {
    filled := d;
    if filled.id.None? {
      filled := filled.(id := other.id);
    }
    if filled.datetime == "" {
      filled := filled.(datetime := other.datetime);
    }
    if filled.dataBlob.Null? {
      filled := filled.(dataBlob := other.dataBlob);
    }
  }

  /** Filling the empty data point gives the other one; filling twice is filling once; a
      valid data point is left as it is; filling from a valid one gives a valid one unless
      the blob is set to something other than an object. */
  lemma FillProperties(d: SessionSensorData, other: SessionSensorData)
    ensures Filled(Empty(), other) == other
    ensures Filled(Filled(d, other), other) == Filled(d, other)
    ensures IsValid(d) ==> Filled(d, other) == d
    ensures IsValid(other) ==> (IsValid(Filled(d, other)) <==> d.dataBlob.Null? || d.dataBlob.Object?)
  {
  }

  function Kind(fromValue: Json -> Option<SessionSensorData>, serialize: Json -> string)
    : (k: ModelKind<SessionSensorData>)
    ensures k.typeName == TYPE_NAME && k.requiredValues == REQUIRED_VALUES
  {
    ModelKind(TYPE_NAME, REQUIRED_VALUES, d => PublicJson(d, serialize), fromValue)
  }

  /** `insert_interface`: the database's `insert_session_sensor_data`, on the data point as
      given. */
  function InsertInterface(insertData: SessionSensorData -> Result<SessionSensorData, string>,
                           d: SessionSensorData): (r: Result<SessionSensorData, string>)
    ensures r == insertData(d)
  {
    insertData(d)
  }

  /** `try_insert_model` with this model's kind and `insert_interface`: a body that parses
      is stored, and the answer is 201 carrying the stored data point's public JSON (the
      body itself when the serialised object ends in `}`), or 400 with the creation error
      when the database refuses it. */
  lemma InsertAnswers(fromValue: Json -> Option<SessionSensorData>, serialize: Json -> string,
                      insertData: SessionSensorData -> Result<SessionSensorData, string>,
                      json: Json, model: SessionSensorData, now: i64)
    requires fromValue(json) == Some(model)
    ensures var r := TryInsertModel(Kind(fromValue, serialize), m => InsertInterface(insertData, m),
                                    Some(json), now);
      && (insertData(model).Ok? ==>
            r.status == Headers.Created
            && r == ToCreatedResponse(Kind(fromValue, serialize), insertData(model).value, now))
      && (insertData(model).Ok? && IsSuffix("}", PublicJson(insertData(model).value, serialize)) ==>
            r.body == PublicJson(insertData(model).value, serialize))
      && (insertData(model).Err? ==> r == Responses.BadRequest(CreateErrorMsg(TYPE_NAME), now))
  {
    var insert := m => InsertInterface(insertData, m);
    if insertData(model).Ok? && IsSuffix("}", PublicJson(insertData(model).value, serialize)) {
      TryInsertCreated(Kind(fromValue, serialize), insert, json, model, insertData(model).value, now);
    }
  }

  /** `update_interface`: the session id and the date-time in sections 0 and 1. */
  function UpdateInterface(updateDatapoint: (i64, string, SessionSensorData) -> Result<SessionSensorData, string>,
                           subpath: string, updated: SessionSensorData): (r: Result<SessionSensorData, string>)
    ensures DatapointKey(subpath).Err? ==> r == Err(DatapointKey(subpath).error)
    ensures DatapointKey(subpath).Ok? ==>
      r == updateDatapoint(DatapointKey(subpath).value.0, DatapointKey(subpath).value.1, updated)
  {
    match DatapointKey(subpath)
    case Ok((id, datetime)) => updateDatapoint(id, datetime, updated)
    case Err(e) => Err(e)
  }

  /** `delete_interface`: the session id and the date-time in sections 0 and 1. */
  function DeleteInterface(deleteDatapoint: (i64, string) -> Result<(), string>, subpath: string)
    : (r: Result<(), string>)
    ensures DatapointKey(subpath).Err? ==> r == Err(DatapointKey(subpath).error)
    ensures DatapointKey(subpath).Ok? ==>
      r == deleteDatapoint(DatapointKey(subpath).value.0, DatapointKey(subpath).value.1)
  {
    match DatapointKey(subpath)
    case Ok((id, datetime)) => deleteDatapoint(id, datetime)
    case Err(e) => Err(e)
  }

  /** `/<id>/<datetime>` addresses that data point; `/<id>` alone is a missing
      identifier, whether or not it is a number. */
  lemma InterfacesAddressByKey(updateDatapoint: (i64, string, SessionSensorData) -> Result<SessionSensorData, string>,
                               deleteDatapoint: (i64, string) -> Result<(), string>,
                               id: i64, datetime: string, d: SessionSensorData, segment: string)
    requires '/' !in datetime && '/' !in segment
    ensures UpdateInterface(updateDatapoint, "/" + IntToDecimal(id) + "/" + datetime, d)
         == updateDatapoint(id, datetime, d)
    ensures DeleteInterface(deleteDatapoint, "/" + IntToDecimal(id) + "/" + datetime)
         == deleteDatapoint(id, datetime)
    ensures DeleteInterface(deleteDatapoint, "/" + segment) == Err(MissingIdentifier("/" + segment))
  {
    DatapointKeyOf(id, datetime);
    DatapointKeyNeedsTwo(segment);
  }

  /** `try_batch_model`. `fromValue` stands for `from_json` on one element, `batch` for the
      database's `batch_session_sensor_data`. */
  function TryBatchModel(body: Option<Json>, fromValue: Json -> Option<SessionSensorData>,
                         batch: seq<SessionSensorData> -> Result<seq<SessionSensorData>, string>,
                         now: i64): (r: Responses.HttpResponse)
    ensures body.None? ==> r == Responses.MissingBody(Some(BATCH_HINT), now)
    ensures body.Some? && BatchData(body.value, fromValue).None? ==>
      r == Responses.InvalidBody(Some(BATCH_HINT), now)
    ensures body.Some? && BatchData(body.value, fromValue).Some? ==>
      var outcome := batch(BatchData(body.value, fromValue).value);
      (outcome.Ok? ==> r == Responses.NoContentResponse(now))
      && (outcome.Err? ==> r == Responses.BadRequest(BATCH_HINT, now))
  {
    TryBatch(BATCH_HINT, body, fromValue, batch, now)
  }
}

=== FILE: session_sensor_model.dfy ===
/** The `SessionSensor` model (`tcp-server/src/models/session_sensor_model.rs`): the link
    of a sensor to a session, with its own numeric id, addressed in paths by that id. */
module SessionSensors {
  import opened Common
  import opened Decimal
  import Json
  import Paths
  import Headers
  import Responses
  import opened BaseModels

  const TYPE_NAME: string := "session sensor"
  const REQUIRED_VALUES: string :=
    " Requires values \"session_id\": string and \"sensor_id\": string"

  /** `SessionSensor::new` is the constructor; the three getters are the fields. */
  datatype SessionSensor = SessionSensor(id: i64, sessionId: i64, sensorId: i64)

  /** `empty`: every id -1. */
  function Empty(): (s: SessionSensor)
    ensures !IsValid(s)
    ensures s.id == -1 && s.sessionId == -1 && s.sensorId == -1
  {
    SessionSensor(-1, -1, -1)
  }

  /** `is_valid`: no id is negative. */
  predicate IsValid(s: SessionSensor) {
    s.id >= 0 && s.sessionId >= 0 && s.sensorId >= 0
  }

  const ID_OPEN: string := "{\"id\":\""
  const SESSION_SEP: string := "\", \"session_id\":\""
  const SENSOR_SEP: string := "\", \"sensor_id\":\""

  /** `public_json`: the three ids in decimal, as JSON strings, in the order id,
      session id, sensor id. */
  function PublicJson(s: SessionSensor): (r: string)
    ensures |r| == |ID_OPEN| + |IntToDecimal(s.id)| + |SESSION_SEP| + |IntToDecimal(s.sessionId)|
                   + |SENSOR_SEP| + |IntToDecimal(s.sensorId)| + 2
    ensures IsPrefix(ID_OPEN + IntToDecimal(s.id) + SESSION_SEP, r)
    ensures IsSuffix(SENSOR_SEP + IntToDecimal(s.sensorId) + "\"}", r)
    ensures r[|ID_OPEN + IntToDecimal(s.id) + SESSION_SEP|
              ..|r| - |SENSOR_SEP + IntToDecimal(s.sensorId) + "\"}"|] == IntToDecimal(s.sessionId)
  {
    var head := ID_OPEN + IntToDecimal(s.id) + SESSION_SEP;
    var tail := SENSOR_SEP + IntToDecimal(s.sensorId) + "\"}";
    var r := head + IntToDecimal(s.sessionId) + tail;
    Concat3(head, IntToDecimal(s.sessionId), tail);
    r
  }

  /** The public JSON after the id. */
  function AfterId(s: SessionSensor): string {
    SESSION_SEP + IntToDecimal(s.sessionId) + AfterSessionId(s)
  }

  /** The public JSON after the session id. */
  function AfterSessionId(s: SessionSensor): string {
    SENSOR_SEP + IntToDecimal(s.sensorId) + "\"}"
  }

  lemma PublicJsonPieces(s: SessionSensor)
    ensures PublicJson(s) == ID_OPEN + (IntToDecimal(s.id) + AfterId(s))
    ensures AfterId(s) == SESSION_SEP + (IntToDecimal(s.sessionId) + AfterSessionId(s))
  {
    assert PublicJson(s) == ID_OPEN + (IntToDecimal(s.id) + AfterId(s)) by {
      ConcatFive(ID_OPEN, IntToDecimal(s.id), SESSION_SEP, IntToDecimal(s.sessionId), AfterSessionId(s));
    }
  }

  /** All three ids can be read back from the public JSON. */
  lemma PublicJsonInjective(s: SessionSensor, t: SessionSensor)
    requires PublicJson(s) == PublicJson(t)
    ensures s == t
  {
    PublicJsonPieces(s);
    PublicJsonPieces(t);
    assert IntToDecimal(s.id) + AfterId(s) == PublicJson(s)[|ID_OPEN|..];
    assert IntToDecimal(t.id) + AfterId(t) == PublicJson(t)[|ID_OPEN|..];
    DecimalFieldInjective(s.id, AfterId(s), t.id, AfterId(t));
    assert IntToDecimal(s.sessionId) + AfterSessionId(s) == AfterId(s)[|SESSION_SEP|..];
    assert IntToDecimal(t.sessionId) + AfterSessionId(t) == AfterId(t)[|SESSION_SEP|..];
    DecimalFieldInjective(s.sessionId, AfterSessionId(s), t.sessionId, AfterSessionId(t));
    var c1 := AfterSessionId(s);
    var c2 := AfterSessionId(t);
    assert IntToDecimal(s.sensorId) == c1[|SENSOR_SEP|..|c1| - 2];
    assert IntToDecimal(t.sensorId) == c2[|SENSOR_SEP|..|c2| - 2];
    DecimalInjective(s.sensorId, t.sensorId);
  }

  /** The `fill_from` result: each id that is -1 taken from `other`. */
  function Filled(s: SessionSensor, other: SessionSensor): SessionSensor {
    SessionSensor(if s.id == -1 then other.id else s.id,
                  if s.sessionId == -1 then other.sessionId else s.sessionId,
                  if s.sensorId == -1 then other.sensorId else s.sensorId)
  }

  /** `fill_from`: fills the unset ids of `s`, one after the other. */
  method FillFrom(s: SessionSensor, other: SessionSensor) returns (filled: SessionSensor)
    ensures filled == Filled(s, other)
  {
    filled := s;
    if filled.id == -1 {
      filled := filled.(id := other.id);
    }
    if filled.sessionId == -1 {
      filled := filled.(sessionId := other.sessionId);
    }
    if filled.sensorId == -1 {
      filled := filled.(sensorId := other.sensorId);
    }
  }

  /** Filling the empty link gives the other link; filling twice is filling once; a valid
      link is left as it is. */
  lemma FillProperties(s: SessionSensor, other: SessionSensor)
    ensures Filled(Empty(), other) == other
    ensures Filled(Filled(s, other), other) == Filled(s, other)
    ensures IsValid(s) ==> Filled(s, other) == s
  {
  }

  function Kind(fromValue: Json.Json -> Option<SessionSensor>): (k: ModelKind<SessionSensor>)
    ensures k.typeName == TYPE_NAME && k.requiredValues == REQUIRED_VALUES
  {
    ModelKind(TYPE_NAME, REQUIRED_VALUES, PublicJson, fromValue)
  }

  /** `insert_interface`: the database's `insert_session_sensor`, on the link as given. */
  function InsertInterface(insertSessionSensor: SessionSensor -> Result<SessionSensor, string>,
                           s: SessionSensor): (r: Result<SessionSensor, string>)
    ensures r == insertSessionSensor(s)
  {
    insertSessionSensor(s)
  }

  /** `try_insert_model` with this model's kind and `insert_interface`: a body that parses
      is stored, and the answer is 201 with the stored session sensor's public JSON, or 400 with
      the creation error when the database refuses it. */
  lemma InsertAnswers(fromValue: Json.Json -> Option<SessionSensor>, insertSessionSensor: SessionSensor -> Result<SessionSensor, string>,
                      json: Json.Json, model: SessionSensor, now: Decimal.i64)
    requires fromValue(json) == Some(model)
    ensures var r := TryInsertModel(Kind(fromValue), m => InsertInterface(insertSessionSensor, m), Some(json), now);
      && (insertSessionSensor(model).Ok? ==> r.status == Headers.Created && r.body == PublicJson(insertSessionSensor(model).value))
      && (insertSessionSensor(model).Err? ==> r == Responses.BadRequest(CreateErrorMsg(TYPE_NAME), now))
  {
    var insert := m => InsertInterface(insertSessionSensor, m);
    if insertSessionSensor(model).Ok? {
      var stored := insertSessionSensor(model).value;
      assert IsSuffix("}", PublicJson(stored)) by {
        var r := PublicJson(stored);
        assert r[|r| - 1..] == r[|r| - 2..][1..];
      }
      TryInsertCreated(Kind(fromValue), insert, json, model, stored, now);
    }
  }

  /** `update_interface`: the link id in section 0 of the sub-path. */
  function UpdateInterface(updateSessionSensor: (i64, SessionSensor) -> Result<SessionSensor, string>,
                           subpath: string, updated: SessionSensor): (r: Result<SessionSensor, string>)
    ensures IdFromSubpath(subpath).Err? ==> r == Err(IdFromSubpath(subpath).error)
    ensures IdFromSubpath(subpath).Ok? ==>
      r == updateSessionSensor(IdFromSubpath(subpath).value, updated)
  {
    match IdFromSubpath(subpath)
    case Ok(id) => updateSessionSensor(id, updated)
    case Err(e) => Err(e)
  }

  /** `delete_interface`: the link id in section 0 of the sub-path. */
  function DeleteInterface(deleteSessionSensor: i64 -> Result<(), string>, subpath: string): (r: Result<(), string>)
    ensures IdFromSubpath(subpath).Err? ==> r == Err(IdFromSubpath(subpath).error)
    ensures IdFromSubpath(subpath).Ok? ==> r == deleteSessionSensor(IdFromSubpath(subpath).value)
  {
    match IdFromSubpath(subpath)
    case Ok(id) => deleteSessionSensor(id)
    case Err(e) => Err(e)
  }

  /** `/<id>` addresses link `<id>`; no segment is refused without a database call. */
  lemma InterfacesAddressById(updateSessionSensor: (i64, SessionSensor) -> Result<SessionSensor, string>,
                              deleteSessionSensor: i64 -> Result<(), string>, id: i64, s: SessionSensor)
    ensures UpdateInterface(updateSessionSensor, "/" + IntToDecimal(id), s) == updateSessionSensor(id, s)
    ensures DeleteInterface(deleteSessionSensor, "/" + IntToDecimal(id)) == deleteSessionSensor(id)
    ensures DeleteInterface(deleteSessionSensor, "") == Err(MissingIdentifier(""))
  {
    IdFromSubpathOf(id);
    IdFromSubpathEmpty();
  }
}

=== FILE: user_model.dfy ===
/** The `User` model (`tcp-server/src/models/user_model.rs`): a user name and a password
    hash, addressed in paths by user name. */
module Users {
  import opened Common
  import Json
  import Paths
  import Decimal
  import Headers
  import Responses
  import opened BaseModels

  const TYPE_NAME: string := "user"
  const REQUIRED_VALUES: string :=
    " Requires values \"username\": string and \"password_hash\": string"

  /** `User::new` is the constructor; `get_username` and `get_password_hash` are the fields. */
  datatype User = User(username: string, passwordHash: string)

  /** `empty`: both fields empty. */
  function Empty(): (u: User)
    ensures !IsValid(u)
    ensures u.username == "" && u.passwordHash == ""
  {
    User("", "")
  }

  /** `is_valid`: both fields are set. */
  predicate IsValid(u: User) {
    u.username != "" && u.passwordHash != ""
  }

  const USERNAME_OPEN: string := "{\"username\":\""

  /** `public_json`: the user name only; the password hash is never shown. */
  function PublicJson(u: User): (r: string)
    ensures |r| == |USERNAME_OPEN| + |u.username| + 2
    ensures IsPrefix(USERNAME_OPEN, r) && IsSuffix("\"}", r)
    ensures r[|USERNAME_OPEN|..|r| - 2] == u.username
  {
    var r := USERNAME_OPEN + u.username + "\"}";
    assert r[..|USERNAME_OPEN|] == USERNAME_OPEN;
    assert r[|USERNAME_OPEN|..|r| - 2] == u.username;
    r
  }

  /** Two users print alike exactly when their names agree: the password hash plays no
      part. */
  lemma PublicJsonShowsNameOnly(u: User, v: User)
    ensures PublicJson(u) == PublicJson(v) <==> u.username == v.username
  {
    if PublicJson(u) == PublicJson(v) {
      assert u.username == PublicJson(u)[|USERNAME_OPEN|..|PublicJson(u)| - 2];
    }
  }

  /** The `fill_from` result: each empty field taken from `other`. */
  function Filled(u: User, other: User): User {
    User(if u.username == "" then other.username else u.username,
         if u.passwordHash == "" then other.passwordHash else u.passwordHash)
  }

  /** `fill_from`: fills the empty fields of `u`, one after the other. */
  method FillFrom(u: User, other: User) returns (filled: User)
    ensures filled == Filled(u, other)
  {
    filled := u;
    if filled.username == "" {
      filled := filled.(username := other.username);
    }
    if filled.passwordHash == "" {
      filled := filled.(passwordHash := other.passwordHash);
    }
  }

  /** Filling the empty user gives the other user; filling twice is filling once; a valid
      user is left as it is; filling from a valid user gives a valid user. */
  lemma FillProperties(u: User, other: User)
    ensures Filled(Empty(), other) == other
    ensures Filled(Filled(u, other), other) == Filled(u, other)
    ensures IsValid(u) ==> Filled(u, other) == u
    ensures IsValid(other) ==> IsValid(Filled(u, other))
  {
  }

  function Kind(fromValue: Json.Json -> Option<User>): (k: ModelKind<User>)
    ensures k.typeName == TYPE_NAME && k.requiredValues == REQUIRED_VALUES
  {
    ModelKind(TYPE_NAME, REQUIRED_VALUES, PublicJson, fromValue)
  }

  /** `insert_interface`: the database's `insert_user`, on the user as given. */
  function InsertInterface(insertUser: User -> Result<User, string>, u: User): (r: Result<User, string>)
    ensures r == insertUser(u)
  {
    insertUser(u)
  }

  /** `try_insert_model` with this model's kind and `insert_interface`: a body that parses
      is stored, and the answer is 201 with the stored user's public JSON, or 400 with
      the creation error when the database refuses it. */
  lemma InsertAnswers(fromValue: Json.Json -> Option<User>, insertUser: User -> Result<User, string>,
                      json: Json.Json, model: User, now: Decimal.i64)
    requires fromValue(json) == Some(model)
    ensures var r := TryInsertModel(Kind(fromValue), m => InsertInterface(insertUser, m), Some(json), now);
      && (insertUser(model).Ok? ==> r.status == Headers.Created && r.body == PublicJson(insertUser(model).value))
      && (insertUser(model).Err? ==> r == Responses.BadRequest(CreateErrorMsg(TYPE_NAME), now))
  {
    var insert := m => InsertInterface(insertUser, m);
    if insertUser(model).Ok? {
      var stored := insertUser(model).value;
      assert IsSuffix("}", PublicJson(stored)) by {
        var r := PublicJson(stored);
        assert r[|r| - 1..] == r[|r| - 2..][1..];
      }
      TryInsertCreated(Kind(fromValue), insert, json, model, stored, now);
    }
  }

  /** `update_interface`: section 0 of the sub-path is the user name. */
  function UpdateInterface(updateUser: (string, User) -> Result<User, string>,
                           subpath: string, updated: User): (r: Result<User, string>)
    ensures Paths.Subsection(subpath, 0).None? ==> r == Err(MissingIdentifier(subpath))
    ensures Paths.Subsection(subpath, 0).Some? ==>
      r == updateUser(Paths.Subsection(subpath, 0).value, updated)
  {
    match Paths.Subsection(subpath, 0)
    case Some(username) => updateUser(username, updated)
    case None => Err(MissingIdentifier(subpath))
  }

  /** `delete_interface`: section 0 of the sub-path is the user name. */
  function DeleteInterface(deleteUser: string -> Result<(), string>, subpath: string): (r: Result<(), string>)
    ensures Paths.Subsection(subpath, 0).None? ==> r == Err(MissingIdentifier(subpath))
    ensures Paths.Subsection(subpath, 0).Some? ==> r == deleteUser(Paths.Subsection(subpath, 0).value)
  {
    match Paths.Subsection(subpath, 0)
    case Some(username) => deleteUser(username)
    case None => Err(MissingIdentifier(subpath))
  }

  /** `/<name>` addresses the user `<name>`; `/` addresses the empty name; the empty
      sub-path is refused without a database call. */
  lemma InterfacesAddressByName(updateUser: (string, User) -> Result<User, string>,
                                deleteUser: string -> Result<(), string>, name: string, u: User)
    requires '/' !in name
    ensures UpdateInterface(updateUser, "/" + name, u) == updateUser(name, u)
    ensures DeleteInterface(deleteUser, "/" + name) == deleteUser(name)
    ensures UpdateInterface(updateUser, "", u) == Err(MissingIdentifier(""))
    ensures DeleteInterface(deleteUser, "") == Err(MissingIdentifier(""))
  {
    Paths.SubsectionSingle(name, 0);
    Paths.SubsectionEmpty(0);
  }
}

=== FILE: utf8.dfy ===
/** UTF-8 as the server meets it: `String::into_bytes` (encoding), `str::from_utf8`
    (strict decoding, which fails on any ill-formed byte sequence) and
    `String::from_utf8_lossy` (decoding that replaces each maximal ill-formed subpart by
    U+FFFD). The well-formedness rules are those of the Unicode Standard, table 3-7. */
module Utf8 {
  import opened Common

  const REPLACEMENT: char := '\U{FFFD}'

  /** The number of bytes UTF-8 uses for `c`. */
  function CharWidth(c: char): nat {
    var n := c as int;
    if n < 0x80 then 1 else if n < 0x800 then 2 else if n < 0x10000 then 3 else 4
  }

  function EncodeChar(c: char): (r: seq<byte>)
    ensures |r| == CharWidth(c)
  {
    var n := c as int;
    if n < 0x80 then [n]
    else if n < 0x800 then [0xC0 + n / 0x40, 0x80 + n % 0x40]
    else if n < 0x10000 then [0xE0 + n / 0x1000, 0x80 + n / 0x40 % 0x40, 0x80 + n % 0x40]
    else [0xF0 + n / 0x40000, 0x80 + n / 0x1000 % 0x40, 0x80 + n / 0x40 % 0x40, 0x80 + n % 0x40]
  }

  /** The UTF-8 bytes of `s` (`String::into_bytes`); `|Encode(s)|` is Rust's `len()`. */
  function Encode(s: string): seq<byte>
  {
    if s == [] then [] else EncodeChar(s[0]) + Encode(s[1..])
  }

  lemma {:induction false} EncodeAppend(a: string, b: string)
    ensures Encode(a + b) == Encode(a) + Encode(b)
  {
    if a != [] {
      assert (a + b)[1..] == a[1..] + b;
      EncodeAppend(a[1..], b);
    } else {
      assert a + b == b;
    }
  }

  predicate IsContinuation(b: byte) {
    0x80 <= b <= 0xBF
  }

  /** What a decoder finds at the start of a byte sequence: one character and the number
      of bytes it takes, or the length of the maximal ill-formed subpart there. */
  datatype Step = Decoded(c: char, width: nat) | Invalid(width: nat)

  function StepAt(b: seq<byte>): (r: Step)
    requires |b| > 0
    ensures 1 <= r.width <= |b| && r.width <= 4
  {
    var b0: int := b[0];
    var b1: int := if |b| > 1 then b[1] else 0;
    var b2: int := if |b| > 2 then b[2] else 0;
    var b3: int := if |b| > 3 then b[3] else 0;
    if b0 < 0x80 then Decoded(b0 as char, 1)
    else if 0xC2 <= b0 <= 0xDF then
      if |b| >= 2 && IsContinuation(b1) then
        Decoded(((b0 - 0xC0) * 0x40 + (b1 - 0x80)) as char, 2)
      else Invalid(1)
    else if 0xE0 <= b0 <= 0xEF then
      var lo := if b0 == 0xE0 then 0xA0 else 0x80;
      var hi := if b0 == 0xED then 0x9F else 0xBF;
      if |b| < 2 || !(lo <= b1 <= hi) then Invalid(1)
      else if |b| < 3 || !IsContinuation(b2) then Invalid(2)
      else Decoded(((b0 - 0xE0) * 0x1000 + (b1 - 0x80) * 0x40 + (b2 - 0x80)) as char, 3)
    else if 0xF0 <= b0 <= 0xF4 then
      var lo := if b0 == 0xF0 then 0x90 else 0x80;
      var hi := if b0 == 0xF4 then 0x8F else 0xBF;
      if |b| < 2 || !(lo <= b1 <= hi) then Invalid(1)
      else if |b| < 3 || !IsContinuation(b2) then Invalid(2)
      else if |b| < 4 || !IsContinuation(b3) then Invalid(3)
      else Decoded(((b0 - 0xF0) * 0x40000 + (b1 - 0x80) * 0x1000
                    + (b2 - 0x80) * 0x40 + (b3 - 0x80)) as char, 4)
    else Invalid(1)
  }

  /** `str::from_utf8`: the text, or `None` when the bytes are not well-formed UTF-8. */
  function Decode(b: seq<byte>): Option<string>
    decreases |b|
  {
    if b == [] then Some([])
    else match StepAt(b)
      case Invalid(_) => None
      case Decoded(c, w) =>
        match Decode(b[w..])
        case None => None
        case Some(s) => Some([c] + s)
  }

  /** `String::from_utf8_lossy`: each maximal ill-formed subpart becomes one U+FFFD. */
  function DecodeLossy(b: seq<byte>): string
    decreases |b|
  {
    if b == [] then []
    else match StepAt(b)
      case Invalid(w) => [REPLACEMENT] + DecodeLossy(b[w..])
      case Decoded(c, w) => [c] + DecodeLossy(b[w..])
  }

  /** The decoder reads back the encoding of a character, whatever follows it. */
  lemma StepEncodeChar(c: char, rest: seq<byte>)
    ensures StepAt(EncodeChar(c) + rest) == Decoded(c, CharWidth(c))
  {
    var n := c as int;
    if n < 0x80 {
    } else if n < 0x800 {
      StepEncode2(c, rest);
    } else if n < 0x10000 {
      StepEncode3(c, rest);
    } else {
      StepEncode4(c, rest);
    }
  }

  lemma StepEncode2(c: char, rest: seq<byte>)
    requires 0x80 <= c as int < 0x800
    ensures StepAt(EncodeChar(c) + rest) == Decoded(c, 2)
  {
    Digits2(c as int);
  }

  lemma StepEncode3(c: char, rest: seq<byte>)
    requires 0x800 <= c as int < 0x10000
    ensures StepAt(EncodeChar(c) + rest) == Decoded(c, 3)
  {
    var b := EncodeChar(c) + rest;
    Digits3(c as int);
    assert b[0] == 0xED ==> c as int < 0xD800;
  }

  lemma StepEncode4(c: char, rest: seq<byte>)
    requires 0x10000 <= c as int
    ensures StepAt(EncodeChar(c) + rest) == Decoded(c, 4)
  {
    Digits4(c as int);
  }

  /** Base-64 digits of a two-byte code point. */
  lemma Digits2(n: int)
    requires 0 <= n
    ensures n == n / 0x40 * 0x40 + n % 0x40
  {
  }

  /** Base-64 digits of a three-byte code point. */
  lemma Digits3(n: int)
    requires 0 <= n
    ensures n == (n / 0x1000 * 0x40 + n / 0x40 % 0x40) * 0x40 + n % 0x40
  {
    var q := n / 0x40;
    assert n == q * 0x40 + n % 0x40;
    assert q == q / 0x40 * 0x40 + q % 0x40;
    assert n / 0x1000 == q / 0x40;
  }

  /** Base-64 digits of a four-byte code point. */
  lemma Digits4(n: int)
    requires 0 <= n
    ensures n == ((n / 0x40000 * 0x40 + n / 0x1000 % 0x40) * 0x40 + n / 0x40 % 0x40) * 0x40 + n % 0x40
  {
    var q := n / 0x40;
    var p := q / 0x40;
    assert n == q * 0x40 + n % 0x40;
    assert q == p * 0x40 + q % 0x40;
    assert p == p / 0x40 * 0x40 + p % 0x40;
    assert n / 0x1000 == p;
    assert n / 0x40000 == p / 0x40;
  }

  /** Splitting a value built from base-64 digits gives back its last digit and the rest. */
  lemma Undigit(hi: int, lo: int)
    requires 0 <= hi && 0 <= lo < 0x40
    ensures (hi * 0x40 + lo) / 0x40 == hi && (hi * 0x40 + lo) % 0x40 == lo
  {
  }

  /** A decoded character re-encodes to exactly the bytes it was decoded from. */
  lemma StepDecodedEncodes(b: seq<byte>)
    requires |b| > 0 && StepAt(b).Decoded?
    ensures EncodeChar(StepAt(b).c) == b[..StepAt(b).width]
  {
    if b[0] < 0x80 {
    } else if b[0] <= 0xDF {
      StepDecoded2(b);
    } else if b[0] <= 0xEF {
      StepDecoded3(b);
    } else {
      StepDecoded4(b);
    }
  }

  lemma StepDecoded2(b: seq<byte>)
    requires |b| >= 2 && 0xC2 <= b[0] <= 0xDF && IsContinuation(b[1])
    ensures EncodeChar(StepAt(b).c) == b[..2]
  {
    var b0: int, b1: int := b[0], b[1];
    Undigit(b0 - 0xC0, b1 - 0x80);
  }

  lemma StepDecoded3(b: seq<byte>)
    requires |b| > 0 && 0xE0 <= b[0] <= 0xEF && StepAt(b).Decoded?
    ensures EncodeChar(StepAt(b).c) == b[..3]
  {
    var b0: int, b1: int, b2: int := b[0], b[1], b[2];
    var q := (b0 - 0xE0) * 0x40 + (b1 - 0x80);
    var n := q * 0x40 + (b2 - 0x80);
    assert StepAt(b) == Decoded(n as char, 3);
    Undigit(q, b2 - 0x80);
    Undigit(b0 - 0xE0, b1 - 0x80);
    Shift2(n, q);
  }

  lemma StepDecoded4(b: seq<byte>)
    requires |b| > 0 && 0xF0 <= b[0] && StepAt(b).Decoded?
    ensures EncodeChar(StepAt(b).c) == b[..4]
  {
    var b0: int, b1: int, b2: int, b3: int := b[0], b[1], b[2], b[3];
    var p := (b0 - 0xF0) * 0x40 + (b1 - 0x80);
    var q := p * 0x40 + (b2 - 0x80);
    var n := q * 0x40 + (b3 - 0x80);
    assert StepAt(b) == Decoded(n as char, 4);
    Undigit(q, b3 - 0x80);
    Undigit(p, b2 - 0x80);
    Undigit(b0 - 0xF0, b1 - 0x80);
    Shift2(n, q);
    Shift2(q, p);
    Shift3(n, q, p);
  }

  /** Dividing by 0x40000 is dividing by 0x40 three times. */
  lemma Shift3(n: int, q: int, p: int)
    requires 0 <= n && n / 0x40 == q && q / 0x40 == p
    ensures n / 0x1000 == p && n / 0x40000 == p / 0x40
  {
    Shift2(n, q);
  }

  /** Dividing by 0x1000 is dividing by 0x40 twice. */
  lemma Shift2(n: int, q: int)
    requires 0 <= n && n / 0x40 == q
    ensures n / 0x1000 == q / 0x40
  {
  }

  /** Strict decoding inverts encoding: encoded text always decodes, to itself. */
  lemma {:induction false} DecodeEncode(s: string)
    ensures Decode(Encode(s)) == Some(s)
  {
    if s != [] {
      var b := Encode(s);
      StepEncodeChar(s[0], Encode(s[1..]));
      assert b[CharWidth(s[0])..] == Encode(s[1..]);
      DecodeEncode(s[1..]);
      assert [s[0]] + s[1..] == s;
    }
  }

  /** Strict decoding succeeds only on the encoding of the text it returns. */
  lemma DecodeSomeIsEncoding(b: seq<byte>)
    requires Decode(b).Some?
    ensures Encode(Decode(b).value) == b
  {
    DecodedIsEncoding(b, Decode(b).value);
  }

  /** Strict decoding succeeds exactly on encodings, giving the encoded text. */
  lemma DecodeExactly(b: seq<byte>)
    ensures forall s :: Encode(s) == b ==> Decode(b) == Some(s)
    ensures Decode(b).Some? ==> Encode(Decode(b).value) == b
  {
    forall s | Encode(s) == b
      ensures Decode(b) == Some(s)
    {
      DecodeEncode(s);
    }
    if Decode(b).Some? {
      DecodeSomeIsEncoding(b);
    }
  }

  lemma {:induction false} DecodedIsEncoding(b: seq<byte>, s: string)
    requires Decode(b) == Some(s)
    ensures Encode(s) == b
    decreases |b|
  {
    if b != [] {
      var head, rest, tail := DecodeFirst(b, s);
      DecodedIsEncoding(rest, tail);
    }
  }

  /** The first character of a strict decoding re-encodes to the bytes it came from, and
      the rest of the text is decoded from the rest of the bytes. */
  lemma DecodeFirst(b: seq<byte>, s: string) returns (head: seq<byte>, rest: seq<byte>, tail: string)
    requires b != [] && Decode(b) == Some(s)
    ensures b == head + rest && |rest| < |b|
    ensures Decode(rest) == Some(tail)
    ensures Encode(s) == head + Encode(tail)
  {
    var step := StepAt(b);
    head, rest, tail := b[..step.width], b[step.width..], s[1..];
    StepDecodedEncodes(b);
    assert s == [step.c] + tail;
  }

  /** On well-formed input the lossy decoder agrees with the strict one. */
  lemma {:induction false} DecodeLossyAgrees(b: seq<byte>)
    requires Decode(b).Some?
    ensures DecodeLossy(b) == Decode(b).value
    decreases |b|
  {
    if b != [] {
      DecodeLossyAgrees(b[StepAt(b).width..]);
    }
  }

  /** Lossy decoding of encoded text gives the text back. */
  lemma DecodeLossyEncode(s: string)
    ensures DecodeLossy(Encode(s)) == s
  {
    DecodeEncode(s);
    DecodeLossyAgrees(Encode(s));
  }

  predicate AllAscii(s: string) {
    forall i :: 0 <= i < |s| ==> IsAscii(s[i])
  }

  /** An ASCII text encodes to its own code points, one byte each. */
  lemma {:induction false} EncodeAscii(t: string)
    requires AllAscii(t)
    ensures |Encode(t)| == |t|
    ensures forall i :: 0 <= i < |t| ==> Encode(t)[i] == t[i] as int
  {
    if t != [] {
      EncodeAscii(t[1..]);
    }
  }

  lemma PrefixCons<T>(a: T, x: seq<T>, b: T, y: seq<T>)
    ensures IsPrefix([a] + x, [b] + y) <==> a == b && IsPrefix(x, y)
  {
    if IsPrefix([a] + x, [b] + y) {
      assert ([b] + y)[0] == a;
      assert y[..|x|] == ([b] + y)[1..|x| + 1];
    }
    if a == b && IsPrefix(x, y) {
      assert ([b] + y)[..|x| + 1] == [b] + y[..|x|];
    }
  }

  /** For an ASCII `t`, the bytes of `s` start with the bytes of `t` exactly when `s`
      starts with `t`. */
  lemma {:induction false} EncodeAsciiPrefix(t: string, s: string)
    requires AllAscii(t)
    ensures IsPrefix(Encode(t), Encode(s)) <==> IsPrefix(t, s)
  {
    if t != [] && s != [] {
      EncodeAsciiPrefix(t[1..], s[1..]);
      var head := EncodeChar(s[0]);
      assert Encode(t) == [t[0] as int] + Encode(t[1..]);
      assert Encode(s) == head + Encode(s[1..]);
      if IsAscii(s[0]) {
        assert head == [s[0] as int];
        PrefixCons(t[0] as int, Encode(t[1..]), s[0] as int, Encode(s[1..]));
        PrefixCons(t[0], t[1..], s[0], s[1..]);
        assert [t[0]] + t[1..] == t && [s[0]] + s[1..] == s;
      } else {
        assert Encode(s)[0] == head[0] >= 0xC0;
        assert !IsPrefix(Encode(t), Encode(s));
        assert !IsPrefix(t, s);
      }
    } else if t != [] {
      assert Encode(t) != [];
    }
  }

  /** An ASCII character's byte occurs in the encoding of a text exactly when the character
      occurs in the text: the bytes of other characters are all 0x80 or above. */
  lemma {:induction false} EncodeAsciiIn(s: string, c: char)
    requires IsAscii(c)
    ensures (c as int in Encode(s)) <==> c in s
  {
    if s != [] {
      EncodeAsciiIn(s[1..], c);
      var head := EncodeChar(s[0]);
      assert Encode(s) == head + Encode(s[1..]);
      assert s == [s[0]] + s[1..];
      if !IsAscii(s[0]) {
        assert forall i :: 0 <= i < |head| ==> head[i] >= 0x80;
      }
    }
  }

  /** The lossy decoder reads back the first encoded character, whatever follows. */
  lemma DecodeLossyCons(s: string, b: seq<byte>)
    requires s != []
    ensures DecodeLossy(Encode(s) + b) == [s[0]] + DecodeLossy(Encode(s[1..]) + b)
  {
    var rest := Encode(s[1..]) + b;
    assert Encode(s) + b == EncodeChar(s[0]) + rest;
    StepEncodeChar(s[0], rest);
    assert (EncodeChar(s[0]) + rest)[CharWidth(s[0])..] == rest;
  }

  /** Lossy decoding of encoded text followed by any bytes starts with that text. */
  lemma {:induction false} DecodeLossyAppendEncoded(s: string, b: seq<byte>)
    ensures DecodeLossy(Encode(s) + b) == s + DecodeLossy(b)
  {
    if s != [] {
      DecodeLossyCons(s, b);
      DecodeLossyAppendEncoded(s[1..], b);
      ConsConcat(DecodeLossy(Encode(s) + b), s[0], DecodeLossy(Encode(s[1..]) + b), s[1..], DecodeLossy(b));
      assert [s[0]] + s[1..] == s;
    } else {
      assert Encode(s) + b == b;
    }
  }
}
